=== FILE: README.md ===
# RustProof weakest-precondition generator in Dafny

RustProof verifies Rust functions by computing a weakest precondition over
the compiler's mid-level IR (MIR). It then hands that precondition to an SMT
solver. This project models the generator in
`src/weakest_precondition/mod.rs` and proves properties of it.

The generator walks the acyclic block graph from a block to the `Return`
blocks. Each terminator contributes a predicate:

- `Return` contributes the postcondition.
- `Goto` and `Assert` contribute their target's predicate.
- `If` contributes `(c ==> wp(then)) && (!c ==> wp(else))`.
- A call to the panic entry point contributes `false`.

The block's statements are then folded into that predicate from last to
first. Each assignment `x := rhs` does two things. First it conjoins the
safety guards `rhs` needs: bound checks for `+ - *`, and for `/ %` a
zero check, preceded by bound checks when the divisor is signed. Then it
substitutes `rhs` for `x`.

Modules, in dependency order:

- `Results`: the error type. Every `unimplemented!`, `unreachable!` and
  `rp_error!`, every out-of-range index, every missing terminator and every
  unknown type text becomes an `Err`.
- `Expressions`: the logic-tree datatype, the evaluation type of a tree,
  and substitution.
- `Decimal`: decimal rendering of indices, used for the names `tmp<N>` and
  `var<N>`.
- `Mir`: the MIR subset and the declaration tables.
- `Resolve`: storage references, operands, constants and type names, as
  done by `gen_lvalue`, `gen_expression` and `gen_ty`.
- `Semantics`: a reference evaluation of logic trees. Integers are
  unbounded, division truncates toward zero, and bit operations are left
  to an abstract machine.
- `Guards`: the bound checks and `add_zero_check`.
- `Statements`: `gen_stmt`.
- `Walker`: `gen`.
- `Execution`: a forward reading of the same MIR, plus the soundness
  theorem. The reading computes values on its own but stores them under
  the generator's names for places. If the generated precondition holds at
  a block, running from that block raises no overflow or division fault
  and reaches no panic call. Any return it reaches satisfies the
  postcondition.
- `CastRule`: the generator's cast rule drops the assignment. This module
  holds a body that shows it and a corrected rule (see Findings).
- `Aliasing`: arguments are named by their bare debug names, which can
  coincide with generated names (see Findings).
- `TupleCopy`: the generator treats a copy of a whole tuple temporary as an
  assignment to the temporary alone, leaving its fields behind. This module
  holds a body that shows it and a corrected rule (see Findings).
- `TupleAggregate`: the same happens to a tuple built into a temporary,
  `tmp<I> := (a0, …, an)`. This module holds a body that shows it and a
  corrected rule that replaces every field at once (see Findings).
- `GuardOrder`: a defect in the order in which guards and substitution are
  applied, and the corrected rule, which also takes the corrected rules of
  the three modules above (see Findings).

`src/weakest_precondition/overflow.rs` is not part of this model, and
neither is `src/expression.rs`. `overflow_check`, `string_to_type`,
`determine_evaluation_type`, `is_signed_type` and
`substitute_variable_with_expression` are modelled from how `mod.rs` uses
them:

- `OverflowCheck` conjoins `res <= MAX(t) && res >= MIN(t)`, where `t` is
  the type of the assignment's target.
- `StringToType` recognises the nine scalar type names.
- Arithmetic keeps the evaluation type of its left operand. Comparisons
  and connectives are boolean.
- Substitution replaces every occurrence of a variable with the same name
  and type.

## Model

| member | source | states |
|---|---|---|
| Walker.GenReturn | src/weakest_precondition/mod.rs:50-53 | `Walker.Gen`: a `Return` block yields the postcondition itself; its own statements are not folded |
| Walker.GenJump | src/weakest_precondition/mod.rs:44-49 | `Walker.Gen`: `Goto` and `Assert` yield the target block's precondition, with the block's statements folded backwards into it; an error at the target is propagated |
| Walker.GenAssertIgnoresCondition | src/weakest_precondition/mod.rs:44-49 | `Walker.Gen`: an `Assert` block yields the same precondition as a `Goto` to the same target, whatever its condition and expected value |
| Walker.GenBranch | src/weakest_precondition/mod.rs:74-114 | `Walker.Gen`: an `If` yields `(c ==> wp(then)) && (!c ==> wp(else))` with the block's statements folded in, and fails when either branch, the condition or a block statement fails |
| Walker.CondExpression | src/weakest_precondition/mod.rs:79-95 | a branch condition becomes its boolean literal, or the variable its read resolves to, and nothing else |
| Walker.GenCall | src/weakest_precondition/mod.rs:55-70 | `Walker.Gen` and `Walker.CallWp`: a constant callee recognised as the panic entry point yields `false` whatever the arguments and the statements; any other constant callee is unreachable, and a consumed callee is unimplemented |
| Walker.GenRefuses | src/weakest_precondition/mod.rs:116-127 | `Walker.Gen`: switches, drops, unwinding and unreachable markers are refused as unimplemented; a block index out of range and a missing terminator are errors |
| Walker.FoldReverseIsFoldBack | src/weakest_precondition/mod.rs:129-141 | `Walker.FoldStatements`: folding `gen_stmt` front to back over the reversed statement list equals the composition law that applies the last statement first and the first statement last |
| Walker.FoldStatementsAppend | src/weakest_precondition/mod.rs:138-141 | `Walker.FoldStatements`: the loop's fold over one more statement is `gen_stmt` applied to the fold so far, and an error stops the fold |
| Walker.FoldBackSequential | src/weakest_precondition/mod.rs:129-141 | `wp(s; t, Q) = wp(s, wp(t, Q))` for statement sequences |
| Walker.Reverse | src/weakest_precondition/mod.rs:130-131 | the reversed list has the same length, and element `i` is element `n-1-i` of the original |
| Walker.GenFrame | src/weakest_precondition/mod.rs:38-150 | `Walker.Gen`: a block's precondition depends only on the blocks of lower rank it can reach |
| Statements.ArithmeticGuard | src/weakest_precondition/mod.rs:244-259 | `Statements.GenRhs`: add, sub and mul, checked or plain, route the predicate through the overflow check on `l op r` at the target's type, and are refused only for a boolean target |
| Statements.DivisionGuard | src/weakest_precondition/mod.rs:208-225 | `Statements.GenRhs`: div and rem, checked or plain, end with the divisor's zero check; the overflow check comes first exactly when the divisor's type is signed; a boolean divisor is refused |
| Statements.DivisionGuardedPredicate | src/weakest_precondition/mod.rs:260-277 | `Statements.GenRhs`: the guarded predicate of a division is `(signed ? overflow_check(wp) : wp) && r != 0`, with the zero of `r`'s own type |
| Statements.UnguardedOperators | src/weakest_precondition/mod.rs:278-288 | `Statements.GenRhs`: bitwise operators, shifts and comparisons add no guard; in checked form only shifts are accepted |
| Statements.BinaryKeyAndReplacement | src/weakest_precondition/mod.rs:231-238 | `Statements.GenStmt` and `Statements.GenRhs`: a checked operation rewrites the predicate at `<target>.0` and a plain one at the target; both substitute `l op r` with the matching operator |
| Statements.UnaryOperatorChoice | src/weakest_precondition/mod.rs:298-315 | `Statements.GenRhs`: `!` becomes logical `Not` exactly on a boolean operand and bitwise complement exactly on any other; `-` is always `Negation`; no guard is added |
| Statements.UseSubstitutes | src/weakest_precondition/mod.rs:317-319 | `Statements.GenStmt`: a plain read substitutes the operand for the target, with no guard |
| Statements.CastAndRefKeepPredicate | src/weakest_precondition/mod.rs:338-345 | `Statements.GenStmt`: a cast or a reference substitutes the target for itself, leaving the predicate unchanged |
| Statements.AggregateOnlyTuples | src/weakest_precondition/mod.rs:321-335 | `Statements.GenRhs`: non-tuple aggregates are unsupported; a tuple is accepted exactly when every component's type resolves |
| Statements.TupleComponents | src/weakest_precondition/mod.rs:323-331 | `Statements.GenRhs`: each tuple component becomes a variable named by the operand's printed form and typed by its declared type |
| Guards.AddZeroCheck | src/weakest_precondition/mod.rs:404-444 | `wp && exp != 0`, with the zero taking `exp`'s width and signedness; a boolean `exp` is refused |
| Guards.ZeroLiteral | src/weakest_precondition/mod.rs:406-430 | a signed or unsigned bit-vector zero of the type's width exists exactly for integer types |
| Guards.AddZeroCheckMeaning | src/weakest_precondition/mod.rs:432-443 | the zero check holds exactly when `wp` holds and `exp` is not zero |
| Guards.ZeroOf | src/weakest_precondition/mod.rs:406-430 | the zero of an integer type has that type, is signed exactly when the type is, and carries 0 |
| Guards.OverflowCheck | src/weakest_precondition/mod.rs:247 | the overflow check is refused exactly for a boolean target, and otherwise mentions exactly the variables of `wp`, `l` and `r` |
| Guards.OverflowCheckMeaning | src/weakest_precondition/mod.rs:247 | the overflow check holds exactly when `wp` holds and the mathematical value of `l op r` is representable in the target's type |
| Guards.BoundsMeaning | src/weakest_precondition/mod.rs:247 | the bound checks hold exactly when the value is representable in the type |
| Guards.SignedTypeMeaning | src/weakest_precondition/mod.rs:406 | `Expressions.IsSignedType`: a type is signed exactly when it is an integer type whose range reaches below zero; every integer range contains 0 and some positive value |
| Resolve.StringToType | src/weakest_precondition/mod.rs:465 | an unrecognised type text fails with an unknown-type error |
| Resolve.StringToTypeRoundTrip | src/weakest_precondition/mod.rs:388 | every scalar type is recognised by its Rust name, and only those names are recognised |
| Resolve.GenExpression | src/weakest_precondition/mod.rs:582-659 | an operand becomes a leaf: a read becomes the variable its lvalue resolves to, and fails exactly when that does; a boolean constant becomes its literal |
| Resolve.IntegralLeaf | src/weakest_precondition/mod.rs:596-647 | an integer constant becomes a bit-vector leaf of its own width and signedness carrying its value; other widths are unimplemented |
| Resolve.NamesDistinct | src/weakest_precondition/mod.rs:469-496 | `Resolve.GenLvalue`: distinct temporaries get distinct names, and so do distinct locals; a temporary, a local and `return` never share a name |
| Resolve.ProjectionNamesInjective | src/weakest_precondition/mod.rs:521-562 | a field name `tmp<I>.<F>` determines both the temporary and the field, and never equals a plain temporary's name |
| Resolve.BaseNamesDistinct | src/weakest_precondition/mod.rs:461-496 | when no argument name is reserved and no two arguments share one, distinct arguments, temporaries, locals and `return` get distinct names, none of them containing a `.` |
| Resolve.FieldNameInjective | src/weakest_precondition/mod.rs:521-562 | a field name `<base>.<F>` over a base without a `.` contains a `.` and determines both the base and the field |
| Resolve.GenLvalueName | src/weakest_precondition/mod.rs:458-566 | `Resolve.GenLvalue`: a place that resolves is a base place named by its base name, or a field of an argument, temporary or local named `<base>.<field>` |
| Resolve.PlacesDistinct | src/weakest_precondition/mod.rs:458-566 | `Resolve.GenLvalue`: under admissible argument names, any two distinct places that resolve, projections included, get distinct names |
| Resolve.GenTyAgreesWithGenLvalue | src/weakest_precondition/mod.rs:372-389 | `Resolve.GenTy`: for a scalar declaration, the operand type agrees with the type of the variable the read resolves to, and one resolves exactly when the other does |
| Decimal.NatToString | src/weakest_precondition/mod.rs:478 | an index renders as digits only, with no leading zero, and reads back as the index |
| Decimal.NatToStringInjective | src/weakest_precondition/mod.rs:486 | distinct indices render differently |
| Expressions.Substitute | src/weakest_precondition/mod.rs:352-355 | a predicate that does not mention the variable is unchanged; a replacement that does not mention it eliminates it; no new variables appear |
| Expressions.SubstituteAll | src/weakest_precondition/mod.rs:352-355 | the substitution loop over a single expression is a single substitution |
| Expressions.SubstituteSelf | src/weakest_precondition/mod.rs:338-345 | substituting a variable for itself changes nothing |
| Semantics.SubstituteSound | src/weakest_precondition/mod.rs:352-355 | the rewritten predicate evaluates as the original does once the variable holds the replacement's value |
| Semantics.ConnectivesMeaning | src/weakest_precondition/mod.rs:97-114 | `And`, `Implication` and `Not` trees mean conjunction, implication and negation |
| Semantics.EvaluationTypeMeaning | src/weakest_precondition/mod.rs:406-421 | `Expressions.DetermineEvaluationType`: a tree typed `Bool` by its operator (a boolean literal, `Not`, a comparison or connective) evaluates to a truth value; a bit-vector leaf is typed by an integer type, signed exactly for a signed leaf, and evaluates to its number; a variable has its declared type; arithmetic has its left operand's type |
| Execution.GenSound | src/weakest_precondition/mod.rs:38-150 | when the generated precondition holds at a block, the run from there neither faults nor panics, and any return satisfies the postcondition (for a body in which guarded operations do not read their own target, no statement is a cast, copies a tuple temporary as a whole or builds a tuple into one, argument names are admissible and return blocks are empty) |
| Execution.JumpSound | src/weakest_precondition/mod.rs:44-49 | at a `Goto` or `Assert` block the statements lead to a state satisfying the target's precondition, and the run is safe |
| Execution.BranchSound | src/weakest_precondition/mod.rs:74-114 | at an `If` block the statements lead to a state satisfying the merged predicate, and the branch taken runs safely |
| Execution.RunSound | src/weakest_precondition/mod.rs:129-141 | when a block's folded precondition holds, running its statements continues in a state satisfying the seed predicate or stops harmlessly |
| Execution.StepSound | src/weakest_precondition/mod.rs:165-361 | when one assignment's precondition holds, running it continues in a state satisfying the incoming predicate or stops harmlessly |
| Execution.BinaryStepSound | src/weakest_precondition/mod.rs:189-296 | the same for checked and plain binary assignments |
| Execution.BinarySound | src/weakest_precondition/mod.rs:241-296 | when the guarded, rewritten predicate holds, `key := a op b` neither overflows nor divides by zero, and keeps the predicate |
| Execution.ArithmeticSound | src/weakest_precondition/mod.rs:245-259 | for add, sub and mul the bound check keeps the stored result in the target's range |
| Execution.DivisionSound | src/weakest_precondition/mod.rs:260-277 | for div and rem the zero check rules out a zero divisor, and for a signed divisor the bound check keeps the result in range |
| Execution.UnaryStepSound | src/weakest_precondition/mod.rs:298-315 | a unary assignment keeps the predicate |
| Execution.UseStepSound | src/weakest_precondition/mod.rs:317-319 | a plain read keeps the predicate |
| Execution.GenExpressionMeaning | src/weakest_precondition/mod.rs:582-659 | an operand's leaf exists exactly when the operand has a value, and then evaluates to that value and has the operand's type |
| Execution.GenExpressionMentions | src/weakest_precondition/mod.rs:585-587 | an operand's leaf mentions exactly the variable the operand reads |
| Execution.CondExpressionMeaning | src/weakest_precondition/mod.rs:79-95 | a branch condition's tree evaluates to the condition's value |
| Execution.UnaryOperatorMeaning | src/weakest_precondition/mod.rs:300-309 | the operator chosen for `!` or `-` computes what that MIR operation computes, on booleans and integers alike |
| Execution.OperatorOfMeaning | src/weakest_precondition/mod.rs:278-288 | each logic-tree operator picked for a MIR binary operator computes what that operator computes |
| GuardOrder.GuardLastSound | src/weakest_precondition/mod.rs:352-355 | with the guards conjoined after the substitution, and casts, tuple copies and tuples built into temporaries taking the corrected rules, a statement's precondition guarantees that it neither faults nor breaks the predicate, even when it reads its own target; for a reference or any other aggregate this holds only because the forward reading stops there as untracked |
| GuardOrder.GuardLastAgreesWhenConforming | src/weakest_precondition/mod.rs:189-296 | when no guarded operand reads the target and the statement is neither a cast, a tuple copy nor a tuple built into a temporary, the corrected rule builds the same tree as the generator |
| GuardOrder.SelfReadCounterexample | src/weakest_precondition/mod.rs:250-254 | for `x := y - x` in `i8` with `x = 1`, `y = -128` and postcondition `true`, the generator's precondition holds, the step overflows, and the corrected precondition is false |
| CastRule.CastSound | src/weakest_precondition/mod.rs:338-340 | with the corrected cast rule, `q[target := a] && MIN(T) <= a <= MAX(T)`, a cast's precondition guarantees that the cast keeps the operand's value and leaves a state satisfying `q` |
| CastRule.CastCounterexample | src/weakest_precondition/mod.rs:338-340 | for `y := 0; y := x as i32; return := y` with postcondition `return == 0`, the generator's precondition holds in every state, yet from `x = 5` the body returns 5 |
| CastRule.CastCorrectedRejects | src/weakest_precondition/mod.rs:338-340 | the corrected rule on `y := x as i32` against `y == 0` yields a precondition that is false at `x = 5` |
| Aliasing.AliasResolves | src/weakest_precondition/mod.rs:461-466 | an argument whose debug name is `tmp0` resolves to the same variable as temporary 0 |
| Aliasing.AliasCounterexample | src/weakest_precondition/mod.rs:461-466 | for `tmp0 := 7; return := arg0` with an argument named `tmp0` and postcondition `return == 7`, the generator's precondition is `7 == 7`, true in every state, and the argument names are not admissible |
| TupleCopy.SlotsSound | src/weakest_precondition/mod.rs:317-319 | substituting each slot's source for its target, last slot first, yields a predicate that holds exactly where the original holds after the slots are copied in order |
| TupleCopy.TupleCopySound | src/weakest_precondition/mod.rs:317-319 | with the corrected rule, which substitutes the source for the whole temporary and for each of its fields, a copy `tmp<I> := tmp<J>` of a tuple temporary leaves a state satisfying `q` |
| TupleCopy.TupleSlotsDisjoint | src/weakest_precondition/mod.rs:469-480 | the slots of a copy between distinct tuple temporaries, the whole temporary and each `tmp<I>.<F>`, have pairwise distinct targets, none of which is a source |
| TupleCopy.TupleCopyMovesFields | src/weakest_precondition/mod.rs:521-530 | after a copy between distinct tuple temporaries, field `F` of the copy, as `gen_lvalue` names it, holds what field `F` of the source held |
| TupleCopy.CopyCounterexample | src/weakest_precondition/mod.rs:317-319 | for `tmp0 := tmp1; return := tmp0.0` over two `(i32, bool)` temporaries with postcondition `return == 7`, the generator's precondition `tmp0.0 == 7` holds at `tmp0.0 = 7, tmp1.0 = 3`, yet the body returns 3 |
| TupleCopy.CopyCorrectedRejects | src/weakest_precondition/mod.rs:317-319 | the corrected rule on `tmp0 := tmp1` against `tmp0.0 == 7` yields a precondition that is false at `tmp0.0 = 7, tmp1.0 = 3` |
| TupleAggregate.ParallelSound | src/weakest_precondition/mod.rs:321-335 | replacing a list of variables by their expressions all at once yields a predicate that holds exactly where the original holds once every listed variable holds its expression's value, the later listing of a variable winning |
| TupleAggregate.TupleAggregateSound | src/weakest_precondition/mod.rs:321-335 | with the corrected rule, which replaces every field `tmp<I>.<F>` by the leaf of component `F`, and `tmp<I>` by that of the first component, all at once, a tuple built into a tuple temporary leaves a state satisfying `q` |
| TupleAggregate.TupleAggregateFillsFields | src/weakest_precondition/mod.rs:521-530 | after `tmp<I> := (a0, …, an)`, field `F` of the temporary, as `gen_lvalue` names it, holds the value `aF` had before, and `tmp<I>` holds that of `a0` |
| TupleAggregate.BuildCounterexample | src/weakest_precondition/mod.rs:321-335 | for `tmp0 := (var0, var1); return := tmp0.0` with an `(i32, bool)` temporary, components printed as `var0` and `var1`, and postcondition `return == 7`, the generator's precondition `tmp0.0 == 7` holds at `tmp0.0 = 7, var0 = 3`, yet the body returns 3 |
| TupleAggregate.BuildCorrectedRejects | src/weakest_precondition/mod.rs:321-335 | the corrected rule on `tmp0 := (var0, var1)` against `tmp0.0 == 7` yields a precondition that is false at `var0 = 3` |

## Left out

- Debug tracing (`println!` behind the `debug` flag) is observational and not modelled.
- The postcondition is an `Expression`, not an `Option<Expression>`: every caller passes `Some`, and `unwrap` on the result never fails, because `gen` either returns `Some` or panics.
- Two facts are read off the compiler's debug rendering: whether a constant callee's literal contains `begin_panic`, and an operand's printed form (used for tuple component names). Both are hooks in the declaration tables (`isPanicEntry`, `operandText`), not computed.
- The generator recurses forever on a cyclic block graph. The model takes a ghost rank that witnesses acyclicity and covers acyclic bodies only.
- Panics of the source (`unimplemented!`, `unreachable!`, `rp_error!`, out-of-range indices, `unwrap` of a missing terminator or of an unparsable field index) become `Err` values. The messages are not modelled.
- A field projection over a local parses the field index back from its decimal text. The model uses the index directly.
- Bit-level operators, shifts and bitwise complement are left to an abstract machine. The generator never interprets them.
- Execution.GenSound: the forward reading faults only where the generator places guards: add, sub and mul out of range, a zero divisor, and a signed division or remainder out of range. Negation overflow, oversized shifts and `MIN % -1` are not faults in it. rustc checks those through `Assert` terminators, whose conditions the generator does not interpret, and an assertion that fails is outside the guarantee.
- Execution.Binary: the remainder half of the signed range fault never fires on operands within the type, because a truncated remainder is always smaller in magnitude than the divisor. The generator's signed remainder guard bounds `l % r`, so it does not exclude `MIN % -1` (on `i8`, `-128 % -1` passes the guard); rustc traps that case through an `Assert` terminator.
- Execution.GenSound: requires every return block to hold no statements, because the generator does not fold a return block's statements.
- Execution.GenSound: requires guarded operations not to read the variable they assign (see Findings).
- Execution.GenSound: requires that no statement is a cast, because the generator's cast rule drops the assignment and is unsound (see Findings). The corrected rule is proved sound by `CastRule.CastSound`.
- Execution.GenSound: requires admissible argument names: no argument may be called `return`, `tmp<N>` or `var<N>`, contain a `.`, or share its name with another argument. The forward reading keys values by the generator's names. Without this requirement two places with one name would share a value, and the theorem would hold only because of that merging (see Findings).
- Execution.GenSound: requires that no statement copies a tuple temporary as a whole (`tmp<I> := tmp<J>`), because the generator substitutes for `tmp<I>` only and leaves its fields `tmp<I>.<F>` unchanged (see Findings). The forward reading copies every field, so the theorem no longer holds merely because the two readings share names. The corrected rule is proved sound by `TupleCopy.TupleCopySound`.
- Execution.GenSound: requires that no statement builds a tuple into a tuple temporary (`tmp<I> := (a0, …, an)`), because the generator substitutes the components' printed names for `tmp<I>` only and leaves its fields `tmp<I>.<F>` unchanged (see Findings). The forward reading stores every component in its field. The corrected rule is proved sound by `TupleAggregate.TupleAggregateSound`.
- Any other access to a tuple temporary as a whole ends the forward reading as untracked: a whole-tuple operand of a plain read, cast or operator, or a whole-tuple target of anything other than a checked operation, a copy or a tuple built in place. The generator refuses a tuple constant as an operand, and the remaining accesses, like field projections of an argument or local that is not a tuple, occur only in ill-typed MIR.
- The overflow flag `.1` of a checked operation is not written by the forward reading. The generator never substitutes for it.
- References end the forward reading as untracked, and so do aggregates other than a tuple built into a tuple temporary. The generator treats a reference as leaving the predicate unchanged, and the model has no memory of borrows to check that against. The generator refuses aggregates other than tuples. A tuple written to a place other than a tuple temporary is ill-typed, or is refused because a whole tuple argument or local has no name. Components are named through the printed-form hook `operandText`, which the model does not interpret, so the generator's own rule for a tuple can only be compared with the forward reading through the fields it leaves behind.
- A cast is read as an assignment of its operand's value when that value fits the target type. Otherwise the forward reading stops as untracked, since wrap-around casts are not modelled.
- `src/weakest_precondition/overflow.rs` and `src/expression.rs` are not part of this model. Their functions are modelled as described above.

## Findings

| source | as written | input that shows it | evidently intended | confidence | as-written member | corrected member |
|---|---|---|---|---|---|---|
| src/weakest_precondition/mod.rs:247-257 | the overflow guard on `l op r` is conjoined to the predicate before `l op r` is substituted for the target (line 354), so the substitution also rewrites the guard | `x := y - x` on `i8` locals with `x = 1`, `y = -128` and postcondition `true`: the guard becomes a bound on `y - (y - x) = 1`, which holds, but `-128 - 1` overflows | the guard should constrain the operands' values before the assignment, that is, be conjoined after the substitution | medium, not executed | GuardOrder.SelfReadCounterexample | GuardOrder.GuardLastSound |
| src/weakest_precondition/mod.rs:338-340 | a cast `target := a as T` pushes the target itself as the replacement (marked FIXME), so the predicate passes through unchanged and the assignment is lost | `y := 0; y := x as i32; return := y` on `i32` locals with postcondition `return == 0`: the precondition is `0 == 0`, true in every state, yet from `x = 5` the function returns 5 | the operand should be substituted for the target, guarded by the target type's bounds on the operand (a lossless cast) | high, not executed | CastRule.CastCounterexample | CastRule.CastSound |
| src/weakest_precondition/mod.rs:461-466 | an argument is named by its bare debug name (also at line 517), in the namespace the generator uses for `tmp<N>`, `var<N>`, `return` and the other arguments | an argument named `tmp0`, body `tmp0 := 7; return := arg0`, postcondition `return == 7`: both places become the variable `tmp0`, and the precondition is `7 == 7`, true for every argument value | an argument should get a name no other place can have | medium, not executed | Aliasing.AliasCounterexample | Resolve.PlacesDistinct |
| src/weakest_precondition/mod.rs:317-319 | a copy `tmp<I> := tmp<J>` of a tuple temporary substitutes `tmp<J>` for the variable `tmp<I>` (named at line 478) only, while the fields are separate variables `tmp<I>.<F>` (line 523), so a predicate about a field of the copy passes through unchanged | two `(i32, bool)` temporaries, body `tmp0 := tmp1; return := tmp0.0`, postcondition `return == 7`: the precondition is `tmp0.0 == 7`, which holds at `tmp0.0 = 7, tmp1.0 = 3`, yet the function returns 3 | a whole-tuple copy should substitute each field `tmp<J>.<F>` for `tmp<I>.<F>` as well as `tmp<J>` for `tmp<I>` | medium, not executed | TupleCopy.CopyCounterexample | TupleCopy.TupleCopySound |
| src/weakest_precondition/mod.rs:321-335 | a tuple `tmp<I> := (a0, …, an)` built into a temporary substitutes each component's printed name for the variable `tmp<I>` (named at line 478) in turn, and never for the fields `tmp<I>.<F>` (line 523), so a predicate about a field of the new tuple passes through unchanged | an `(i32, bool)` temporary and `i32`/`bool` locals, body `tmp0 := (var0, var1); return := tmp0.0` (as `let (x, _) = (a, b)` lowers), postcondition `return == 7`: the precondition is `tmp0.0 == 7`, which holds at `tmp0.0 = 7, var0 = 3`, yet the function returns 3 | each field `tmp<I>.<F>` should be replaced by component `F`, all components at once | medium, not executed | TupleAggregate.BuildCounterexample | TupleAggregate.TupleAggregateSound |

=== FILE: aliasing.dfy ===
/** Argument names. An argument is named by its debug name alone, so an
    argument called `tmp0` is the same variable as the temporary `tmp0` in
    the logic tree. A body that overwrites the temporary and returns the
    argument then gets a precondition about the temporary's new value. */
module Aliasing {
  import opened Results
  import opened Expressions
  import opened Decimal
  import opened Mir
  import opened Resolve
  import opened Semantics
  import opened Statements
  import opened Walker

  /** One `i32` argument whose debug name is `tmp0`, one `i32` temporary,
      returning `i32`. */
  const AliasDecls: Declarations :=
    Declarations([ArgDecl("tmp0", Named("i32"))], [TempDecl(Named("i32"))], [], I32, _ => false, _ => "")

  const Tmp0 := VariableMappingData("tmp0", I32)
  const AliasRet := VariableMappingData("return", I32)

  /** The constant `7i32`. */
  const SevenI32: Operand := Operand.Constant(Constant.Constant(Named("i32"), Value(Integral(ConstI32(7)))))

  /** `tmp0 := 7; return := arg0` */
  const AliasBody: seq<Statement> :=
    [Assign(Temp(0), Use(SevenI32)), Assign(ReturnPointer, Use(Consume(Arg(0))))]

  /** `return == 7` */
  const ReturnsSeven := BinaryExpression(Equal, VariableMapping(AliasRet), SignedBitVector(32, 7))

  /** `7 == 7` */
  const SevenIsSeven := BinaryExpression(Equal, SignedBitVector(32, 7), SignedBitVector(32, 7))

  /** The argument and the temporary resolve to the same variable. */
  lemma AliasResolves()
    ensures GenLvalue(Arg(0), AliasDecls) == Ok(Tmp0)
    ensures GenLvalue(Temp(0), AliasDecls) == Ok(Tmp0)
    ensures GenLvalue(ReturnPointer, AliasDecls) == Ok(AliasRet)
    ensures GenExpression(SevenI32, AliasDecls) == Ok(SignedBitVector(32, 7))
  {
    assert NatToString(0) == "0";
    assert TempName(0) == "tmp0";
    StringToTypeRoundTrip(I32, "i32");
  }

  /** With postcondition `return == 7`, the generator's precondition of
      `tmp0 := 7; return := arg0` is `7 == 7`, true in every state, although
      the body returns its argument, which may be anything. The declarations
      are not admissible. */
  lemma AliasCounterexample(env: Env, m: Machine)
    ensures GenLvalue(Arg(0), AliasDecls) == GenLvalue(Temp(0), AliasDecls)
    ensures FoldBack(AliasBody, ReturnsSeven, AliasDecls) == Ok(SevenIsSeven)
    ensures Holds(SevenIsSeven, env, m)
    ensures !ArgNamesAdmissible(AliasDecls)
  {
    AliasResolves();
    var q2 := BinaryExpression(Equal, VariableMapping(Tmp0), SignedBitVector(32, 7));
    assert GenStmt(ReturnsSeven, AliasBody[1], AliasDecls) == Ok(q2);
    assert FoldBack(AliasBody[2..], ReturnsSeven, AliasDecls) == Ok(ReturnsSeven);
    assert AliasBody[1..][1..] == AliasBody[2..];
    assert FoldBack(AliasBody[1..], ReturnsSeven, AliasDecls) == Ok(q2);
    assert GenStmt(q2, AliasBody[0], AliasDecls) == Ok(SevenIsSeven);
    NumberedNameOf("tmp", 0);
    assert ReservedName(AliasDecls.args[0].debugName);
  }
}

=== FILE: cast_rule.dfy ===
/** Casts. The generator treats `target := a as T` as `target := target`, so
    the predicate passes through unchanged and the assignment is lost: a body
    that overwrites a variable with a cast gets a precondition about the
    variable's old value. The corrected rule substitutes the operand for the
    target and guards that the operand's value fits the target type, which is
    the case in which an `as` cast keeps the value. */
module CastRule {
  import opened Results
  import opened Expressions
  import opened Decimal
  import opened Mir
  import opened Resolve
  import opened Semantics
  import opened Guards
  import opened Statements
  import opened Walker
  import opened Execution

  /** Corrected precondition of `target := a as T` with respect to `q`:
      `q[target := a] && MIN(T) <= a <= MAX(T)`. A cast to `bool` is refused. */
  function GenCast(q: Expression, target: VariableMappingData, a: Operand, decls: Declarations): Result<Expression> {
    var e :- GenExpression(a, decls);
    if target.varType == Bool then Err(Unsupported)
    else Ok(Conjoin(Substitute(q, target, e), Bounds(target.varType, e)))
  }

  /** The corrected cast rule is sound: when its precondition holds, the cast
      keeps the operand's value and leaves a state satisfying `q`, or stops
      harmlessly. */
  lemma CastSound(q: Expression, lvalue: Lvalue, a: Operand, env: Env, decls: Declarations, m: Machine)
    requires GenLvalue(lvalue, decls).Ok?
    requires GenCast(q, GenLvalue(lvalue, decls).value, a, decls).Ok?
    requires Holds(GenCast(q, GenLvalue(lvalue, decls).value, a, decls).value, env, m)
    ensures StepEstablishes(Step(Assign(lvalue, Cast(a)), env, decls, m), q, m)
  {
    var target := GenLvalue(lvalue, decls).value;
    var e := GenExpression(a, decls).value;
    var sub := Substitute(q, target, e);
    var b := Bounds(target.varType, e);
    assert GenCast(q, target, a, decls).value == Conjoin(sub, b);
    ConnectivesMeaning(sub, b, env, m);
    BoundsMeaning(target.varType, e, env, m);
    GenExpressionMeaning(a, env, decls, m);
    SubstituteSound(q, target, e, env, m);
  }

  // ---------------------------------------------------------------------
  // A body the generator's rule proves although it returns its argument
  // ---------------------------------------------------------------------

  /** Two `i32` locals, `x` (`var0`) and `y` (`var1`), returning `i32`. */
  const CastDecls: Declarations :=
    Declarations([], [], [VarDecl("x", Named("i32")), VarDecl("y", Named("i32"))], I32, _ => false, _ => "")

  const CX := VariableMappingData("var0", I32)
  const CY := VariableMappingData("var1", I32)
  const Ret := VariableMappingData("return", I32)

  /** The constant `0i32`. */
  const ZeroI32: Operand := Operand.Constant(Constant.Constant(Named("i32"), Value(Integral(ConstI32(0)))))

  /** `y := 0; y := x as i32; return := y` */
  const CastBody: seq<Statement> :=
    [Assign(Var(1), Use(ZeroI32)), Assign(Var(1), Cast(Consume(Var(0)))), Assign(ReturnPointer, Use(Consume(Var(1))))]

  /** `return == 0` */
  const ReturnsZero := BinaryExpression(Equal, VariableMapping(Ret), SignedBitVector(32, 0))

  /** `0 == 0` */
  const ZeroIsZero := BinaryExpression(Equal, SignedBitVector(32, 0), SignedBitVector(32, 0))

  lemma CastBodyResolves()
    ensures GenLvalue(Var(0), CastDecls) == Ok(CX)
    ensures GenLvalue(Var(1), CastDecls) == Ok(CY)
    ensures GenLvalue(ReturnPointer, CastDecls) == Ok(Ret)
    ensures GenExpression(ZeroI32, CastDecls) == Ok(SignedBitVector(32, 0))
  {
    assert NatToString(0) == "0" && NatToString(1) == "1";
    assert VarName(0) == "var0" && VarName(1) == "var1";
    StringToTypeRoundTrip(I32, "i32");
  }

  /** The generator's precondition of the body is `0 == 0`, true in every state. */
  lemma CastBodyPrecondition(env: Env, m: Machine)
    ensures FoldBack(CastBody, ReturnsZero, CastDecls) == Ok(ZeroIsZero)
    ensures Holds(ZeroIsZero, env, m)
  {
    CastBodyResolves();
    var s1, s2, s3 := CastBody[0], CastBody[1], CastBody[2];
    var q3 := BinaryExpression(Equal, VariableMapping(CY), SignedBitVector(32, 0));
    assert GenStmt(ReturnsZero, s3, CastDecls) == Ok(q3);
    assert FoldBack(CastBody[3..], ReturnsZero, CastDecls) == Ok(ReturnsZero);
    assert CastBody[2..][1..] == CastBody[3..];
    assert FoldBack(CastBody[2..], ReturnsZero, CastDecls) == Ok(q3);
    SubstituteSelf(q3, CY);
    assert GenStmt(q3, s2, CastDecls) == Ok(q3);
    assert CastBody[1..][1..] == CastBody[2..];
    assert FoldBack(CastBody[1..], ReturnsZero, CastDecls) == Ok(q3);
    assert GenStmt(q3, s1, CastDecls) == Ok(ZeroIsZero);
  }

  /** The three steps of the body from `x = 5`. */
  lemma CastBodySteps(m: Machine)
    ensures var e1 := map[CX := IntV(5)][CY := IntV(0)];
            Step(CastBody[0], map[CX := IntV(5)], CastDecls, m) == Next(e1)
            && Step(CastBody[1], e1, CastDecls, m) == Next(e1[CY := IntV(5)])
            && Step(CastBody[2], e1[CY := IntV(5)], CastDecls, m) == Next(e1[CY := IntV(5)][Ret := IntV(5)])
  {
    CastBodyResolves();
  }

  /** Running the body from `x = 5` returns 5. */
  lemma CastBodyReturnsArgument(m: Machine)
    ensures var run := RunStatements(CastBody, map[CX := IntV(5)], CastDecls, m);
            run.Next? && Lookup(run.env, Ret) == IntV(5) && !Holds(ReturnsZero, run.env, m)
  {
    CastBodySteps(m);
    var e0: Env := map[CX := IntV(5)];
    var e1 := e0[CY := IntV(0)];
    var e2 := e1[CY := IntV(5)];
    var e3 := e2[Ret := IntV(5)];
    assert RunStatements(CastBody[3..], e3, CastDecls, m) == Next(e3);
    assert CastBody[2..][1..] == CastBody[3..];
    assert RunStatements(CastBody[2..], e2, CastDecls, m) == Next(e3);
    assert CastBody[1..][1..] == CastBody[2..];
    assert RunStatements(CastBody[1..], e1, CastDecls, m) == Next(e3);
    assert RunStatements(CastBody, e0, CastDecls, m) == Next(e3);
    assert Eval(ReturnsZero, e3, m) == BoolV(false);
  }

  /** With postcondition `return == 0`, the generator's precondition of
      `y := 0; y := x as i32; return := y` holds in every state, yet from
      `x = 5` the body returns 5. */
  lemma CastCounterexample(env: Env, m: Machine)
    ensures FoldBack(CastBody, ReturnsZero, CastDecls).Ok?
    ensures Holds(FoldBack(CastBody, ReturnsZero, CastDecls).value, env, m)
    ensures var run := RunStatements(CastBody, map[CX := IntV(5)], CastDecls, m);
            run.Next? && !Holds(ReturnsZero, run.env, m)
  {
    CastBodyPrecondition(env, m);
    CastBodyReturnsArgument(m);
  }

  /** The corrected rule on `y := x as i32` with respect to `y == 0` demands
      `x == 0`, which is false at `x = 5`. */
  lemma CastCorrectedRejects(m: Machine)
    ensures var q := BinaryExpression(Equal, VariableMapping(CY), SignedBitVector(32, 0));
            GenCast(q, CY, Consume(Var(0)), CastDecls).Ok?
            && !Holds(GenCast(q, CY, Consume(Var(0)), CastDecls).value, map[CX := IntV(5)], m)
  {
    CastBodyResolves();
    var q := BinaryExpression(Equal, VariableMapping(CY), SignedBitVector(32, 0));
    var e := VariableMapping(CX);
    var env: Env := map[CX := IntV(5)];
    assert GenCast(q, CY, Consume(Var(0)), CastDecls) == Ok(Conjoin(Substitute(q, CY, e), Bounds(I32, e)));
    assert Substitute(q, CY, e) == BinaryExpression(Equal, e, SignedBitVector(32, 0));
    assert Eval(e, env, m) == IntV(5);
    assert Eval(SignedBitVector(32, 0), env, m) == IntV(0);
    assert Eval(Substitute(q, CY, e), env, m) == BoolV(false);
    assert !Holds(Substitute(q, CY, e), env, m);
    ConnectivesMeaning(Substitute(q, CY, e), Bounds(I32, e), env, m);
  }
}

=== FILE: decimal.dfy ===
/** Decimal rendering of indices, as `usize::to_string` produces it; the
    generator builds the names `tmp<N>` and `var<N>` with it. */
module Decimal {

  predicate IsDigit(c: char) {
    '0' <= c <= '9'
  }

  predicate AllDigits(s: string) {
    forall i :: 0 <= i < |s| ==> IsDigit(s[i])
  }

  function DigitChar(d: nat): (c: char)
    requires d < 10
    ensures IsDigit(c)
  {
    ('0' as int + d) as char
  }

  function DigitValue(c: char): (d: nat)
    requires IsDigit(c)
    ensures d < 10
  {
    c as int - '0' as int
  }

  /** The number a string of decimal digits denotes (the reading direction). */
  function DecimalValue(s: string): nat
    requires AllDigits(s)
  {
    if |s| == 0 then 0 else 10 * DecimalValue(s[..|s| - 1]) + DigitValue(s[|s| - 1])
  }

  /** Shortest decimal rendering of `n`: digits only, no leading zero, and it
      reads back as `n`. */
  function NatToString(n: nat): (s: string)
    ensures |s| > 0 && AllDigits(s)
    ensures |s| > 1 ==> s[0] != '0'
    ensures DecimalValue(s) == n
  {
    if n < 10 then [DigitChar(n)]
    else
      var prefix := NatToString(n / 10);
      var s := prefix + [DigitChar(n % 10)];
      assert s[..|s| - 1] == prefix;
      s
  }

  /** Distinct indices render to distinct names. */
  lemma NatToStringInjective(a: nat, b: nat)
    requires NatToString(a) == NatToString(b)
    ensures a == b
  {
    assert DecimalValue(NatToString(a)) == DecimalValue(NatToString(b));
  }
}

=== FILE: execution.dfy ===
/** A forward reading of the MIR the generator accepts, and the theorem that
    connects the two: when the generated precondition holds at a block's
    entry, running the body from there raises no overflow or division fault,
    reaches no panic call, and every return satisfies the postcondition.

    The reading is independent of the generator in how values flow, not in
    how places are named: reads and writes go through `GenLvalue`, so a
    place's value is stored under the generator's name for it. Distinct
    places get distinct names (`PlacesDistinct`, under admissible argument
    names), and the only overlapping places the reading meets, a tuple
    temporary and its fields, are written as a whole only by a copy or a
    tuple built in place, both of which write every field; any other
    whole-tuple access ends the reading. */
module Execution {
  import opened Results
  import opened Expressions
  import opened Mir
  import opened Resolve
  import opened Semantics
  import opened Guards
  import opened Statements
  import opened Walker

  datatype FaultKind = Overflow | DivisionByZero

  /** How a run ends. `AssertFailed` is an `Assert` terminator whose condition
      does not match; `Untracked` is a statement whose effect this reading
      does not follow (lossy casts, references, aggregates other than a tuple
      built into a tuple temporary, other whole-tuple accesses); `Stuck` is anything
      the reading does not give a meaning to. */
  datatype Outcome =
    | Returned(env: Env)
    | Panicked
    | Fault(kind: FaultKind)
    | AssertFailed
    | Untracked
    | Stuck

  datatype StepResult = Next(env: Env) | Stop(outcome: Outcome)

  /** The value of an operand: a read looks the resolved variable up, a
      constant denotes itself. */
  function OperandValue(a: Operand, env: Env, decls: Declarations): Option<Value> {
    match a
    case Consume(l) =>
      (match GenLvalue(l, decls)
       case Ok(x) => Some(Lookup(env, x))
       case Err(_) => None)
    case Constant(c) =>
      (match c.literal
       case Value(BoolConst(b)) => Some(BoolV(b))
       case Value(Integral(ci)) => if ConstIntType(ci).Some? then Some(IntV(ConstIntValue(ci))) else None
       case _ => None)
  }

  /** The type of an operand: that of the variable read, or the constant's own. */
  function OperandType(a: Operand, decls: Declarations): Option<Types> {
    match a
    case Consume(l) =>
      (match GenLvalue(l, decls)
       case Ok(x) => Some(x.varType)
       case Err(_) => None)
    case Constant(c) =>
      (match c.literal
       case Value(BoolConst(_)) => Some(Bool)
       case Value(Integral(ci)) => ConstIntType(ci)
       case _ => None)
  }

  /** MIR binary operators on values; integers are unbounded and bit-level
      operations are the machine's. */
  function BinOpValue(op: BinOp, a: Value, b: Value, m: Machine): Value {
    match op
    case Add => IntV(AsInt(a) + AsInt(b))
    case Sub => IntV(AsInt(a) - AsInt(b))
    case Mul => IntV(AsInt(a) * AsInt(b))
    case Div => IntV(TruncDiv(AsInt(a), AsInt(b)))
    case Rem => IntV(TruncRem(AsInt(a), AsInt(b)))
    case BitOr => IntV(m.bits(OrBits, AsInt(a), AsInt(b)))
    case BitAnd => IntV(m.bits(AndBits, AsInt(a), AsInt(b)))
    case BitXor => IntV(m.bits(XorBits, AsInt(a), AsInt(b)))
    case Shl => IntV(m.bits(ShiftLeft, AsInt(a), AsInt(b)))
    case Shr => IntV(m.bits(ShiftRight, AsInt(a), AsInt(b)))
    case Lt => BoolV(AsInt(a) < AsInt(b))
    case Le => BoolV(AsInt(a) <= AsInt(b))
    case Gt => BoolV(AsInt(a) > AsInt(b))
    case Ge => BoolV(AsInt(a) >= AsInt(b))
    case Eq => BoolV(a == b)
    case Ne => BoolV(a != b)
  }

  /** MIR unary operators on a value of type `t`: `!` is logical on booleans
      and the machine's complement on integers; negation is unbounded. */
  function UnOpValue(u: UnOp, v: Value, t: Option<Types>, m: Machine): Value {
    match u
    case Neg => IntV(-AsInt(v))
    case Not => if t == Some(Bool) then BoolV(!Truthy(v)) else IntV(m.complement(AsInt(v)))
  }

  /** `key := a op b`: add, sub and mul fault when the result does not fit the
      key's type; div and rem fault on a zero divisor, and on a result that
      does not fit when the divisor is signed. A truncated remainder of
      operands within the type always fits, so for rem that last fault only
      arises on out-of-range operands; `MIN % -1` is not a fault here. */
  function Binary(op: BinOp, key: VariableMappingData, a: Operand, b: Operand,
                  env: Env, decls: Declarations, m: Machine): StepResult
  {
    if OperandValue(a, env, decls).None? || OperandValue(b, env, decls).None? then Stop(Stuck)
    else
      var va := OperandValue(a, env, decls).value;
      var vb := OperandValue(b, env, decls).value;
      var v := BinOpValue(op, va, vb, m);
      if op.Add? || op.Sub? || op.Mul? then
        if InRange(key.varType, AsInt(v)) then Next(env[key := v]) else Stop(Fault(Overflow))
      else if IsDivision(op) then
        if !vb.IntV? then Stop(Stuck)
        else if vb.i == 0 then Stop(Fault(DivisionByZero))
        else if OperandType(b, decls).Some? && IsSignedType(OperandType(b, decls).value)
                && !InRange(key.varType, AsInt(v)) then Stop(Fault(Overflow))
        else Next(env[key := v])
      else Next(env[key := v])
  }

  /** A temporary declared with a tuple type, taken as a whole rather than
      through one of its fields. */
  predicate WholeTuple(l: Lvalue, decls: Declarations) {
    l.Temp? && l.temp < |decls.temps| && decls.temps[l.temp].ty.TupleOf?
  }

  predicate ReadsWholeTuple(a: Operand, decls: Declarations) {
    a.Consume? && WholeTuple(a.lvalue, decls)
  }

  /** `tmp<I> := tmp<J>`, both temporaries declared as tuples. */
  predicate IsTupleCopy(s: Statement, decls: Declarations) {
    WholeTuple(s.lvalue, decls) && s.rvalue.Use? && ReadsWholeTuple(s.rvalue.operand, decls)
  }

  /** A statement that writes a tuple temporary as a whole (a checked
      operation writes only its field `.0`) or reads one as a whole. */
  predicate TouchesWholeTuple(s: Statement, decls: Declarations) {
    || (WholeTuple(s.lvalue, decls) && !s.rvalue.CheckedBinaryOp?)
    || (match s.rvalue
        case Use(a) => ReadsWholeTuple(a, decls)
        case Cast(a) => ReadsWholeTuple(a, decls)
        case UnaryOp(_, a) => ReadsWholeTuple(a, decls)
        case BinaryOp(_, a, b) => ReadsWholeTuple(a, decls) || ReadsWholeTuple(b, decls)
        case CheckedBinaryOp(_, a, b) => ReadsWholeTuple(a, decls) || ReadsWholeTuple(b, decls)
        case _ => false)
  }

  /** The slots a copy `tmp<I> := tmp<J>` moves, as (target, source) pairs:
      the whole temporary under the generator's name for it, then every
      field `tmp<I>.<F>`. The tuples must have the same arity and a first
      element of a recognised type, which types every field. */
  function TupleSlots(i: nat, j: nat, decls: Declarations): Option<seq<(VariableMappingData, VariableMappingData)>> {
    if i >= |decls.temps| || j >= |decls.temps| then None
    else
      match (decls.temps[i].ty, decls.temps[j].ty)
      case (TupleOf(ei), TupleOf(ej)) =>
        if |ei| == 0 || |ei| != |ej| || StringToType(ei[0]).Err? || StringToType(ej[0]).Err? then None
        else
          var ti := StringToType(ei[0]).value;
          var tj := StringToType(ej[0]).value;
          Some([(VariableMappingData(TempName(i), ti), VariableMappingData(TempName(j), tj))]
               + seq(|ei|, f requires 0 <= f < |ei| =>
                   (VariableMappingData(FieldName(TempName(i), f), ti), VariableMappingData(FieldName(TempName(j), f), tj))))
      case _ => None
  }

  /** Each slot in turn takes the value its source holds at that point. */
  function CopySlots(ps: seq<(VariableMappingData, VariableMappingData)>, env: Env): Env
    decreases |ps|
  {
    if |ps| == 0 then env else CopySlots(ps[1..], env[ps[0].0 := Lookup(env, ps[0].1)])
  }

  /** `tmp<I> := (a0, …, an)`: a tuple built into a temporary declared as a
      tuple. */
  predicate IsTupleAggregate(s: Statement, decls: Declarations) {
    WholeTuple(s.lvalue, decls) && s.rvalue.Aggregate? && s.rvalue.kind == Tuple
  }

  /** The places a tuple built into temporary `tmp<I>` fills: the whole
      temporary under the generator's name for it, then every field
      `tmp<I>.<F>`, all typed by the first element as `GenLvalue` types
      them. */
  function TupleTargets(i: nat, decls: Declarations): (r: Option<seq<VariableMappingData>>)
    ensures r.Some? ==> |r.value| >= 2
  {
    if i >= |decls.temps| then None
    else
      match decls.temps[i].ty
      case TupleOf(elems) =>
        if |elems| == 0 || StringToType(elems[0]).Err? then None
        else
          var t := StringToType(elems[0]).value;
          Some([VariableMappingData(TempName(i), t)]
               + seq(|elems|, f requires 0 <= f < |elems| => VariableMappingData(FieldName(TempName(i), f), t)))
      case Named(_) => None
  }

  /** The values of a list of operands, all read in `env`, when every one
      has a value. */
  function OperandValues(ops: seq<Operand>, env: Env, decls: Declarations): (r: Option<seq<Value>>)
    ensures r.Some? <==> forall k :: 0 <= k < |ops| ==> OperandValue(ops[k], env, decls).Some?
    ensures r.Some? ==> |r.value| == |ops| && forall k :: 0 <= k < |ops| ==> OperandValue(ops[k], env, decls) == Some(r.value[k])
    decreases |ops|
  {
    if |ops| == 0 then Some([])
    else
      match (OperandValue(ops[0], env, decls), OperandValues(ops[1..], env, decls))
      case (Some(v), Some(vs)) => Some([v] + vs)
      case _ => None
  }

  /** Every listed place takes its value at once; where a place is listed
      twice, the later listing wins. */
  function WriteSlots(xs: seq<VariableMappingData>, vs: seq<Value>, env: Env): Env
    requires |xs| == |vs|
    decreases |xs|
  {
    if |xs| == 0 then env else WriteSlots(xs[..|xs| - 1], vs[..|vs| - 1], env)[xs[|xs| - 1] := vs[|vs| - 1]]
  }

  /** One assignment, run forwards. A checked operation stores its value at
      `<target>.0`. A cast of an integer that fits the target type keeps its
      value; a truncating cast or a cast from `bool` is not followed. A copy
      of a tuple temporary moves every slot. A tuple built into a tuple
      temporary stores each component in its field, and the first component
      in the whole temporary, which the generator types by the first
      element; the components are all read before any is stored. Any other
      access to a tuple temporary as a whole is not followed. */
  function Step(s: Statement, env: Env, decls: Declarations, m: Machine): StepResult {
    match GenLvalue(s.lvalue, decls)
    case Err(_) => Stop(Stuck)
    case Ok(target) =>
      if IsTupleCopy(s, decls) then
        (match TupleSlots(s.lvalue.temp, s.rvalue.operand.lvalue.temp, decls)
         case None => Stop(Untracked)
         case Some(ps) => Next(CopySlots(ps, env)))
      else if IsTupleAggregate(s, decls) then
        (match TupleTargets(s.lvalue.temp, decls)
         case None => Stop(Untracked)
         case Some(xs) =>
           (match OperandValues(s.rvalue.operands, env, decls)
            case None => Stop(Stuck)
            case Some(vs) => if |xs| != |vs| + 1 then Stop(Untracked) else Next(WriteSlots(xs, [vs[0]] + vs, env))))
      else if TouchesWholeTuple(s, decls) then Stop(Untracked)
      else
      match s.rvalue
      case BinaryOp(op, a, b) => Binary(op, target, a, b, env, decls, m)
      case CheckedBinaryOp(op, a, b) =>
        if CheckedSupported(op) then Binary(op, CheckedKey(target), a, b, env, decls, m) else Stop(Stuck)
      case UnaryOp(u, a) =>
        (match OperandValue(a, env, decls)
         case None => Stop(Stuck)
         case Some(v) =>
           Next(env[target := UnOpValue(u, v, OperandType(a, decls), m)]))
      case Use(a) =>
        (match OperandValue(a, env, decls)
         case None => Stop(Stuck)
         case Some(v) => Next(env[target := v]))
      case Cast(a) =>
        (match OperandValue(a, env, decls)
         case None => Stop(Stuck)
         case Some(v) => if v.IntV? && InRange(target.varType, v.i) then Next(env[target := v]) else Stop(Untracked))
      case Ref(_) => Stop(Untracked)
      case Aggregate(_, _) => Stop(Untracked)
      case _ => Stop(Stuck)
  }

  function RunStatements(stmts: seq<Statement>, env: Env, decls: Declarations, m: Machine): StepResult
    decreases |stmts|
  {
    if |stmts| == 0 then Next(env)
    else
      match Step(stmts[0], env, decls, m)
      case Next(env') => RunStatements(stmts[1..], env', decls, m)
      case Stop(o) => Stop(o)
  }

  /** The value of a branch or assertion condition. */
  function CondValue(cond: Operand, env: Env, decls: Declarations): Option<Value> {
    match cond
    case Consume(l) =>
      (match GenLvalue(l, decls)
       case Ok(x) => Some(Lookup(env, x))
       case Err(_) => None)
    case Constant(c) =>
      (match c.literal
       case Value(BoolConst(b)) => Some(BoolV(b))
       case _ => None)
  }

  /** Runs block `index` and its successors from `env`. */
  function Exec(index: nat, env: Env, data: MirData, m: Machine, ghost rank: seq<nat>): Outcome
    requires Ranked(data, rank)
    decreases Height(data, rank, index)
  {
    if index >= |data.blocks| then Stuck
    else
      var block := data.blocks[index];
      match RunStatements(block.statements, env, data.decls, m)
      case Stop(o) => o
      case Next(env') =>
        match block.terminator
        case None => Stuck
        case Some(term) =>
          match term
          case Return => Returned(env')
          case Goto(t) =>
            assert t in Successors(block);
            Exec(t, env', data, m, rank)
          case Assert(cond, expected, t) =>
            assert t in Successors(block);
            (match CondValue(cond, env', data.decls)
             case None => Stuck
             case Some(v) => if Truthy(v) == expected then Exec(t, env', data, m, rank) else AssertFailed)
          case If(cond, t, e) =>
            assert t in Successors(block) && e in Successors(block);
            (match CondValue(cond, env', data.decls)
             case None => Stuck
             case Some(v) => if Truthy(v) then Exec(t, env', data, m, rank) else Exec(e, env', data, m, rank))
          case Call(func, _) =>
            if func.Constant? && data.decls.isPanicEntry(func.constant.literal) then Panicked else Stuck
          case _ => Stuck
  }

  // ---------------------------------------------------------------------
  // Leaves evaluate to the operands they were generated from
  // ---------------------------------------------------------------------

  /** An operand's leaf exists exactly when the operand has a value, and then
      evaluates to that value and has the operand's type. */
  lemma GenExpressionMeaning(a: Operand, env: Env, decls: Declarations, m: Machine)
    ensures GenExpression(a, decls).Ok? <==> OperandValue(a, env, decls).Some?
    ensures GenExpression(a, decls).Ok? ==>
              && Eval(GenExpression(a, decls).value, env, m) == OperandValue(a, env, decls).value
              && OperandType(a, decls) == Some(DetermineEvaluationType(GenExpression(a, decls).value))
  {
    if a.Constant? && a.constant.literal.Value? && a.constant.literal.value.Integral? {
      var ci := a.constant.literal.value.ci;
      if ConstIntType(ci).Some? {
        assert GenExpression(a, decls) == IntegralLeaf(ci);
      }
    }
  }

  /** A branch condition's tree evaluates to the condition's value. */
  lemma CondExpressionMeaning(cond: Operand, env: Env, decls: Declarations, m: Machine)
    requires CondExpression(cond, decls).Ok?
    ensures CondValue(cond, env, decls) == Some(Eval(CondExpression(cond, decls).value, env, m))
  {
  }

  /** The operator the generator picks for a MIR unary operation evaluates
      to what that operation computes. */
  lemma UnaryOperatorMeaning(u: UnOp, a: Operand, env: Env, decls: Declarations, m: Machine)
    requires GenExpression(a, decls).Ok?
    ensures var e := GenExpression(a, decls).value;
            var op := if u == UnOp.Not then ComplementOf(e) else Negation;
            && OperandValue(a, env, decls).Some?
            && Eval(UnaryExpression(op, e), env, m) == UnOpValue(u, OperandValue(a, env, decls).value, OperandType(a, decls), m)
  {
    GenExpressionMeaning(a, env, decls, m);
  }

  /** The logic-tree operators mean what the MIR operators they stand for do.
      `BinOpValue` gives each MIR operator the meaning `ApplyBinary` gives its
      counterpart, so this checks the table `OperatorOf`, not an independent
      semantics of the operators. */
  lemma OperatorOfMeaning(op: BinOp, a: Value, b: Value, m: Machine)
    ensures ApplyBinary(OperatorOf(op), a, b, m) == BinOpValue(op, a, b, m)
  {
    match op
    case Add =>
    case Sub =>
    case Mul =>
    case Div =>
    case Rem =>
    case BitOr =>
    case BitAnd =>
    case BitXor =>
    case Shl =>
    case Shr =>
    case Lt =>
    case Le =>
    case Gt =>
    case Ge =>
    case Eq =>
    case Ne =>
  }

  // ---------------------------------------------------------------------
  // Soundness
  // ---------------------------------------------------------------------

  /** `a` is a read of variable `x`. */
  predicate ReadsAt(a: Operand, x: VariableMappingData, decls: Declarations) {
    a.Consume? && GenLvalue(a.lvalue, decls) == Ok(x)
  }

  /** An operand's leaf mentions exactly the variable the operand reads. */
  lemma GenExpressionMentions(a: Operand, x: VariableMappingData, decls: Declarations)
    requires GenExpression(a, decls).Ok?
    ensures Mentions(GenExpression(a, decls).value, x) <==> ReadsAt(a, x, decls)
  {
  }

  /** A guarded operation does not read the variable it writes. The guard is
      conjoined before the substitution, so a self-read would move the guard
      onto the updated value. */
  predicate SelfFree(s: Statement, decls: Declarations) {
    match GenLvalue(s.lvalue, decls)
    case Err(_) => true
    case Ok(target) =>
      match s.rvalue
      case BinaryOp(op, a, b) =>
        IsGuarded(op) ==> !ReadsAt(a, target, decls) && !ReadsAt(b, target, decls)
      case CheckedBinaryOp(op, a, b) =>
        IsGuarded(op) ==> !ReadsAt(a, CheckedKey(target), decls) && !ReadsAt(b, CheckedKey(target), decls)
      case _ => true
  }

  /** A statement the generator's rule is sound for: it is self-free, it is
      not a cast, whose assignment the generator drops, and it neither copies
      a tuple temporary nor builds a tuple into one, two writes whose fields
      the generator leaves in place. */
  predicate Conforms(s: Statement, decls: Declarations) {
    SelfFree(s, decls) && !s.rvalue.Cast? && !IsTupleCopy(s, decls) && !IsTupleAggregate(s, decls)
  }

  /** Every statement conforms, every return block is empty (the generator
      does not fold a return block's statements), and the argument names are
      admissible, so that by `PlacesDistinct` distinct places are stored
      under distinct names. */
  predicate Conforming(data: MirData) {
    && ArgNamesAdmissible(data.decls)
    && (forall b, k :: 0 <= b < |data.blocks| && 0 <= k < |data.blocks[b].statements| ==>
          Conforms(data.blocks[b].statements[k], data.decls))
    && (forall b :: 0 <= b < |data.blocks| && data.blocks[b].terminator == Some(Return) ==>
          data.blocks[b].statements == [])
  }

  /** A run that neither faults nor panics, and whose return, if any,
      satisfies `post`. */
  predicate Safe(o: Outcome, post: Expression, m: Machine) {
    !o.Fault? && !o.Panicked? && (o.Returned? ==> Holds(post, o.env, m))
  }

  /** A step that continues in a state satisfying `q`, or stops without a
      fault, panic or return. */
  predicate StepEstablishes(r: StepResult, q: Expression, m: Machine) {
    match r
    case Next(env) => Holds(q, env, m)
    case Stop(o) => !o.Fault? && !o.Panicked? && !o.Returned?
  }

  /** The predicate `key := a op b` is rewritten to holds in `env`. */
  predicate BinaryPreHolds(q: Expression, target: VariableMappingData, key: VariableMappingData,
                           op: BinOp, a: Operand, b: Operand, env: Env, decls: Declarations, m: Machine)
  {
    && GenExpression(a, decls).Ok? && GenExpression(b, decls).Ok?
    && var l := GenExpression(a, decls).value;
       var r := GenExpression(b, decls).value;
       && GuardedPredicate(q, target, op, l, r).Ok?
       && Holds(Substitute(GuardedPredicate(q, target, op, l, r).value, key, BinaryExpression(OperatorOf(op), l, r)), env, m)
  }

  /** Reading the rewritten predicate forwards: the guarded predicate holds
      once `key` holds the operation's value, and a guarded operation's
      operands keep their values across that update. */
  lemma {:induction false} BinaryUpdate(q: Expression, target: VariableMappingData, key: VariableMappingData,
                                        op: BinOp, a: Operand, b: Operand, env: Env, decls: Declarations, m: Machine)
    requires BinaryPreHolds(q, target, key, op, a, b, env, decls, m)
    requires IsGuarded(op) ==> !ReadsAt(a, key, decls) && !ReadsAt(b, key, decls)
    ensures OperandValue(a, env, decls).Some? && OperandValue(b, env, decls).Some?
    ensures var l := GenExpression(a, decls).value;
            var r := GenExpression(b, decls).value;
            var lr := BinaryExpression(OperatorOf(op), l, r);
            var vb := OperandValue(b, env, decls).value;
            var v := BinOpValue(op, OperandValue(a, env, decls).value, vb, m);
            var env' := env[key := v];
            && Holds(GuardedPredicate(q, target, op, l, r).value, env', m)
            && (IsGuarded(op) ==> Eval(lr, env', m) == v && Eval(r, env', m) == vb)
            && OperandType(b, decls) == Some(DetermineEvaluationType(r))
  {
    var l := GenExpression(a, decls).value;
    var r := GenExpression(b, decls).value;
    var lr := BinaryExpression(OperatorOf(op), l, r);
    GenExpressionMeaning(a, env, decls, m);
    GenExpressionMeaning(b, env, decls, m);
    var va := OperandValue(a, env, decls).value;
    var vb := OperandValue(b, env, decls).value;
    var v := BinOpValue(op, va, vb, m);
    OperatorOfMeaning(op, va, vb, m);
    assert Eval(lr, env, m) == ApplyBinary(OperatorOf(op), va, vb, m);
    SubstituteSound(GuardedPredicate(q, target, op, l, r).value, key, lr, env, m);
    if IsGuarded(op) {
      GenExpressionMentions(a, key, decls);
      GenExpressionMentions(b, key, decls);
      assert !Mentions(lr, key);
      EvalUnmentioned(lr, key, v, env, m);
      EvalUnmentioned(r, key, v, env, m);
    }
  }

  /** Add, sub and mul: the bound check keeps the result in range. */
  lemma ArithmeticSound(q: Expression, target: VariableMappingData, key: VariableMappingData,
                        op: BinOp, a: Operand, b: Operand, env: Env, decls: Declarations, m: Machine)
    requires op.Add? || op.Sub? || op.Mul?
    requires key.varType == target.varType
    requires BinaryPreHolds(q, target, key, op, a, b, env, decls, m)
    requires !ReadsAt(a, key, decls) && !ReadsAt(b, key, decls)
    ensures StepEstablishes(Binary(op, key, a, b, env, decls, m), q, m)
  {
    BinaryUpdate(q, target, key, op, a, b, env, decls, m);
    var l := GenExpression(a, decls).value;
    var r := GenExpression(b, decls).value;
    var v := BinOpValue(op, OperandValue(a, env, decls).value, OperandValue(b, env, decls).value, m);
    var env' := env[key := v];
    assert GuardedPredicate(q, target, op, l, r) == OverflowCheck(q, target, OperatorOf(op), l, r);
    OverflowCheckMeaning(q, target, OperatorOf(op), l, r, env', m);
    assert Binary(op, key, a, b, env, decls, m) == Next(env');
  }

  /** Div and rem: the zero check rules out a zero divisor, and for a signed
      divisor the bound check keeps the result in range. */
  lemma DivisionSound(q: Expression, target: VariableMappingData, key: VariableMappingData,
                      op: BinOp, a: Operand, b: Operand, env: Env, decls: Declarations, m: Machine)
    requires IsDivision(op)
    requires key.varType == target.varType
    requires BinaryPreHolds(q, target, key, op, a, b, env, decls, m)
    requires !ReadsAt(a, key, decls) && !ReadsAt(b, key, decls)
    ensures StepEstablishes(Binary(op, key, a, b, env, decls, m), q, m)
  {
    BinaryUpdate(q, target, key, op, a, b, env, decls, m);
    var l := GenExpression(a, decls).value;
    var r := GenExpression(b, decls).value;
    var vb := OperandValue(b, env, decls).value;
    var v := BinOpValue(op, OperandValue(a, env, decls).value, vb, m);
    var env' := env[key := v];
    DivisionGuardedPredicate(q, target, op, l, r);
    var t := DetermineEvaluationType(r);
    var q' := if IsSignedType(t) then OverflowCheck(q, target, OperatorOf(op), l, r).value else q;
    AddZeroCheckMeaning(q', r, env', m);
    assert Holds(q', env', m) && vb != IntV(0);
    if IsSignedType(t) {
      OverflowCheckMeaning(q, target, OperatorOf(op), l, r, env', m);
      assert InRange(key.varType, AsInt(v));
    }
    assert Holds(q, env', m);
    DivisionStep(op, key, a, b, env, decls, m);
  }

  /** A division whose divisor is not zero, and whose result fits when the
      divisor is signed, continues with the result stored at `key`. */
  lemma DivisionStep(op: BinOp, key: VariableMappingData, a: Operand, b: Operand, env: Env, decls: Declarations, m: Machine)
    requires IsDivision(op)
    requires OperandValue(a, env, decls).Some? && OperandValue(b, env, decls).Some?
    ensures var vb := OperandValue(b, env, decls).value;
            var v := BinOpValue(op, OperandValue(a, env, decls).value, vb, m);
            vb != IntV(0) &&
            (OperandType(b, decls).Some? && IsSignedType(OperandType(b, decls).value) ==> InRange(key.varType, AsInt(v))) ==>
              Binary(op, key, a, b, env, decls, m) in {Next(env[key := v]), Stop(Stuck)}
  {
  }

  /** `key := l op r` with the guarded predicate: when it holds before, the
      step neither faults nor breaks `q`. */
  lemma BinarySound(q: Expression, target: VariableMappingData, key: VariableMappingData,
                    op: BinOp, a: Operand, b: Operand, env: Env, decls: Declarations, m: Machine)
    requires key.varType == target.varType
    requires BinaryPreHolds(q, target, key, op, a, b, env, decls, m)
    requires IsGuarded(op) ==> !ReadsAt(a, key, decls) && !ReadsAt(b, key, decls)
    ensures StepEstablishes(Binary(op, key, a, b, env, decls, m), q, m)
  {
    if op.Add? || op.Sub? || op.Mul? {
      ArithmeticSound(q, target, key, op, a, b, env, decls, m);
    } else if IsDivision(op) {
      DivisionSound(q, target, key, op, a, b, env, decls, m);
    } else {
      BinaryUpdate(q, target, key, op, a, b, env, decls, m);
      assert GuardedPredicate(q, target, op, GenExpression(a, decls).value, GenExpression(b, decls).value) == Ok(q);
    }
  }

  /** One statement: when its generated precondition holds, running it
      continues in a state satisfying `q` or stops harmlessly. */
  lemma StepSound(q: Expression, s: Statement, env: Env, decls: Declarations, m: Machine)
    requires Conforms(s, decls)
    requires GenStmt(q, s, decls).Ok? && Holds(GenStmt(q, s, decls).value, env, m)
    ensures StepEstablishes(Step(s, env, decls, m), q, m)
  {
    match s.rvalue
    case BinaryOp(_, _, _) => BinaryStepSound(q, s, env, decls, m);
    case CheckedBinaryOp(_, _, _) => BinaryStepSound(q, s, env, decls, m);
    case UnaryOp(_, _) => UnaryStepSound(q, s, env, decls, m);
    case Use(_) => UseStepSound(q, s, env, decls, m);
    case _ =>
  }

  lemma BinaryStepSound(q: Expression, s: Statement, env: Env, decls: Declarations, m: Machine)
    requires s.rvalue.BinaryOp? || s.rvalue.CheckedBinaryOp?
    requires SelfFree(s, decls)
    requires GenStmt(q, s, decls).Ok? && Holds(GenStmt(q, s, decls).value, env, m)
    ensures StepEstablishes(Step(s, env, decls, m), q, m)
  {
    var target := GenLvalue(s.lvalue, decls).value;
    var rw := GenRhs(q, target, s.rvalue, decls).value;
    assert GenStmt(q, s, decls).value == SubstituteAll(rw.pre, rw.key, rw.replacements);
    var key := if s.rvalue.CheckedBinaryOp? then CheckedKey(target) else target;
    var (op, a, b) := if s.rvalue.BinaryOp? then (s.rvalue.op, s.rvalue.left, s.rvalue.right)
                      else (s.rvalue.cop, s.rvalue.cleft, s.rvalue.cright);
    assert IsBinaryRhs(s.rvalue, op, a, b);
    assert GenExpression(a, decls).Ok? && GenExpression(b, decls).Ok?;
    var l := GenExpression(a, decls).value;
    var r := GenExpression(b, decls).value;
    assert rw == BinaryRewrite(q, target, key, op, l, r).value;
    if !TouchesWholeTuple(s, decls) {
      assert Step(s, env, decls, m) == Binary(op, key, a, b, env, decls, m);
      BinarySound(q, target, key, op, a, b, env, decls, m);
    }
  }

  lemma UnaryStepSound(q: Expression, s: Statement, env: Env, decls: Declarations, m: Machine)
    requires s.rvalue.UnaryOp?
    requires GenStmt(q, s, decls).Ok? && Holds(GenStmt(q, s, decls).value, env, m)
    ensures StepEstablishes(Step(s, env, decls, m), q, m)
  {
    var target := GenLvalue(s.lvalue, decls).value;
    var a := s.rvalue.arg;
    var e := GenExpression(a, decls).value;
    var op := if s.rvalue.unop == UnOp.Not then ComplementOf(e) else Negation;
    assert GenRhs(q, target, s.rvalue, decls) == Ok(Rewrite(q, target, [UnaryExpression(op, e)]));
    assert GenStmt(q, s, decls).value == Substitute(q, target, UnaryExpression(op, e));
    UnaryOperatorMeaning(s.rvalue.unop, a, env, decls, m);
    var res := UnOpValue(s.rvalue.unop, OperandValue(a, env, decls).value, OperandType(a, decls), m);
    if !TouchesWholeTuple(s, decls) {
      assert Step(s, env, decls, m) == Next(env[target := res]);
      SubstituteSound(q, target, UnaryExpression(op, e), env, m);
    }
  }

  lemma UseStepSound(q: Expression, s: Statement, env: Env, decls: Declarations, m: Machine)
    requires s.rvalue.Use? && !IsTupleCopy(s, decls)
    requires GenStmt(q, s, decls).Ok? && Holds(GenStmt(q, s, decls).value, env, m)
    ensures StepEstablishes(Step(s, env, decls, m), q, m)
  {
    var target := GenLvalue(s.lvalue, decls).value;
    var a := s.rvalue.operand;
    var e := GenExpression(a, decls).value;
    assert GenStmt(q, s, decls).value == Substitute(q, target, e);
    GenExpressionMeaning(a, env, decls, m);
    SubstituteSound(q, target, e, env, m);
  }

  /** A block's statements: when their folded precondition holds, running
      them continues in a state satisfying `q` or stops harmlessly. */
  lemma {:induction false} RunSound(q: Expression, stmts: seq<Statement>, env: Env, decls: Declarations, m: Machine)
    requires forall k :: 0 <= k < |stmts| ==> Conforms(stmts[k], decls)
    requires FoldBack(stmts, q, decls).Ok? && Holds(FoldBack(stmts, q, decls).value, env, m)
    ensures StepEstablishes(RunStatements(stmts, env, decls, m), q, m)
    decreases |stmts|
  {
    if |stmts| > 0 {
      var mid := FoldBack(stmts[1..], q, decls).value;
      StepSound(mid, stmts[0], env, decls, m);
      match Step(stmts[0], env, decls, m)
      case Next(env') =>
        RunSound(q, stmts[1..], env', decls, m);
      case Stop(_) =>
    }
  }

  /** Soundness of the generator: when the precondition it computes for block
      `index` holds, running from that block is safe with respect to `post`. */
  lemma {:induction false} GenSound(index: nat, data: MirData, post: Expression, env: Env, m: Machine, rank: seq<nat>)
    requires Ranked(data, rank) && Conforming(data)
    requires Gen(index, data, post, rank).Ok? && Holds(Gen(index, data, post, rank).value, env, m)
    ensures Safe(Exec(index, env, data, m, rank), post, m)
    decreases Height(data, rank, index), 1
  {
    var block := data.blocks[index];
    match block.terminator.value
    case Return =>
      assert block.statements == [];
    case Goto(t) =>
      JumpSound(index, data, post, env, m, rank, t);
    case Assert(_, _, t) =>
      JumpSound(index, data, post, env, m, rank, t);
    case If(cond, t, e) =>
      BranchSound(index, data, post, env, m, rank, cond, t, e);
    case Call(func, args) =>
      GenCall(index, data, post, rank, func, args);
    case _ =>
  }

  /** How `Exec` unfolds at a `Goto` or `Assert` block: after the statements,
      it continues at the target unless an assertion fails. */
  lemma ExecJump(index: nat, data: MirData, env: Env, m: Machine, rank: seq<nat>, t: nat)
    requires Ranked(data, rank)
    requires index < |data.blocks|
    requires JumpsTo(data.blocks[index].terminator, t)
    ensures var run := RunStatements(data.blocks[index].statements, env, data.decls, m);
            var o := Exec(index, env, data, m, rank);
            && (run.Stop? ==> o == run.outcome)
            && (run.Next? ==> o == Exec(t, run.env, data, m, rank) || o == AssertFailed || o == Stuck)
  {
  }

  /** `Goto` and `Assert`: the statements lead to a state satisfying the
      target's precondition, from which the target runs safely. */
  lemma {:induction false} JumpSound(index: nat, data: MirData, post: Expression, env: Env, m: Machine,
                                     rank: seq<nat>, t: nat)
    requires Ranked(data, rank) && Conforming(data)
    requires index < |data.blocks|
    requires JumpsTo(data.blocks[index].terminator, t)
    requires Gen(index, data, post, rank).Ok? && Holds(Gen(index, data, post, rank).value, env, m)
    ensures Safe(Exec(index, env, data, m, rank), post, m)
    decreases Height(data, rank, index), 0
  {
    var block := data.blocks[index];
    var stmts := block.statements;
    assert forall k :: 0 <= k < |stmts| ==> Conforms(stmts[k], data.decls);
    GenJump(index, data, post, rank, t);
    var wp := Gen(t, data, post, rank).value;
    RunSound(wp, stmts, env, data.decls, m);
    var run := RunStatements(stmts, env, data.decls, m);
    ExecJump(index, data, env, m, rank, t);
    if run.Next? {
      assert t in Successors(block);
      GenSound(t, data, post, run.env, m, rank);
    }
  }

  /** How `Exec` unfolds at an `If` block. */
  lemma ExecBranch(index: nat, data: MirData, env: Env, m: Machine, rank: seq<nat>, cond: Operand, t: nat, e: nat)
    requires Ranked(data, rank)
    requires index < |data.blocks| && data.blocks[index].terminator == Some(If(cond, t, e))
    ensures var run := RunStatements(data.blocks[index].statements, env, data.decls, m);
            Exec(index, env, data, m, rank) ==
              if run.Stop? then run.outcome
              else if CondValue(cond, run.env, data.decls).None? then Stuck
              else if Truthy(CondValue(cond, run.env, data.decls).value) then Exec(t, run.env, data, m, rank)
              else Exec(e, run.env, data, m, rank)
  {
  }

  /** `If`: the statements lead to a state satisfying the merged predicate,
      and the branch taken runs safely from there. */
  lemma {:induction false} BranchSound(index: nat, data: MirData, post: Expression, env: Env, m: Machine,
                                       rank: seq<nat>, cond: Operand, t: nat, e: nat)
    requires Ranked(data, rank) && Conforming(data)
    requires index < |data.blocks| && data.blocks[index].terminator == Some(If(cond, t, e))
    requires Gen(index, data, post, rank).Ok? && Holds(Gen(index, data, post, rank).value, env, m)
    ensures Safe(Exec(index, env, data, m, rank), post, m)
    decreases Height(data, rank, index), 0
  {
    var block := data.blocks[index];
    var stmts := block.statements;
    assert forall k :: 0 <= k < |stmts| ==> Conforms(stmts[k], data.decls);
    GenBranch(index, data, post, rank, cond, t, e);
    var wpIf := Gen(t, data, post, rank).value;
    var wpElse := Gen(e, data, post, rank).value;
    var c := CondExpression(cond, data.decls).value;
    RunSound(Merge(c, wpIf, wpElse), stmts, env, data.decls, m);
    var run := RunStatements(stmts, env, data.decls, m);
    ExecBranch(index, data, env, m, rank, cond, t, e);
    if run.Next? {
      CondExpressionMeaning(cond, run.env, data.decls, m);
      assert Holds(Merge(c, wpIf, wpElse), run.env, m);
      ConnectivesMeaning(Implies(c, wpIf), Implies(Negate(c), wpElse), run.env, m);
      ConnectivesMeaning(c, wpIf, run.env, m);
      ConnectivesMeaning(Negate(c), wpElse, run.env, m);
      ConnectivesMeaning(c, wpElse, run.env, m);
      assert t in Successors(block) && e in Successors(block);
      if Holds(c, run.env, m) {
        GenSound(t, data, post, run.env, m, rank);
      } else {
        GenSound(e, data, post, run.env, m, rank);
      }
    }
  }
}

=== FILE: expressions.dfy ===
/** The logic-tree data type the generator builds, together with the two
    helpers over it that the generator relies on: the evaluation type of a
    tree and the substitution of an expression for a variable. */
module Expressions {

  /** Semantic types the generator resolves declared types to. */
  datatype Types = Bool | I8 | I16 | I32 | I64 | U8 | U16 | U32 | U64

  /** Bit-vector widths a literal leaf can carry. */
  type BitWidth = n: nat | n == 8 || n == 16 || n == 32 || n == 64 witness 8

  predicate IsSignedType(t: Types) {
    t.I8? || t.I16? || t.I32? || t.I64?
  }

  /** A resolved storage location: its name and its semantic type. Two
      mappings denote the same variable exactly when both agree. */
  datatype VariableMappingData = VariableMappingData(name: string, varType: Types)

  datatype UnaryOperator = Not | Negation | BitwiseNot

  datatype BinaryOperator =
    | Addition | Subtraction | Multiplication | Division | Modulo
    | BitwiseOr | BitwiseAnd | BitwiseXor | BitwiseLeftShift | BitwiseRightShift
    | LessThan | LessThanOrEqual | GreaterThan | GreaterThanOrEqual | Equal | NotEqual
    | And | Or | Implication

  datatype Expression =
    | BooleanLiteral(b: bool)
    | SignedBitVector(size: BitWidth, value: int)
    | UnsignedBitVector(size: BitWidth, uvalue: nat)
    | VariableMapping(v: VariableMappingData)
    | UnaryExpression(uop: UnaryOperator, e: Expression)
    | BinaryExpression(bop: BinaryOperator, left: Expression, right: Expression)

  predicate IsBitVector(e: Expression) {
    e.SignedBitVector? || e.UnsignedBitVector?
  }

  /** The number a bit-vector leaf carries. */
  function LeafValue(e: Expression): int
    requires IsBitVector(e)
  {
    if e.SignedBitVector? then e.value else e.uvalue
  }

  /** Operators whose result is a truth value whatever their operands are. */
  predicate IsBooleanValued(op: BinaryOperator) {
    op.LessThan? || op.LessThanOrEqual? || op.GreaterThan? || op.GreaterThanOrEqual?
    || op.Equal? || op.NotEqual? || op.And? || op.Or? || op.Implication?
  }

  function SignedOfWidth(w: BitWidth): (t: Types)
    ensures IsSignedType(t)
  {
    if w == 8 then I8 else if w == 16 then I16 else if w == 32 then I32 else I64
  }

  function UnsignedOfWidth(w: BitWidth): (t: Types)
    ensures t != Bool && !IsSignedType(t)
  {
    if w == 8 then U8 else if w == 16 then U16 else if w == 32 then U32 else U64
  }

  /** Width of an integer type; inverse of `SignedOfWidth`/`UnsignedOfWidth`. */
  function WidthOf(t: Types): (w: BitWidth)
    requires t != Bool
    ensures IsSignedType(t) ==> SignedOfWidth(w) == t
    ensures !IsSignedType(t) ==> UnsignedOfWidth(w) == t
  {
    match t
    case I8 => 8
    case U8 => 8
    case I16 => 16
    case U16 => 16
    case I32 => 32
    case U32 => 32
    case I64 => 64
    case U64 => 64
  }

  /** The type an expression evaluates to: leaves carry it, comparisons and
      connectives yield `Bool`, and arithmetic keeps the type of its left
      operand. */
  function DetermineEvaluationType(e: Expression): Types {
    match e
    case BooleanLiteral(_) => Bool
    case SignedBitVector(size, _) => SignedOfWidth(size)
    case UnsignedBitVector(size, _) => UnsignedOfWidth(size)
    case VariableMapping(v) => v.varType
    case UnaryExpression(op, a) => if op == Not then Bool else DetermineEvaluationType(a)
    case BinaryExpression(op, a, _) => if IsBooleanValued(op) then Bool else DetermineEvaluationType(a)
  }

  /** True when variable `x` occurs somewhere in `e`. */
  predicate Mentions(e: Expression, x: VariableMappingData) {
    match e
    case VariableMapping(v) => v == x
    case UnaryExpression(_, a) => Mentions(a, x)
    case BinaryExpression(_, a, b) => Mentions(a, x) || Mentions(b, x)
    case _ => false
  }

  /** Replaces every occurrence of `target` in `source` by `replacement`. */
  function Substitute(source: Expression, target: VariableMappingData, replacement: Expression): (r: Expression)
    ensures !Mentions(source, target) ==> r == source
    ensures !Mentions(replacement, target) ==> !Mentions(r, target)
    ensures forall y :: Mentions(r, y) ==> Mentions(source, y) || Mentions(replacement, y)
  {
    match source
    case VariableMapping(v) => if v == target then replacement else source
    case UnaryExpression(op, a) => UnaryExpression(op, Substitute(a, target, replacement))
    case BinaryExpression(op, a, b) =>
      BinaryExpression(op, Substitute(a, target, replacement), Substitute(b, target, replacement))
    case _ => source
  }

  /** Substituting a variable for itself changes nothing. */
  lemma {:induction false} SubstituteSelf(source: Expression, x: VariableMappingData)
    ensures Substitute(source, x, VariableMapping(x)) == source
  {
    match source
    case UnaryExpression(_, a) => SubstituteSelf(a, x);
    case BinaryExpression(_, a, b) => SubstituteSelf(a, x); SubstituteSelf(b, x);
    case _ =>
  }

  /** Applies the substitutions of `replacements` one after another, all
      keyed to the same variable. */
  function SubstituteAll(source: Expression, target: VariableMappingData, replacements: seq<Expression>): (r: Expression)
    ensures !Mentions(source, target) ==> r == source
    ensures |replacements| == 1 ==> r == Substitute(source, target, replacements[0])
    ensures |replacements| > 0 && !Mentions(replacements[0], target) ==>
              r == Substitute(source, target, replacements[0])
    decreases |replacements|
  {
    if |replacements| == 0 then source
    else SubstituteAll(Substitute(source, target, replacements[0]), target, replacements[1..])
  }

  function Conjoin(a: Expression, b: Expression): Expression {
    BinaryExpression(And, a, b)
  }

  function Implies(a: Expression, b: Expression): Expression {
    BinaryExpression(Implication, a, b)
  }

  function Negate(a: Expression): Expression {
    UnaryExpression(Not, a)
  }
}

=== FILE: guard_order.dfy ===
/** The order in which a statement's guards meet the substitution. The
    generator conjoins the guards first and substitutes afterwards, so the
    substitution also rewrites the guards. When a guarded operation reads the
    variable it assigns (`x := y - x`), the rewritten guard constrains the
    wrong value and the precondition admits a state that overflows. Guarding
    after the substitution, with the corrected rules of `CastRule`,
    `TupleCopy` and `TupleAggregate`, is sound for every statement, and
    coincides with the generator's rule whenever the operands do not read
    the target and no cast, tuple copy or tuple built into a temporary is
    involved. */
module GuardOrder {
  import opened Results
  import opened Expressions
  import opened Decimal
  import opened Mir
  import opened Resolve
  import opened Semantics
  import opened Guards
  import opened Statements
  import opened Execution
  import opened CastRule
  import opened TupleCopy
  import opened TupleAggregate

  /** The statement rule with the guards conjoined after the substitution:
      `guards(l op r) && q[key := l op r]`. A cast, a copy of a tuple
      temporary and a tuple built into a tuple temporary take their corrected
      rules; every other statement is handled as the generator handles it. */
  function GenStmtGuardLast(q: Expression, s: Statement, decls: Declarations): Result<Expression> {
    var target :- GenLvalue(s.lvalue, decls);
    match s.rvalue
    case BinaryOp(op, a, b) =>
      var l :- GenExpression(a, decls);
      var r :- GenExpression(b, decls);
      GuardedPredicate(Substitute(q, target, BinaryExpression(OperatorOf(op), l, r)), target, op, l, r)
    case CheckedBinaryOp(op, a, b) =>
      var l :- GenExpression(a, decls);
      var r :- GenExpression(b, decls);
      if !CheckedSupported(op) then Err(Unsupported)
      else GuardedPredicate(Substitute(q, CheckedKey(target), BinaryExpression(OperatorOf(op), l, r)), target, op, l, r)
    case Cast(a) => GenCast(q, target, a, decls)
    case Use(a) =>
      if IsTupleCopy(s, decls) then GenTupleCopy(q, s.lvalue.temp, a.lvalue.temp, decls) else GenStmt(q, s, decls)
    case Aggregate(_, ops) =>
      if IsTupleAggregate(s, decls) then GenTupleAggregate(q, s.lvalue.temp, ops, decls) else GenStmt(q, s, decls)
    case _ => GenStmt(q, s, decls)
  }

  /** What the guards of `l op r` demand of a state, for a result of type `t`. */
  predicate GuardsHold(op: BinOp, t: Types, l: Expression, r: Expression, env: Env, m: Machine) {
    var v := Eval(BinaryExpression(OperatorOf(op), l, r), env, m);
    if op.Add? || op.Sub? || op.Mul? then InRange(t, AsInt(v))
    else if IsDivision(op) then
      Eval(r, env, m) != IntV(0) && (IsSignedType(DetermineEvaluationType(r)) ==> InRange(t, AsInt(v)))
    else true
  }

  /** The guarded predicate of `+`, `-` or `*`: `wp` and the range check. */
  lemma ArithmeticPredicateMeaning(wp: Expression, target: VariableMappingData, op: BinOp,
                                   l: Expression, r: Expression, env: Env, m: Machine)
    requires op.Add? || op.Sub? || op.Mul?
    requires GuardedPredicate(wp, target, op, l, r).Ok?
    ensures Holds(GuardedPredicate(wp, target, op, l, r).value, env, m) <==>
              Holds(wp, env, m) && GuardsHold(op, target.varType, l, r, env, m)
  {
    assert GuardedPredicate(wp, target, op, l, r) == OverflowCheck(wp, target, OperatorOf(op), l, r);
    OverflowCheckMeaning(wp, target, OperatorOf(op), l, r, env, m);
  }

  /** The guarded predicate holds exactly when `wp` and the guards do. */
  lemma GuardedPredicateMeaning(wp: Expression, target: VariableMappingData, op: BinOp,
                                l: Expression, r: Expression, env: Env, m: Machine)
    requires GuardedPredicate(wp, target, op, l, r).Ok?
    ensures Holds(GuardedPredicate(wp, target, op, l, r).value, env, m) <==>
              Holds(wp, env, m) && GuardsHold(op, target.varType, l, r, env, m)
  {
    if op.Add? || op.Sub? || op.Mul? {
      ArithmeticPredicateMeaning(wp, target, op, l, r, env, m);
    } else if IsDivision(op) {
      DivisionPredicateMeaning(wp, target, op, l, r, env, m);
    } else {
      assert GuardedPredicate(wp, target, op, l, r) == Ok(wp);
    }
  }

  lemma DivisionPredicateMeaning(wp: Expression, target: VariableMappingData, op: BinOp,
                                 l: Expression, r: Expression, env: Env, m: Machine)
    requires IsDivision(op)
    requires GuardedPredicate(wp, target, op, l, r).Ok?
    ensures Holds(GuardedPredicate(wp, target, op, l, r).value, env, m) <==>
              Holds(wp, env, m) && GuardsHold(op, target.varType, l, r, env, m)
  {
    DivisionGuardedPredicate(wp, target, op, l, r);
    var g := GuardedPredicate(wp, target, op, l, r).value;
    if IsSignedType(DetermineEvaluationType(r)) {
      var q := OverflowCheck(wp, target, OperatorOf(op), l, r).value;
      assert g == AddZeroCheck(q, r).value;
      AddZeroCheckMeaning(q, r, env, m);
      OverflowCheckMeaning(wp, target, OperatorOf(op), l, r, env, m);
    } else {
      assert g == AddZeroCheck(wp, r).value;
      AddZeroCheckMeaning(wp, r, env, m);
    }
  }

  /** When the guards hold before `key := a op b`, the step does not fault. */
  lemma GuardsHoldStep(op: BinOp, key: VariableMappingData, a: Operand, b: Operand,
                       env: Env, decls: Declarations, m: Machine)
    requires GenExpression(a, decls).Ok? && GenExpression(b, decls).Ok?
    requires GuardsHold(op, key.varType, GenExpression(a, decls).value, GenExpression(b, decls).value, env, m)
    ensures OperandValue(a, env, decls).Some? && OperandValue(b, env, decls).Some?
    ensures var v := BinOpValue(op, OperandValue(a, env, decls).value, OperandValue(b, env, decls).value, m);
            Binary(op, key, a, b, env, decls, m) in {Next(env[key := v]), Stop(Stuck)}
  {
    var l := GenExpression(a, decls).value;
    var r := GenExpression(b, decls).value;
    GenExpressionMeaning(a, env, decls, m);
    GenExpressionMeaning(b, env, decls, m);
    var va := OperandValue(a, env, decls).value;
    var vb := OperandValue(b, env, decls).value;
    OperatorOfMeaning(op, va, vb, m);
    assert Eval(BinaryExpression(OperatorOf(op), l, r), env, m) == BinOpValue(op, va, vb, m);
    if IsDivision(op) {
      DivisionStep(op, key, a, b, env, decls, m);
    }
  }

  /** `key := a op b` under the guard-last rule: sound whatever the operands
      read. */
  lemma BinaryGuardLastSound(q: Expression, target: VariableMappingData, key: VariableMappingData,
                             op: BinOp, a: Operand, b: Operand, env: Env, decls: Declarations, m: Machine)
    requires key.varType == target.varType
    requires GenExpression(a, decls).Ok? && GenExpression(b, decls).Ok?
    requires var l := GenExpression(a, decls).value;
             var r := GenExpression(b, decls).value;
             var g := GuardedPredicate(Substitute(q, key, BinaryExpression(OperatorOf(op), l, r)), target, op, l, r);
             g.Ok? && Holds(g.value, env, m)
    ensures StepEstablishes(Binary(op, key, a, b, env, decls, m), q, m)
  {
    var l := GenExpression(a, decls).value;
    var r := GenExpression(b, decls).value;
    var lr := BinaryExpression(OperatorOf(op), l, r);
    GuardedPredicateMeaning(Substitute(q, key, lr), target, op, l, r, env, m);
    GuardsHoldStep(op, key, a, b, env, decls, m);
    GenExpressionMeaning(a, env, decls, m);
    GenExpressionMeaning(b, env, decls, m);
    var va := OperandValue(a, env, decls).value;
    var vb := OperandValue(b, env, decls).value;
    OperatorOfMeaning(op, va, vb, m);
    assert Eval(lr, env, m) == BinOpValue(op, va, vb, m);
    SubstituteSound(q, key, lr, env, m);
  }

  /** The corrected rule is sound for every statement, with no condition on
      what the operands read. For a reference, and for an aggregate that is
      not a tuple built into a tuple temporary, this holds only because the
      forward reading stops there as untracked. */
  lemma GuardLastSound(q: Expression, s: Statement, env: Env, decls: Declarations, m: Machine)
    requires GenStmtGuardLast(q, s, decls).Ok? && Holds(GenStmtGuardLast(q, s, decls).value, env, m)
    ensures StepEstablishes(Step(s, env, decls, m), q, m)
  {
    var target := GenLvalue(s.lvalue, decls).value;
    match s.rvalue
    case BinaryOp(op, a, b) =>
      if !TouchesWholeTuple(s, decls) {
        assert Step(s, env, decls, m) == Binary(op, target, a, b, env, decls, m);
        BinaryGuardLastSound(q, target, target, op, a, b, env, decls, m);
      }
    case CheckedBinaryOp(op, a, b) =>
      if !TouchesWholeTuple(s, decls) {
        assert Step(s, env, decls, m) == Binary(op, CheckedKey(target), a, b, env, decls, m);
        BinaryGuardLastSound(q, target, CheckedKey(target), op, a, b, env, decls, m);
      }
    case Cast(a) =>
      CastSound(q, s.lvalue, a, env, decls, m);
    case Use(a) =>
      if IsTupleCopy(s, decls) {
        TupleCopySound(q, s, env, decls, m);
      } else {
        StepSound(q, s, env, decls, m);
      }
    case UnaryOp(_, _) =>
      assert GenStmtGuardLast(q, s, decls) == GenStmt(q, s, decls);
      StepSound(q, s, env, decls, m);
    case Aggregate(_, _) =>
      if IsTupleAggregate(s, decls) {
        TupleAggregateSound(q, s, env, decls, m);
      } else {
        assert GenStmtGuardLast(q, s, decls) == GenStmt(q, s, decls);
        StepSound(q, s, env, decls, m);
      }
    case _ =>
  }

  /** Substitution passes through a range check on operands that do not
      mention the key. */
  lemma SubstituteOverflowCheck(wp: Expression, target: VariableMappingData, key: VariableMappingData,
                                op: BinaryOperator, l: Expression, r: Expression, e: Expression)
    requires target.varType != Bool
    requires !Mentions(l, key) && !Mentions(r, key)
    ensures Substitute(OverflowCheck(wp, target, op, l, r).value, key, e) ==
              OverflowCheck(Substitute(wp, key, e), target, op, l, r).value
  {
    var b := Bounds(target.varType, BinaryExpression(op, l, r));
    assert !Mentions(b, key);
    assert Substitute(Conjoin(wp, b), key, e) == Conjoin(Substitute(wp, key, e), b);
  }

  /** Substitution passes through a zero check on a divisor that does not
      mention the key. */
  lemma SubstituteZeroCheck(q: Expression, r: Expression, key: VariableMappingData, e: Expression)
    requires DetermineEvaluationType(r) != Bool
    requires !Mentions(r, key)
    ensures Substitute(AddZeroCheck(q, r).value, key, e) == AddZeroCheck(Substitute(q, key, e), r).value
  {
    var c := BinaryExpression(NotEqual, r, ZeroOf(DetermineEvaluationType(r)));
    assert !Mentions(c, key);
    assert Substitute(Conjoin(q, c), key, e) == Conjoin(Substitute(q, key, e), c);
  }

  /** Substitution passes through guards that do not mention the key. */
  lemma SubstituteGuarded(wp: Expression, target: VariableMappingData, key: VariableMappingData,
                          op: BinOp, l: Expression, r: Expression, e: Expression)
    requires GuardedPredicate(wp, target, op, l, r).Ok?
    requires IsGuarded(op) ==> !Mentions(l, key) && !Mentions(r, key)
    ensures GuardedPredicate(Substitute(wp, key, e), target, op, l, r).Ok?
    ensures Substitute(GuardedPredicate(wp, target, op, l, r).value, key, e) ==
              GuardedPredicate(Substitute(wp, key, e), target, op, l, r).value
  {
    var w := Substitute(wp, key, e);
    if op.Add? || op.Sub? || op.Mul? {
      SubstituteOverflowCheck(wp, target, key, OperatorOf(op), l, r, e);
    } else if IsDivision(op) {
      DivisionGuardedPredicate(wp, target, op, l, r);
      DivisionGuardedPredicate(w, target, op, l, r);
      if IsSignedType(DetermineEvaluationType(r)) {
        var q := OverflowCheck(wp, target, OperatorOf(op), l, r).value;
        SubstituteOverflowCheck(wp, target, key, OperatorOf(op), l, r, e);
        SubstituteZeroCheck(q, r, key, e);
      } else {
        SubstituteZeroCheck(wp, r, key, e);
      }
    }
  }

  /** On a statement whose guarded operands do not read the target and
      which is neither a cast, a tuple copy nor a tuple built into a tuple
      temporary, the corrected rule and the generator's rule build the same
      tree. */
  lemma GuardLastAgreesWhenConforming(q: Expression, s: Statement, decls: Declarations)
    requires Conforms(s, decls)
    ensures GenStmtGuardLast(q, s, decls) == GenStmt(q, s, decls)
  {
    if GenLvalue(s.lvalue, decls).Ok? && (s.rvalue.BinaryOp? || s.rvalue.CheckedBinaryOp?) {
      var target := GenLvalue(s.lvalue, decls).value;
      var key := if s.rvalue.CheckedBinaryOp? then CheckedKey(target) else target;
      var (op, a, b) := if s.rvalue.BinaryOp? then (s.rvalue.op, s.rvalue.left, s.rvalue.right)
                        else (s.rvalue.cop, s.rvalue.cleft, s.rvalue.cright);
      if GenExpression(a, decls).Ok? && GenExpression(b, decls).Ok? && (s.rvalue.BinaryOp? || CheckedSupported(op)) {
        var l := GenExpression(a, decls).value;
        var r := GenExpression(b, decls).value;
        var lr := BinaryExpression(OperatorOf(op), l, r);
        var g := GuardedPredicate(q, target, op, l, r);
        assert GenRhs(q, target, s.rvalue, decls) == BinaryRewrite(q, target, key, op, l, r);
        if g.Ok? {
          if IsGuarded(op) {
            GenExpressionMentions(a, key, decls);
            GenExpressionMentions(b, key, decls);
          }
          SubstituteGuarded(q, target, key, op, l, r, lr);
          assert GenStmt(q, s, decls) == Ok(Substitute(g.value, key, lr));
        } else {
          assert GuardedPredicate(Substitute(q, key, lr), target, op, l, r).Err?;
        }
      }
    }
  }

  // ---------------------------------------------------------------------
  // A state the generator's rule admits although the step overflows
  // ---------------------------------------------------------------------

  /** Two `i8` locals, `x` (`var0`) and `y` (`var1`). */
  const SelfReadDecls: Declarations :=
    Declarations([], [], [VarDecl("x", Named("i8")), VarDecl("y", Named("i8"))], I8, _ => false, _ => "")

  /** `x := y - x` */
  const SelfRead: Statement := Assign(Var(0), BinaryOp(Sub, Consume(Var(1)), Consume(Var(0))))

  const X := VariableMappingData("var0", I8)
  const Y := VariableMappingData("var1", I8)

  /** `y - x` */
  const Difference := BinaryExpression(Subtraction, VariableMapping(Y), VariableMapping(X))

  lemma SelfReadResolves()
    ensures GenLvalue(Var(0), SelfReadDecls) == Ok(X)
    ensures GenLvalue(Var(1), SelfReadDecls) == Ok(Y)
  {
    assert NatToString(0) == "0" && NatToString(1) == "1";
    assert VarName(0) == "var0" && VarName(1) == "var1";
    StringToTypeRoundTrip(I8, "i8");
  }

  /** The generator's rule on `x := y - x` rewrites the guard as well. */
  lemma SelfReadTree(post: Expression)
    ensures GenStmt(post, SelfRead, SelfReadDecls) ==
              Ok(Substitute(Conjoin(post, Bounds(I8, Difference)), X, Difference))
  {
    SelfReadResolves();
  }

  /** The corrected rule on `x := y - x` guards `y - x` itself. */
  lemma SelfReadGuardLastTree(post: Expression)
    ensures GenStmtGuardLast(post, SelfRead, SelfReadDecls) ==
              Ok(Conjoin(Substitute(post, X, Difference), Bounds(I8, Difference)))
  {
    SelfReadResolves();
  }

  /** The state `x = 1`, `y = -128`. */
  const Witness: Env := map[X := IntV(1), Y := IntV(-128)]

  /** In the witness state `y - x` is `-129`. */
  lemma WitnessDifference(m: Machine)
    ensures Eval(Difference, Witness, m) == IntV(-129)
  {
  }

  /** Once `x` holds `-129`, `y - x` is `1`, so the guard on it holds. */
  lemma GuardAfterUpdate(m: Machine)
    ensures Holds(Conjoin(BooleanLiteral(true), Bounds(I8, Difference)), Witness[X := IntV(-129)], m)
  {
    var env' := Witness[X := IntV(-129)];
    assert Eval(Difference, env', m) == IntV(1);
    BoundsMeaning(I8, Difference, env', m);
    ConnectivesMeaning(BooleanLiteral(true), Bounds(I8, Difference), env', m);
  }

  /** The generator's precondition holds in the witness state: its rewritten
      guard bounds `y - (y - x)`, which is `1`. */
  lemma SelfReadAdmitted(m: Machine)
    ensures GenStmt(BooleanLiteral(true), SelfRead, SelfReadDecls).Ok?
    ensures Holds(GenStmt(BooleanLiteral(true), SelfRead, SelfReadDecls).value, Witness, m)
  {
    var post := BooleanLiteral(true);
    SelfReadTree(post);
    WitnessDifference(m);
    SubstituteSound(Conjoin(post, Bounds(I8, Difference)), X, Difference, Witness, m);
    GuardAfterUpdate(m);
  }

  /** Running `x := y - x` from the witness state overflows `i8`. */
  lemma SelfReadOverflows(m: Machine)
    ensures Step(SelfRead, Witness, SelfReadDecls, m) == Stop(Fault(Overflow))
  {
    SelfReadResolves();
    assert OperandValue(Consume(Var(1)), Witness, SelfReadDecls) == Some(IntV(-128));
    assert OperandValue(Consume(Var(0)), Witness, SelfReadDecls) == Some(IntV(1));
  }

  /** The corrected precondition is false in the witness state. */
  lemma SelfReadRejected(m: Machine)
    ensures GenStmtGuardLast(BooleanLiteral(true), SelfRead, SelfReadDecls).Ok?
    ensures !Holds(GenStmtGuardLast(BooleanLiteral(true), SelfRead, SelfReadDecls).value, Witness, m)
  {
    var post := BooleanLiteral(true);
    SelfReadGuardLastTree(post);
    WitnessDifference(m);
    BoundsMeaning(I8, Difference, Witness, m);
    assert Substitute(post, X, Difference) == post;
    ConnectivesMeaning(post, Bounds(I8, Difference), Witness, m);
  }

  /** With `x = 1` and `y = -128` the generator's precondition for
      `x := y - x` with postcondition `true` holds, yet `-128 - 1` does not
      fit in `i8`; the corrected precondition is false in that state. */
  lemma SelfReadCounterexample(m: Machine)
    ensures var post := BooleanLiteral(true);
            && GenStmt(post, SelfRead, SelfReadDecls).Ok?
            && Holds(GenStmt(post, SelfRead, SelfReadDecls).value, Witness, m)
            && Step(SelfRead, Witness, SelfReadDecls, m) == Stop(Fault(Overflow))
            && GenStmtGuardLast(post, SelfRead, SelfReadDecls).Ok?
            && !Holds(GenStmtGuardLast(post, SelfRead, SelfReadDecls).value, Witness, m)
  {
    SelfReadAdmitted(m);
    SelfReadOverflows(m);
    SelfReadRejected(m);
  }
}

=== FILE: guards.dfy ===
/** Safety side-conditions the generator conjoins to the predicate: the
    overflow/underflow bound checks for arithmetic and the divide-by-zero
    check for division and remainder. */
module Guards {
  import opened Results
  import opened Expressions
  import opened Semantics

  /** Smallest value of an integer type. */
  function MinValue(t: Types): int
    requires t != Bool
  {
    match t
    case I8 => -0x80
    case I16 => -0x8000
    case I32 => -0x8000_0000
    case I64 => -0x8000_0000_0000_0000
    case _ => 0
  }

  /** Largest value of an integer type. */
  function MaxValue(t: Types): int
    requires t != Bool
  {
    match t
    case I8 => 0x7f
    case I16 => 0x7fff
    case I32 => 0x7fff_ffff
    case I64 => 0x7fff_ffff_ffff_ffff
    case U8 => 0xff
    case U16 => 0xffff
    case U32 => 0xffff_ffff
    case _ => 0xffff_ffff_ffff_ffff
  }

  /** A type is signed exactly when it holds negative numbers; every
      integer type holds 0 and 1. */
  lemma SignedTypeMeaning(t: Types)
    ensures IsSignedType(t) <==> t != Bool && MinValue(t) < 0
    ensures t != Bool ==> MinValue(t) <= 0 < MaxValue(t)
  {
  }

  /** `v` is representable in type `t`; no number is a `Bool`. */
  predicate InRange(t: Types, v: int) {
    t != Bool && MinValue(t) <= v <= MaxValue(t)
  }

  /** A bit-vector literal of type `t` carrying `v`. */
  function TypedLiteral(t: Types, v: int): (lit: Expression)
    requires t != Bool
    requires !IsSignedType(t) ==> v >= 0
    ensures IsBitVector(lit) && LeafValue(lit) == v
    ensures DetermineEvaluationType(lit) == t
  {
    if IsSignedType(t) then SignedBitVector(WidthOf(t), v) else UnsignedBitVector(WidthOf(t), v)
  }

  /** The zero of an integer type, of its own width and signedness. */
  function ZeroOf(t: Types): (z: Expression)
    requires t != Bool
    ensures DetermineEvaluationType(z) == t
    ensures z.SignedBitVector? <==> IsSignedType(t)
    ensures IsBitVector(z) && LeafValue(z) == 0
  {
    TypedLiteral(t, 0)
  }

  /** `res <= MAX(t)` and `res >= MIN(t)`. */
  function Bounds(t: Types, res: Expression): (g: Expression)
    requires t != Bool
    ensures forall x :: Mentions(g, x) <==> Mentions(res, x)
  {
    var hi := TypedLiteral(t, MaxValue(t));
    var lo := TypedLiteral(t, MinValue(t));
    var upper := BinaryExpression(LessThanOrEqual, res, hi);
    var lower := BinaryExpression(GreaterThanOrEqual, res, lo);
    assert forall x :: Mentions(upper, x) <==> Mentions(res, x);
    assert forall x :: Mentions(lower, x) <==> Mentions(res, x);
    Conjoin(upper, lower)
  }

  /** Conjoins to `wp` the bound checks on `l op r`, keyed to the type of the
      assignment's target. A boolean target has no bounds and is refused. */
  function OverflowCheck(wp: Expression, target: VariableMappingData, op: BinaryOperator,
                         l: Expression, r: Expression): (res: Result<Expression>)
    ensures res.Ok? <==> target.varType != Bool
    ensures res.Ok? ==> forall x :: Mentions(res.value, x) <==> Mentions(wp, x) || Mentions(l, x) || Mentions(r, x)
  {
    if target.varType == Bool then Err(Unsupported)
    else Ok(Conjoin(wp, Bounds(target.varType, BinaryExpression(op, l, r))))
  }

  /** The zero literal of an integer type, chosen by signedness and then by
      width; `Bool` has none. */
  function ZeroLiteral(t: Types): (r: Result<Expression>)
    ensures r.Ok? <==> t != Bool
    ensures r.Ok? ==> r.value == ZeroOf(t)
  {
    if IsSignedType(t) then
      match t
      case I8 => Ok(SignedBitVector(8, 0))
      case I16 => Ok(SignedBitVector(16, 0))
      case I32 => Ok(SignedBitVector(32, 0))
      case I64 => Ok(SignedBitVector(64, 0))
      case _ => Err(Unsupported)
    else
      match t
      case U8 => Ok(UnsignedBitVector(8, 0))
      case U16 => Ok(UnsignedBitVector(16, 0))
      case U32 => Ok(UnsignedBitVector(32, 0))
      case U64 => Ok(UnsignedBitVector(64, 0))
      case _ => Err(Unsupported)
  }

  /** Conjoins `exp != 0` to `wp`, the zero taking the width and signedness of
      `exp`'s evaluation type; a boolean `exp` has no zero and is refused. */
  function AddZeroCheck(wp: Expression, exp: Expression): (r: Result<Expression>)
    ensures r.Ok? <==> DetermineEvaluationType(exp) != Bool
    ensures r.Ok? ==>
              r.value == Conjoin(wp, BinaryExpression(NotEqual, exp, ZeroOf(DetermineEvaluationType(exp))))
  {
    var zero :- ZeroLiteral(DetermineEvaluationType(exp));
    Ok(Conjoin(wp, BinaryExpression(NotEqual, exp, zero)))
  }

  lemma EvalTypedLiteral(t: Types, v: int, env: Env, m: Machine)
    requires t != Bool
    requires !IsSignedType(t) ==> v >= 0
    ensures Eval(TypedLiteral(t, v), env, m) == IntV(v)
  {
  }

  /** `lo <= res <= hi`, written as the generator writes it, holds exactly
      when the value of `res` lies between those of the two literals. */
  lemma RangeCheckMeaning(res: Expression, hi: Expression, lo: Expression, vhi: int, vlo: int, env: Env, m: Machine)
    requires Eval(hi, env, m) == IntV(vhi) && Eval(lo, env, m) == IntV(vlo)
    ensures Holds(Conjoin(BinaryExpression(LessThanOrEqual, res, hi), BinaryExpression(GreaterThanOrEqual, res, lo)), env, m)
            <==> vlo <= AsInt(Eval(res, env, m)) <= vhi
  {
    var upper := BinaryExpression(LessThanOrEqual, res, hi);
    var lower := BinaryExpression(GreaterThanOrEqual, res, lo);
    assert Eval(upper, env, m) == ApplyBinary(LessThanOrEqual, Eval(res, env, m), IntV(vhi), m);
    assert Eval(lower, env, m) == ApplyBinary(GreaterThanOrEqual, Eval(res, env, m), IntV(vlo), m);
    ConnectivesMeaning(upper, lower, env, m);
  }

  /** The bound checks hold exactly when `res` is representable in `t`. */
  lemma BoundsMeaning(t: Types, res: Expression, env: Env, m: Machine)
    requires t != Bool
    ensures Holds(Bounds(t, res), env, m) <==> InRange(t, AsInt(Eval(res, env, m)))
  {
    var mx, mn := MaxValue(t), MinValue(t);
    var hi := TypedLiteral(t, mx);
    var lo := TypedLiteral(t, mn);
    EvalTypedLiteral(t, mx, env, m);
    EvalTypedLiteral(t, mn, env, m);
    assert Bounds(t, res) ==
      Conjoin(BinaryExpression(LessThanOrEqual, res, hi), BinaryExpression(GreaterThanOrEqual, res, lo));
    RangeCheckMeaning(res, hi, lo, mx, mn, env, m);
  }

  /** The overflow guard holds exactly when `wp` holds and the mathematical
      result of `l op r` is representable in the target's type. */
  lemma OverflowCheckMeaning(wp: Expression, target: VariableMappingData, op: BinaryOperator,
                             l: Expression, r: Expression, env: Env, m: Machine)
    requires target.varType != Bool
    ensures Holds(OverflowCheck(wp, target, op, l, r).value, env, m) <==>
              Holds(wp, env, m) && InRange(target.varType, AsInt(Eval(BinaryExpression(op, l, r), env, m)))
  {
    var res := BinaryExpression(op, l, r);
    var b := Bounds(target.varType, res);
    assert OverflowCheck(wp, target, op, l, r).value == Conjoin(wp, b);
    BoundsMeaning(target.varType, res, env, m);
    ConnectivesMeaning(wp, b, env, m);
  }

  /** The zero check holds exactly when `wp` holds and `exp` is not zero. */
  lemma AddZeroCheckMeaning(wp: Expression, exp: Expression, env: Env, m: Machine)
    requires DetermineEvaluationType(exp) != Bool
    ensures Holds(AddZeroCheck(wp, exp).value, env, m) <==> Holds(wp, env, m) && Eval(exp, env, m) != IntV(0)
  {
    var t := DetermineEvaluationType(exp);
    var z := ZeroOf(t);
    var check := BinaryExpression(NotEqual, exp, z);
    assert AddZeroCheck(wp, exp).value == Conjoin(wp, check);
    EvalTypedLiteral(t, 0, env, m);
    assert Eval(check, env, m) == ApplyBinary(NotEqual, Eval(exp, env, m), IntV(0), m);
    ConnectivesMeaning(wp, check, env, m);
  }
}

=== FILE: mir.dfy ===
/** The subset of the compiler's mid-level IR (MIR) the generator consumes:
    basic blocks of assignments ending in a terminator, and the declaration
    tables of one function body. Only the variants the generator inspects
    carry data; the others are kept so that it can refuse them. */
module Mir {
  import opened Results
  import opened Expressions

  type i8 = x: int | -0x80 <= x < 0x80
  type i16 = x: int | -0x8000 <= x < 0x8000
  type i32 = x: int | -0x8000_0000 <= x < 0x8000_0000
  type i64 = x: int | -0x8000_0000_0000_0000 <= x < 0x8000_0000_0000_0000
  type u8 = x: nat | x < 0x100
  type u16 = x: nat | x < 0x1_0000
  type u32 = x: nat | x < 0x1_0000_0000
  type u64 = x: nat | x < 0x1_0000_0000_0000_0000

  /** A declared type as the front end describes it: a scalar type named by
      its text, or a tuple of such texts. */
  datatype TypeText = Named(text: string) | TupleOf(elems: seq<string>)

  datatype ConstInt =
    | ConstI8(i8v: i8) | ConstI16(i16v: i16) | ConstI32(i32v: i32) | ConstI64(i64v: i64)
    | ConstU8(u8v: u8) | ConstU16(u16v: u16) | ConstU32(u32v: u32) | ConstU64(u64v: u64)
    | OtherInt  // pointer-sized and not-yet-inferred integers

  datatype ConstVal = BoolConst(b: bool) | Integral(ci: ConstInt) | OtherConst

  datatype Literal = Item | Value(value: ConstVal) | Promoted

  datatype Constant = Constant(ty: TypeText, literal: Literal)

  datatype ProjectionElem = Deref | Field(field: nat) | Index | OtherElem

  datatype Lvalue =
    | Arg(arg: nat)
    | Temp(temp: nat)
    | Var(local: nat)
    | ReturnPointer
    | Static
    | Projection(base: Lvalue, elem: ProjectionElem)

  datatype Operand = Consume(lvalue: Lvalue) | Constant(constant: Constant)

  datatype BinOp =
    | Add | Sub | Mul | Div | Rem
    | BitXor | BitAnd | BitOr | Shl | Shr
    | Eq | Lt | Le | Ne | Ge | Gt

  datatype UnOp = Not | Neg

  datatype AggregateKind = Vec | Tuple | Adt | Closure

  datatype Rvalue =
    | Use(operand: Operand)
    | Repeat
    | Ref(referent: Lvalue)
    | Len(of: Lvalue)
    | Cast(castOperand: Operand)
    | BinaryOp(op: BinOp, left: Operand, right: Operand)
    | CheckedBinaryOp(cop: BinOp, cleft: Operand, cright: Operand)
    | UnaryOp(unop: UnOp, arg: Operand)
    | Box
    | Aggregate(kind: AggregateKind, operands: seq<Operand>)
    | InlineAsm

  datatype Statement = Assign(lvalue: Lvalue, rvalue: Rvalue)

  datatype Terminator =
    | Goto(target: nat)
    | If(cond: Operand, thenTarget: nat, elseTarget: nat)
    | Switch
    | SwitchInt
    | Resume
    | Return
    | Unreachable
    | Drop
    | DropAndReplace
    | Call(func: Operand, args: seq<Operand>)
    | Assert(assertCond: Operand, expected: bool, assertTarget: nat)

  datatype BasicBlockData = BasicBlockData(statements: seq<Statement>, terminator: Option<Terminator>)

  datatype ArgDecl = ArgDecl(debugName: string, ty: TypeText)
  datatype TempDecl = TempDecl(ty: TypeText)
  datatype VarDecl = VarDecl(name: string, ty: TypeText)

  /** The declaration tables of one function body. The two hooks stand for
      what the generator reads off the compiler's debug rendering: whether a
      constant callee is the panic entry point, and the printed form of an
      operand. */
  datatype Declarations = Declarations(
    args: seq<ArgDecl>,
    temps: seq<TempDecl>,
    vars: seq<VarDecl>,
    returnType: Types,
    isPanicEntry: Literal -> bool,
    operandText: Operand -> string)

  /** One function body handed over by the front end. */
  datatype MirData = MirData(blocks: seq<BasicBlockData>, decls: Declarations)

  /** `term` is a `Goto` or an `Assert` that continues at block `t`. */
  predicate JumpsTo(term: Option<Terminator>, t: nat) {
    term == Some(Goto(t)) || (term.Some? && term.value.Assert? && term.value.assertTarget == t)
  }

  /** Blocks a terminator can transfer control to. */
  function Successors(block: BasicBlockData): set<nat> {
    match block.terminator
    case Some(Goto(t)) => {t}
    case Some(Assert(_, _, t)) => {t}
    case Some(If(_, t, e)) => {t, e}
    case _ => {}
  }

  /** `rank` witnesses that the block graph is acyclic: every edge to an
      existing block goes to a block of strictly smaller rank. */
  ghost predicate Ranked(data: MirData, rank: seq<nat>) {
    && |rank| == |data.blocks|
    && forall b, t :: 0 <= b < |data.blocks| && t in Successors(data.blocks[b]) && t < |data.blocks| ==>
         rank[t] < rank[b]
  }

  /** Measure for recursion over the block graph. */
  ghost function Height(data: MirData, rank: seq<nat>, index: nat): nat
    requires |rank| == |data.blocks|
  {
    if index < |data.blocks| then rank[index] + 1 else 0
  }
}

=== FILE: resolve.dfy ===
/** Resolution of MIR storage references, operands and constants into leaves
    of the logic tree: variable mappings with their semantic types, boolean
    literals and fixed-width bit-vector literals. */
module Resolve {
  import opened Results
  import opened Expressions
  import opened Decimal
  import opened Mir

  /** The scalar types the generator recognises, by name. */
  const TypeNames: map<string, Types> :=
    map["bool" := Bool, "i8" := I8, "i16" := I16, "i32" := I32, "i64" := I64,
        "u8" := U8, "u16" := U16, "u32" := U32, "u64" := U64]

  /** The name Rust gives a scalar type. */
  function TypeName(t: Types): string {
    match t
    case Bool => "bool"
    case I8 => "i8"
    case I16 => "i16"
    case I32 => "i32"
    case I64 => "i64"
    case U8 => "u8"
    case U16 => "u16"
    case U32 => "u32"
    case U64 => "u64"
  }

  function StringToType(s: string): (r: Result<Types>)
    ensures r.Err? ==> r.error == UnknownType
  {
    if s in TypeNames then Ok(TypeNames[s]) else Err(UnknownType)
  }

  /** Type names and `StringToType` are inverse: every scalar type is
      recognised by its name, and only names are recognised. */
  lemma StringToTypeRoundTrip(t: Types, s: string)
    ensures StringToType(TypeName(t)) == Ok(t)
    ensures StringToType(s).Ok? ==> TypeName(StringToType(s).value) == s
  {
  }

  /** A declared type read through its full text: a tuple's text is never a
      scalar type name. */
  function TypeOfText(t: TypeText): Result<Types> {
    match t
    case Named(s) => StringToType(s)
    case TupleOf(_) => Err(UnknownType)
  }

  /** A temporary's type: the first element of a non-empty tuple (the value
      half of a checked operation's result), otherwise its full text. */
  function TempType(t: TypeText): Result<Types> {
    match t
    case TupleOf(elems) => if |elems| > 0 then StringToType(elems[0]) else TypeOfText(t)
    case Named(_) => TypeOfText(t)
  }

  function TempName(i: nat): string {
    "tmp" + NatToString(i)
  }

  function VarName(i: nat): string {
    "var" + NatToString(i)
  }

  /** The name of field `field` of the variable named `base`. */
  function FieldName(base: string, field: nat): string {
    base + "." + NatToString(field)
  }

  /** Base name and element type of a field projection `base.field`. */
  function ProjectedBase(base: Lvalue, field: nat, decls: Declarations): Result<VariableMappingData> {
    match base
    case Arg(a) =>
      if a >= |decls.args| then Err(OutOfBounds)
      else
        var t :- TypeOfText(decls.args[a].ty);
        Ok(VariableMappingData(decls.args[a].debugName, t))
    case Temp(i) =>
      if i >= |decls.temps| then Err(OutOfBounds)
      else
        (match decls.temps[i].ty
         case TupleOf(elems) =>
           // the first element's type, whichever field is projected
           if |elems| == 0 then Err(OutOfBounds)
           else
             var t :- StringToType(elems[0]);
             Ok(VariableMappingData(TempName(i), t))
         case Named(_) => Err(Unimplemented))
    case Var(v) =>
      if v >= |decls.vars| then Err(OutOfBounds)
      else
        (match decls.vars[v].ty
         case TupleOf(elems) =>
           if field >= |elems| then Err(OutOfBounds)
           else
             var t :- StringToType(elems[field]);
             Ok(VariableMappingData(VarName(v), t))
         case Named(_) => Err(Unimplemented))
    case _ => Err(Unimplemented)
  }

  /** Maps a storage reference to the variable the logic tree names it by:
      an argument's debug name, `tmp<N>`, `var<N>`, `return`, or
      `<base>.<field>` for a field projection. */
  function GenLvalue(l: Lvalue, decls: Declarations): Result<VariableMappingData> {
    match l
    case Arg(i) =>
      if i >= |decls.args| then Err(OutOfBounds)
      else
        var t :- TypeOfText(decls.args[i].ty);
        Ok(VariableMappingData(decls.args[i].debugName, t))
    case Temp(i) =>
      if i >= |decls.temps| then Err(OutOfBounds)
      else
        var t :- TempType(decls.temps[i].ty);
        Ok(VariableMappingData(TempName(i), t))
    case Var(i) =>
      if i >= |decls.vars| then Err(OutOfBounds)
      else
        var t :- TypeOfText(decls.vars[i].ty);
        Ok(VariableMappingData(VarName(i), t))
    case ReturnPointer => Ok(VariableMappingData("return", decls.returnType))
    case Projection(base, elem) =>
      if !elem.Field? then Err(Unimplemented)
      else
        var b :- ProjectedBase(base, elem.field, decls);
        Ok(VariableMappingData(FieldName(b.name, elem.field), b.varType))
    case Static => Err(Unimplemented)
  }

  /** The semantic type of an operand read through its declared type text
      (no tuple inspection). */
  function GenTy(operand: Operand, decls: Declarations): Result<Types> {
    match operand
    case Constant(c) => TypeOfText(c.ty)
    case Consume(l) =>
      match l
      case Arg(i) => if i < |decls.args| then TypeOfText(decls.args[i].ty) else Err(OutOfBounds)
      case Temp(i) => if i < |decls.temps| then TypeOfText(decls.temps[i].ty) else Err(OutOfBounds)
      case Var(i) => if i < |decls.vars| then TypeOfText(decls.vars[i].ty) else Err(OutOfBounds)
      case _ => Err(Unimplemented)
  }

  /** Reference reading of an integer constant: its semantic type, if it has
      one of the supported widths. */
  function ConstIntType(ci: ConstInt): Option<Types> {
    match ci
    case ConstI8(_) => Some(I8)
    case ConstI16(_) => Some(I16)
    case ConstI32(_) => Some(I32)
    case ConstI64(_) => Some(I64)
    case ConstU8(_) => Some(U8)
    case ConstU16(_) => Some(U16)
    case ConstU32(_) => Some(U32)
    case ConstU64(_) => Some(U64)
    case OtherInt => None
  }

  /** Reference reading of an integer constant: the number it denotes. */
  function ConstIntValue(ci: ConstInt): int {
    match ci
    case ConstI8(v) => v
    case ConstI16(v) => v
    case ConstI32(v) => v
    case ConstI64(v) => v
    case ConstU8(v) => v
    case ConstU16(v) => v
    case ConstU32(v) => v
    case ConstU64(v) => v
    case OtherInt => 0
  }

  /** An integer constant as a bit-vector leaf of its own width and signedness. */
  function IntegralLeaf(ci: ConstInt): (r: Result<Expression>)
    ensures r.Ok? <==> ConstIntType(ci).Some?
    ensures r.Ok? ==> IsBitVector(r.value)
                      && DetermineEvaluationType(r.value) == ConstIntType(ci).value
                      && LeafValue(r.value) == ConstIntValue(ci)
  {
    match ci
    case ConstI8(v) => Ok(SignedBitVector(8, v))
    case ConstI16(v) => Ok(SignedBitVector(16, v))
    case ConstI32(v) => Ok(SignedBitVector(32, v))
    case ConstI64(v) => Ok(SignedBitVector(64, v))
    case ConstU8(v) => Ok(UnsignedBitVector(8, v))
    case ConstU16(v) => Ok(UnsignedBitVector(16, v))
    case ConstU32(v) => Ok(UnsignedBitVector(32, v))
    case ConstU64(v) => Ok(UnsignedBitVector(64, v))
    case OtherInt => Err(Unimplemented)
  }

  predicate IsLeaf(e: Expression) {
    e.BooleanLiteral? || e.SignedBitVector? || e.UnsignedBitVector? || e.VariableMapping?
  }

  /** An operand as a leaf: a read becomes the variable it resolves to, a
      constant becomes a boolean or bit-vector literal. */
  function GenExpression(operand: Operand, decls: Declarations): (r: Result<Expression>)
    ensures r.Ok? ==> IsLeaf(r.value)
    ensures operand.Consume? ==>
              (r.Ok? <==> GenLvalue(operand.lvalue, decls).Ok?)
              && (r.Ok? ==> r.value == VariableMapping(GenLvalue(operand.lvalue, decls).value))
    ensures operand.Constant? && operand.constant.literal == Value(BoolConst(true)) ==> r == Ok(BooleanLiteral(true))
    ensures operand.Constant? && operand.constant.literal == Value(BoolConst(false)) ==> r == Ok(BooleanLiteral(false))
  {
    match operand
    case Consume(l) =>
      var v :- GenLvalue(l, decls);
      Ok(VariableMapping(v))
    case Constant(c) =>
      match c.literal
      case Value(value) =>
        (match value
         case BoolConst(b) => Ok(BooleanLiteral(b))
         case Integral(ci) => IntegralLeaf(ci)
         case OtherConst => Err(Unimplemented))
      case Item => Err(Unimplemented)
      case Promoted => Err(Unimplemented)
  }

  // ---------------------------------------------------------------------
  // Name disjointness: the three numbered namespaces never collide.
  // ---------------------------------------------------------------------

  lemma PrefixedInjective(p: string, a: nat, b: nat)
    requires p + NatToString(a) == p + NatToString(b)
    ensures a == b
  {
    assert NatToString(a) == (p + NatToString(a))[|p|..];
    assert NatToString(b) == (p + NatToString(b))[|p|..];
    NatToStringInjective(a, b);
  }

  /** Distinct temporaries resolve to distinct names, and so do distinct
      locals; a temporary, a local and the return slot never share a name. */
  lemma NamesDistinct(i: nat, j: nat, decls: Declarations)
    ensures GenLvalue(Temp(i), decls).Ok? && GenLvalue(Temp(j), decls).Ok? && i != j ==>
              GenLvalue(Temp(i), decls).value.name != GenLvalue(Temp(j), decls).value.name
    ensures GenLvalue(Var(i), decls).Ok? && GenLvalue(Var(j), decls).Ok? && i != j ==>
              GenLvalue(Var(i), decls).value.name != GenLvalue(Var(j), decls).value.name
    ensures GenLvalue(Temp(i), decls).Ok? && GenLvalue(Var(j), decls).Ok? ==>
              GenLvalue(Temp(i), decls).value.name != GenLvalue(Var(j), decls).value.name
    ensures GenLvalue(Temp(i), decls).Ok? ==>
              GenLvalue(Temp(i), decls).value.name != GenLvalue(ReturnPointer, decls).value.name
    ensures GenLvalue(Var(i), decls).Ok? ==>
              GenLvalue(Var(i), decls).value.name != GenLvalue(ReturnPointer, decls).value.name
  {
    if TempName(i) == TempName(j) {
      PrefixedInjective("tmp", i, j);
    }
    if VarName(i) == VarName(j) {
      PrefixedInjective("var", i, j);
    }
    assert TempName(i)[0] == 't' && VarName(j)[0] == 'v' && VarName(i)[0] == 'v';
  }

  /** A projected field name `tmp<I>.<F>` determines both the temporary and the
      field, and never coincides with a plain temporary's name. */
  lemma ProjectionNamesInjective(i: nat, f: nat, j: nat, g: nat)
    ensures FieldName(TempName(i), f) == FieldName(TempName(j), g) ==> i == j && f == g
    ensures FieldName(TempName(i), f) != TempName(j)
  {
    var a := FieldName(TempName(i), f);
    var b := FieldName(TempName(j), g);
    var ni := NatToString(i);
    var nj := NatToString(j);
    assert a[|TempName(i)|] == '.';
    assert b[|TempName(j)|] == '.';
    if a == b {
      // the first '.' sits right after the digits of the index
      if |ni| != |nj| {
        assert false;
      }
      assert a[..|TempName(i)|] == TempName(i);
      assert b[..|TempName(j)|] == TempName(j);
      PrefixedInjective("tmp", i, j);
      assert NatToString(f) == a[|TempName(i)| + 1..];
      assert NatToString(g) == b[|TempName(j)| + 1..];
      NatToStringInjective(f, g);
    }
    assert a != TempName(j) by {
      if |a| == |TempName(j)| {
        assert TempName(j)[|TempName(i)|] == nj[|ni|];
      }
    }
  }

  // ---------------------------------------------------------------------
  // Arguments: their debug names share the namespace of generated names.
  // ---------------------------------------------------------------------

  /** `s` is `prefix` followed by a decimal numeral. */
  predicate NumberedName(s: string, prefix: string) {
    |s| > |prefix| && s[..|prefix|] == prefix && AllDigits(s[|prefix|..])
  }

  /** A name the generator builds for something other than an argument:
      the return slot, a temporary, a local, or a projected field. */
  predicate ReservedName(s: string) {
    s == "return" || NumberedName(s, "tmp") || NumberedName(s, "var") || '.' in s
  }

  /** Argument debug names that cannot meet another place's name: none is
      reserved and no two arguments share one. */
  predicate ArgNamesAdmissible(decls: Declarations) {
    && (forall i :: 0 <= i < |decls.args| ==> !ReservedName(decls.args[i].debugName))
    && (forall i, j :: 0 <= i < j < |decls.args| ==> decls.args[i].debugName != decls.args[j].debugName)
  }

  /** The name of a base place, whatever its declared type. */
  function BaseName(l: Lvalue, decls: Declarations): string
    requires l.Arg? ==> l.arg < |decls.args|
  {
    match l
    case Arg(i) => decls.args[i].debugName
    case Temp(i) => TempName(i)
    case Var(i) => VarName(i)
    case _ => "return"
  }

  predicate IsBase(l: Lvalue, decls: Declarations) {
    (l.Arg? && l.arg < |decls.args|) || l.Temp? || l.Var? || l.ReturnPointer?
  }

  lemma NumberedNameOf(p: string, n: nat)
    requires '.' !in p
    ensures NumberedName(p + NatToString(n), p)
    ensures '.' !in p + NatToString(n)
  {
  }

  /** Under admissible argument names, distinct base places have distinct,
      dot-free names. */
  lemma {:induction false} BaseNamesDistinct(l1: Lvalue, l2: Lvalue, decls: Declarations)
    requires ArgNamesAdmissible(decls)
    requires IsBase(l1, decls) && IsBase(l2, decls)
    ensures '.' !in BaseName(l1, decls)
    ensures l1 != l2 ==> BaseName(l1, decls) != BaseName(l2, decls)
  {
    if l1.Temp? { NumberedNameOf("tmp", l1.temp); }
    if l1.Var? { NumberedNameOf("var", l1.local); }
    if l2.Temp? { NumberedNameOf("tmp", l2.temp); }
    if l2.Var? { NumberedNameOf("var", l2.local); }
    if l1 != l2 {
      if l1.Arg? && l2.Arg? {
        if l1.arg < l2.arg {
          assert decls.args[l1.arg].debugName != decls.args[l2.arg].debugName;
        } else {
          assert decls.args[l2.arg].debugName != decls.args[l1.arg].debugName;
        }
      } else if l1.Arg? || l2.Arg? {
        assert !ReservedName(decls.args[if l1.Arg? then l1.arg else l2.arg].debugName);
      } else if l1.Temp? && l2.Temp? {
        if TempName(l1.temp) == TempName(l2.temp) { PrefixedInjective("tmp", l1.temp, l2.temp); }
      } else if l1.Var? && l2.Var? {
        if VarName(l1.local) == VarName(l2.local) { PrefixedInjective("var", l1.local, l2.local); }
      } else {
        assert BaseName(l1, decls)[0] != BaseName(l2, decls)[0];
      }
    }
  }

  /** A field name determines its dot-free base and its field. */
  lemma FieldNameInjective(a: string, f: nat, b: string, g: nat)
    requires '.' !in a && '.' !in b
    ensures '.' in FieldName(a, f)
    ensures FieldName(a, f) == FieldName(b, g) ==> a == b && f == g
  {
    var x := FieldName(a, f);
    var y := FieldName(b, g);
    assert x[|a|] == '.';
    if x == y {
      if |a| < |b| {
        assert false;
      }
      if |b| < |a| {
        assert false;
      }
      assert a == x[..|a|] && b == y[..|b|];
      assert NatToString(f) == x[|a| + 1..];
      assert NatToString(g) == y[|b| + 1..];
      NatToStringInjective(f, g);
    }
  }

  /** What a resolved place is named by: its base name, or its base's name
      followed by the field. */
  lemma GenLvalueName(l: Lvalue, decls: Declarations)
    requires GenLvalue(l, decls).Ok?
    ensures l.Projection? || IsBase(l, decls)
    ensures IsBase(l, decls) ==> GenLvalue(l, decls).value.name == BaseName(l, decls)
    ensures l.Projection? ==>
              l.elem.Field? && IsBase(l.base, decls) && !l.base.ReturnPointer?
              && GenLvalue(l, decls).value.name == FieldName(BaseName(l.base, decls), l.elem.field)
  {
  }

  /** Under admissible argument names, distinct places that resolve get
      distinct names: arguments, temporaries, locals, the return slot and
      field projections of any of the first three never collide. */
  lemma PlacesDistinct(l1: Lvalue, l2: Lvalue, decls: Declarations)
    requires ArgNamesAdmissible(decls)
    requires GenLvalue(l1, decls).Ok? && GenLvalue(l2, decls).Ok? && l1 != l2
    ensures GenLvalue(l1, decls).value.name != GenLvalue(l2, decls).value.name
  {
    GenLvalueName(l1, decls);
    GenLvalueName(l2, decls);
    var b1 := if l1.Projection? then l1.base else l1;
    var b2 := if l2.Projection? then l2.base else l2;
    BaseNamesDistinct(b1, b2, decls);
    BaseNamesDistinct(b2, b1, decls);
    FieldNameInjective(BaseName(b1, decls), if l1.Projection? then l1.elem.field else 0,
                       BaseName(b2, decls), if l2.Projection? then l2.elem.field else 0);
    FieldNameInjective(BaseName(b2, decls), if l2.Projection? then l2.elem.field else 0,
                       BaseName(b1, decls), if l1.Projection? then l1.elem.field else 0);
  }

  /** A read of an argument, temporary or local with a scalar declaration has
      the same type whether it is read as an operand type or as a variable. */
  lemma GenTyAgreesWithGenLvalue(l: Lvalue, decls: Declarations)
    requires l.Arg? || l.Temp? || l.Var?
    requires l.Arg? && l.arg < |decls.args| ==> decls.args[l.arg].ty.Named?
    requires l.Temp? && l.temp < |decls.temps| ==> decls.temps[l.temp].ty.Named?
    requires l.Var? && l.local < |decls.vars| ==> decls.vars[l.local].ty.Named?
    ensures GenTy(Consume(l), decls).Ok? <==> GenLvalue(l, decls).Ok?
    ensures GenTy(Consume(l), decls).Ok? ==>
              GenTy(Consume(l), decls).value == DetermineEvaluationType(GenExpression(Consume(l), decls).value)
  {
  }
}

=== FILE: results.dfy ===
/** Outcomes of the generator's partial operations.

    The generator aborts the whole computation on anything it cannot handle:
    `unimplemented!`, `unreachable!`, `rp_error!`, an index past the end of a
    table, an `unwrap` of nothing, a type text it does not know. Here each of
    those is an `Err` naming the reason, and `:-` passes it outwards. */
module Results {

  /** A value that may be absent, such as an operand with no value. */
  datatype Option<+T> = None | Some(value: T)

  /** Why the generator refused a function body. */
  datatype WpError =
    | Unimplemented      // a MIR shape the generator does not handle (`unimplemented!`)
    | Unreachable        // a shape the generator assumes never occurs (`unreachable!`)
    | Unsupported        // an explicitly rejected operation or operand type (`rp_error!`)
    | OutOfBounds        // an index past the end of the blocks, declarations or a tuple type
    | MissingTerminator  // a basic block without its terminator
    | UnknownType        // declared type text outside the supported scalar types

  /** A value, or the reason the generator refused to produce one. */
  datatype Result<+T> = Ok(value: T) | Err(error: WpError) {

    predicate IsFailure() {
      Err?
    }

    function PropagateFailure<U>(): Result<U>
      requires Err?
    {
      Err(error)
    }

    function Extract(): T
      requires Ok?
    {
      value
    }
  }
}

=== FILE: semantics.dfy ===
/** A reference meaning for logic trees: evaluation over an environment that
    maps variable mappings to values. Integers are unbounded, so an overflow
    guard compares the true mathematical result with the type's bounds.
    Division and remainder truncate toward zero as Rust's do. Bit-level
    operations are left to an abstract `Machine`, since the generator never
    interprets them. */
module Semantics {
  import opened Expressions

  datatype Value = BoolV(b: bool) | IntV(i: int)

  function Truthy(v: Value): bool {
    v.BoolV? && v.b
  }

  function AsInt(v: Value): int {
    if v.IntV? then v.i else 0
  }

  type Env = map<VariableMappingData, Value>

  function Lookup(env: Env, x: VariableMappingData): Value {
    if x in env then env[x] else IntV(0)
  }

  datatype BitOp = AndBits | OrBits | XorBits | ShiftLeft | ShiftRight

  /** The target's bit-level operations, left uninterpreted. */
  datatype Machine = Machine(bits: (BitOp, int, int) -> int, complement: int -> int)

  function Abs(a: int): nat {
    if a < 0 then -a else a
  }

  /** Quotient rounded toward zero; zero for a zero divisor. */
  function TruncDiv(a: int, b: int): int {
    if b == 0 then 0
    else if (a < 0) == (b < 0) then Abs(a) / Abs(b)
    else -(Abs(a) / Abs(b))
  }

  /** Remainder taking the sign of the dividend. */
  function TruncRem(a: int, b: int): int {
    a - b * TruncDiv(a, b)
  }

  function ApplyBinary(op: BinaryOperator, a: Value, b: Value, m: Machine): Value {
    match op
    case Addition => IntV(AsInt(a) + AsInt(b))
    case Subtraction => IntV(AsInt(a) - AsInt(b))
    case Multiplication => IntV(AsInt(a) * AsInt(b))
    case Division => IntV(TruncDiv(AsInt(a), AsInt(b)))
    case Modulo => IntV(TruncRem(AsInt(a), AsInt(b)))
    case BitwiseOr => IntV(m.bits(OrBits, AsInt(a), AsInt(b)))
    case BitwiseAnd => IntV(m.bits(AndBits, AsInt(a), AsInt(b)))
    case BitwiseXor => IntV(m.bits(XorBits, AsInt(a), AsInt(b)))
    case BitwiseLeftShift => IntV(m.bits(ShiftLeft, AsInt(a), AsInt(b)))
    case BitwiseRightShift => IntV(m.bits(ShiftRight, AsInt(a), AsInt(b)))
    case LessThan => BoolV(AsInt(a) < AsInt(b))
    case LessThanOrEqual => BoolV(AsInt(a) <= AsInt(b))
    case GreaterThan => BoolV(AsInt(a) > AsInt(b))
    case GreaterThanOrEqual => BoolV(AsInt(a) >= AsInt(b))
    case Equal => BoolV(a == b)
    case NotEqual => BoolV(a != b)
    case And => BoolV(Truthy(a) && Truthy(b))
    case Or => BoolV(Truthy(a) || Truthy(b))
    case Implication => BoolV(!Truthy(a) || Truthy(b))
  }

  function Eval(e: Expression, env: Env, m: Machine): Value {
    match e
    case BooleanLiteral(b) => BoolV(b)
    case SignedBitVector(_, v) => IntV(v)
    case UnsignedBitVector(_, v) => IntV(v)
    case VariableMapping(x) => Lookup(env, x)
    case UnaryExpression(op, a) =>
      var va := Eval(a, env, m);
      (match op
       case Not => BoolV(!Truthy(va))
       case Negation => IntV(-AsInt(va))
       case BitwiseNot => IntV(m.complement(AsInt(va))))
    case BinaryExpression(op, a, b) => ApplyBinary(op, Eval(a, env, m), Eval(b, env, m), m)
  }

  predicate Holds(e: Expression, env: Env, m: Machine) {
    Truthy(Eval(e, env, m))
  }

  /** The evaluation type agrees with evaluation: a tree its operator types
      as `Bool` evaluates to a truth value, a bit-vector leaf to its number
      at an integer type of its signedness, a variable is typed by its
      mapping, and arithmetic by its left operand. */
  lemma EvaluationTypeMeaning(e: Expression, env: Env, m: Machine)
    ensures (e.BooleanLiteral? || (e.UnaryExpression? && e.uop == Not) || (e.BinaryExpression? && IsBooleanValued(e.bop))) ==>
              DetermineEvaluationType(e) == Bool && Eval(e, env, m).BoolV?
    ensures IsBitVector(e) ==>
              && DetermineEvaluationType(e) != Bool && Eval(e, env, m) == IntV(LeafValue(e))
              && (IsSignedType(DetermineEvaluationType(e)) <==> e.SignedBitVector?)
    ensures e.VariableMapping? ==> DetermineEvaluationType(e) == e.v.varType
    ensures e.BinaryExpression? && !IsBooleanValued(e.bop) ==> DetermineEvaluationType(e) == DetermineEvaluationType(e.left)
  {
  }

  /** Substitution is assignment read backwards: evaluating the rewritten tree
      is evaluating the original once the variable holds the replacement's
      value. */
  lemma {:induction false} SubstituteSound(q: Expression, x: VariableMappingData, e: Expression, env: Env, m: Machine)
    ensures Eval(Substitute(q, x, e), env, m) == Eval(q, env[x := Eval(e, env, m)], m)
  {
    match q
    case UnaryExpression(_, a) =>
      SubstituteSound(a, x, e, env, m);
    case BinaryExpression(_, a, b) =>
      SubstituteSound(a, x, e, env, m);
      SubstituteSound(b, x, e, env, m);
    case _ =>
  }

  /** Updating a variable a tree does not mention leaves its value alone. */
  lemma {:induction false} EvalUnmentioned(q: Expression, x: VariableMappingData, v: Value, env: Env, m: Machine)
    requires !Mentions(q, x)
    ensures Eval(q, env[x := v], m) == Eval(q, env, m)
  {
    match q
    case UnaryExpression(_, a) =>
      EvalUnmentioned(a, x, v, env, m);
    case BinaryExpression(_, a, b) =>
      EvalUnmentioned(a, x, v, env, m);
      EvalUnmentioned(b, x, v, env, m);
    case _ =>
  }

  /** Meaning of the three connectives the generator builds trees from. */
  lemma ConnectivesMeaning(a: Expression, b: Expression, env: Env, m: Machine)
    ensures Holds(Conjoin(a, b), env, m) <==> Holds(a, env, m) && Holds(b, env, m)
    ensures Holds(Implies(a, b), env, m) <==> (Holds(a, env, m) ==> Holds(b, env, m))
    ensures Holds(Negate(a), env, m) <==> !Holds(a, env, m)
  {
  }
}

=== FILE: statements.dfy ===
/** Backward semantics of one MIR assignment: conjoin the safety guards the
    right-hand side needs, then substitute the right-hand side for the
    assigned variable in the predicate. */
module Statements {
  import opened Results
  import opened Expressions
  import opened Mir
  import opened Resolve
  import opened Guards

  /** The predicate to rewrite, the variable to rewrite it at, and the
      expressions to substitute for that variable, in order. */
  datatype Rewrite = Rewrite(pre: Expression, key: VariableMappingData, replacements: seq<Expression>)

  /** The logic-tree operator for a MIR binary operator. */
  function OperatorOf(op: BinOp): BinaryOperator {
    match op
    case Add => Addition
    case Sub => Subtraction
    case Mul => Multiplication
    case Div => Division
    case Rem => Modulo
    case BitOr => BitwiseOr
    case BitAnd => BitwiseAnd
    case BitXor => BitwiseXor
    case Shl => BitwiseLeftShift
    case Shr => BitwiseRightShift
    case Lt => LessThan
    case Le => LessThanOrEqual
    case Gt => GreaterThan
    case Ge => GreaterThanOrEqual
    case Eq => Equal
    case Ne => NotEqual
  }

  /** Operators that can fail at run time and so receive a guard. */
  predicate IsGuarded(op: BinOp) {
    op.Add? || op.Sub? || op.Mul? || op.Div? || op.Rem?
  }

  predicate IsDivision(op: BinOp) {
    op.Div? || op.Rem?
  }

  /** Operators the generator accepts in overflow-tracked form. */
  predicate CheckedSupported(op: BinOp) {
    IsGuarded(op) || op.Shl? || op.Shr?
  }

  /** The value half of a checked operation's `(value, overflowed)` result. */
  function CheckedKey(target: VariableMappingData): VariableMappingData {
    VariableMappingData(target.name + ".0", target.varType)
  }

  /** `wp` with the guards `l op r` needs: the bound checks for add, sub and
      mul; for div and rem the bound checks when the divisor is signed, then
      the divisor's zero check; nothing for the other operators. */
  function GuardedPredicate(wp: Expression, target: VariableMappingData, op: BinOp,
                            l: Expression, r: Expression): Result<Expression>
  {
    if op.Add? || op.Sub? || op.Mul? then OverflowCheck(wp, target, OperatorOf(op), l, r)
    else if IsDivision(op) then
      var q :- if IsSignedType(DetermineEvaluationType(r)) then OverflowCheck(wp, target, OperatorOf(op), l, r)
               else Ok(wp);
      AddZeroCheck(q, r)
    else Ok(wp)
  }

  /** The complement a `!` denotes: logical on a boolean operand, bitwise on
      an integer one. */
  function ComplementOf(operand: Expression): UnaryOperator {
    if DetermineEvaluationType(operand) == Bool then UnaryOperator.Not else BitwiseNot
  }

  /** Tuple components named by their printed form and typed by their
      declared type text. */
  function TupleComponents(operands: seq<Operand>, decls: Declarations): (r: Result<seq<Expression>>)
    ensures r.Ok? <==> forall i :: 0 <= i < |operands| ==> GenTy(operands[i], decls).Ok?
    ensures r.Ok? ==>
              && |r.value| == |operands|
              && forall i :: 0 <= i < |operands| ==>
                   r.value[i] == VariableMapping(VariableMappingData(decls.operandText(operands[i]), GenTy(operands[i], decls).value))
  {
    if |operands| == 0 then Ok([])
    else
      var t :- GenTy(operands[0], decls);
      var rest :- TupleComponents(operands[1..], decls);
      Ok([VariableMapping(VariableMappingData(decls.operandText(operands[0]), t))] + rest)
  }

  /** `key := l op r`: guard the predicate, then rewrite it at `key`. */
  function BinaryRewrite(wp: Expression, target: VariableMappingData, key: VariableMappingData,
                         op: BinOp, l: Expression, r: Expression): Result<Rewrite>
  {
    var q :- GuardedPredicate(wp, target, op, l, r);
    Ok(Rewrite(q, key, [BinaryExpression(OperatorOf(op), l, r)]))
  }

  /** Classifies the right-hand side of `target := rvalue`. */
  function GenRhs(wp: Expression, target: VariableMappingData, rvalue: Rvalue, decls: Declarations): Result<Rewrite> {
    match rvalue
    case CheckedBinaryOp(op, a, b) =>
      var l :- GenExpression(a, decls);
      var r :- GenExpression(b, decls);
      if !CheckedSupported(op) then Err(Unsupported)
      else BinaryRewrite(wp, target, CheckedKey(target), op, l, r)
    case BinaryOp(op, a, b) =>
      var l :- GenExpression(a, decls);
      var r :- GenExpression(b, decls);
      BinaryRewrite(wp, target, target, op, l, r)
    case UnaryOp(u, a) =>
      var e :- GenExpression(a, decls);
      var op := if u == UnOp.Not then ComplementOf(e) else Negation;
      Ok(Rewrite(wp, target, [UnaryExpression(op, e)]))
    case Use(a) =>
      var e :- GenExpression(a, decls);
      Ok(Rewrite(wp, target, [e]))
    case Aggregate(kind, operands) =>
      if kind != Tuple then Err(Unsupported)
      else
        var es :- TupleComponents(operands, decls);
        Ok(Rewrite(wp, target, es))
    case Cast(_) => Ok(Rewrite(wp, target, [VariableMapping(target)]))
    case Ref(_) => Ok(Rewrite(wp, target, [VariableMapping(target)]))
    case _ => Err(Unimplemented)
  }

  /** The weakest precondition of one assignment with respect to `wp`. */
  function GenStmt(wp: Expression, stmt: Statement, decls: Declarations): Result<Expression> {
    var target :- GenLvalue(stmt.lvalue, decls);
    var rw :- GenRhs(wp, target, stmt.rvalue, decls);
    Ok(SubstituteAll(rw.pre, rw.key, rw.replacements))
  }

  // ---------------------------------------------------------------------
  // Guards by operator
  // ---------------------------------------------------------------------

  /** `l op r` as a checked or a plain binary right-hand side. */
  predicate IsBinaryRhs(rvalue: Rvalue, op: BinOp, a: Operand, b: Operand) {
    rvalue == BinaryOp(op, a, b) || rvalue == CheckedBinaryOp(op, a, b)
  }

  /** Add, sub and mul always route the predicate through the overflow check;
      the result is refused only for a boolean target. */
  lemma ArithmeticGuard(wp: Expression, target: VariableMappingData, rvalue: Rvalue, op: BinOp,
                        a: Operand, b: Operand, decls: Declarations)
    requires op.Add? || op.Sub? || op.Mul?
    requires IsBinaryRhs(rvalue, op, a, b)
    requires GenExpression(a, decls).Ok? && GenExpression(b, decls).Ok?
    ensures GenRhs(wp, target, rvalue, decls).Ok? <==> target.varType != Bool
    ensures GenRhs(wp, target, rvalue, decls).Ok? ==>
              GenRhs(wp, target, rvalue, decls).value.pre ==
                OverflowCheck(wp, target, OperatorOf(op), GenExpression(a, decls).value, GenExpression(b, decls).value).value
  {
  }

  /** The guarded predicate of a division or remainder: the divisor's zero
      check over the overflow check when the divisor is signed, over `wp`
      itself otherwise; a boolean divisor is refused. */
  lemma DivisionGuardedPredicate(wp: Expression, target: VariableMappingData, op: BinOp, l: Expression, r: Expression)
    requires IsDivision(op)
    ensures var t := DetermineEvaluationType(r);
            && (GuardedPredicate(wp, target, op, l, r).Ok? <==>
                  t != Bool && (IsSignedType(t) ==> target.varType != Bool))
            && (GuardedPredicate(wp, target, op, l, r).Ok? ==>
                  GuardedPredicate(wp, target, op, l, r).value ==
                    Conjoin(if IsSignedType(t) then OverflowCheck(wp, target, OperatorOf(op), l, r).value else wp,
                            BinaryExpression(NotEqual, r, ZeroOf(t))))
  {
    var t := DetermineEvaluationType(r);
    var g := GuardedPredicate(wp, target, op, l, r);
    if IsSignedType(t) {
      var o := OverflowCheck(wp, target, OperatorOf(op), l, r);
      assert g == if o.Ok? then AddZeroCheck(o.value, r) else Err(o.error);
      if o.Ok? {
        assert t != Bool;
        assert AddZeroCheck(o.value, r).Ok?;
      }
    } else {
      assert g == AddZeroCheck(wp, r);
    }
  }

  /** Div and rem always end in the divisor's zero check, whether checked or
      plain. */
  lemma DivisionGuard(wp: Expression, target: VariableMappingData, rvalue: Rvalue, op: BinOp,
                      a: Operand, b: Operand, decls: Declarations)
    requires IsDivision(op)
    requires IsBinaryRhs(rvalue, op, a, b)
    requires GenExpression(a, decls).Ok? && GenExpression(b, decls).Ok?
    ensures var l := GenExpression(a, decls).value;
            var r := GenExpression(b, decls).value;
            var t := DetermineEvaluationType(r);
            && (GenRhs(wp, target, rvalue, decls).Ok? <==>
                  t != Bool && (IsSignedType(t) ==> target.varType != Bool))
            && (GenRhs(wp, target, rvalue, decls).Ok? ==>
                  GenRhs(wp, target, rvalue, decls).value.pre ==
                    Conjoin(if IsSignedType(t) then OverflowCheck(wp, target, OperatorOf(op), l, r).value else wp,
                            BinaryExpression(NotEqual, r, ZeroOf(t))))
  {
    var l := GenExpression(a, decls).value;
    var r := GenExpression(b, decls).value;
    DivisionGuardedPredicate(wp, target, op, l, r);
    var g := GuardedPredicate(wp, target, op, l, r);
    if rvalue.BinaryOp? {
      assert GenRhs(wp, target, rvalue, decls) ==
        if g.Ok? then Ok(Rewrite(g.value, target, [BinaryExpression(OperatorOf(op), l, r)])) else Err(g.error);
    } else {
      assert CheckedSupported(op);
      assert GenRhs(wp, target, rvalue, decls) ==
        if g.Ok? then Ok(Rewrite(g.value, CheckedKey(target), [BinaryExpression(OperatorOf(op), l, r)])) else Err(g.error);
    }
  }

  /** Shifts, bitwise operators and comparisons leave the predicate as it is
      before substitution. In checked form only the shifts are accepted. */
  lemma UnguardedOperators(wp: Expression, target: VariableMappingData, rvalue: Rvalue, op: BinOp,
                           a: Operand, b: Operand, decls: Declarations)
    requires !IsGuarded(op)
    requires IsBinaryRhs(rvalue, op, a, b)
    requires GenExpression(a, decls).Ok? && GenExpression(b, decls).Ok?
    ensures GenRhs(wp, target, rvalue, decls).Ok? <==> rvalue.BinaryOp? || op.Shl? || op.Shr?
    ensures GenRhs(wp, target, rvalue, decls).Ok? ==> GenRhs(wp, target, rvalue, decls).value.pre == wp
  {
  }

  /** A checked operation rewrites the predicate at `<target>.0`, a plain one
      at the target itself; both substitute `l op r` with the matching
      operator. */
  lemma BinaryKeyAndReplacement(wp: Expression, target: VariableMappingData, rvalue: Rvalue, op: BinOp,
                                a: Operand, b: Operand, decls: Declarations)
    requires IsBinaryRhs(rvalue, op, a, b)
    requires GenExpression(a, decls).Ok? && GenExpression(b, decls).Ok?
    requires GenRhs(wp, target, rvalue, decls).Ok?
    ensures var rw := GenRhs(wp, target, rvalue, decls).value;
            && rw.key == (if rvalue.CheckedBinaryOp? then CheckedKey(target) else target)
            && rw.replacements ==
                 [BinaryExpression(OperatorOf(op), GenExpression(a, decls).value, GenExpression(b, decls).value)]
  {
    var l := GenExpression(a, decls).value;
    var r := GenExpression(b, decls).value;
    if rvalue.BinaryOp? {
      assert GenRhs(wp, target, rvalue, decls) == BinaryRewrite(wp, target, target, op, l, r);
    } else {
      assert GenRhs(wp, target, rvalue, decls) ==
        if CheckedSupported(op) then BinaryRewrite(wp, target, CheckedKey(target), op, l, r) else Err(Unsupported);
      assert CheckedSupported(op);
      var g := GuardedPredicate(wp, target, op, l, r);
      assert GenRhs(wp, target, rvalue, decls) ==
        Ok(Rewrite(g.value, CheckedKey(target), [BinaryExpression(OperatorOf(op), l, r)]));
    }
  }

  /** `!` becomes logical negation on a boolean operand and bitwise complement
      otherwise; unary minus is always arithmetic negation. */
  lemma UnaryOperatorChoice(wp: Expression, target: VariableMappingData, u: UnOp, a: Operand, decls: Declarations)
    requires GenExpression(a, decls).Ok?
    ensures var e := GenExpression(a, decls).value;
            var rw := GenRhs(wp, target, UnaryOp(u, a), decls);
            && rw.Ok? && rw.value.pre == wp && rw.value.key == target && |rw.value.replacements| == 1
            && rw.value.replacements[0].UnaryExpression? && rw.value.replacements[0].e == e
            && (rw.value.replacements[0].uop == UnaryOperator.Not <==>
                  u == UnOp.Not && DetermineEvaluationType(e) == Bool)
            && (rw.value.replacements[0].uop == BitwiseNot <==>
                  u == UnOp.Not && DetermineEvaluationType(e) != Bool)
            && (rw.value.replacements[0].uop == Negation <==> u == Neg)
  {
  }

  /** A cast or a reference leaves the predicate unchanged. */
  lemma {:induction false} CastAndRefKeepPredicate(wp: Expression, lvalue: Lvalue, rvalue: Rvalue, decls: Declarations)
    requires rvalue.Cast? || rvalue.Ref?
    requires GenLvalue(lvalue, decls).Ok?
    ensures GenStmt(wp, Assign(lvalue, rvalue), decls) == Ok(wp)
  {
    SubstituteSelf(wp, GenLvalue(lvalue, decls).value);
  }

  /** A plain read substitutes the operand for the target, with no guard. */
  lemma UseSubstitutes(wp: Expression, lvalue: Lvalue, a: Operand, decls: Declarations)
    requires GenLvalue(lvalue, decls).Ok? && GenExpression(a, decls).Ok?
    ensures GenStmt(wp, Assign(lvalue, Use(a)), decls) ==
              Ok(Substitute(wp, GenLvalue(lvalue, decls).value, GenExpression(a, decls).value))
  {
  }

  /** Only tuples are accepted as aggregates. */
  lemma AggregateOnlyTuples(wp: Expression, target: VariableMappingData, kind: AggregateKind,
                            operands: seq<Operand>, decls: Declarations)
    ensures kind != Tuple ==> GenRhs(wp, target, Aggregate(kind, operands), decls) == Err(Unsupported)
    ensures kind == Tuple ==>
              (GenRhs(wp, target, Aggregate(kind, operands), decls).Ok? <==>
                 forall i :: 0 <= i < |operands| ==> GenTy(operands[i], decls).Ok?)
  {
  }
}

=== FILE: tuple_aggregate.dfy ===
/** Tuples built into temporaries. The generator names a tuple temporary
    `tmp<I>` and its fields `tmp<I>.<F>`, and treats `tmp<I> := (a0, …, an)`
    as an assignment to `tmp<I>` alone: it substitutes each component's
    printed name for `tmp<I>` in turn, so a predicate about a field of the
    new tuple passes through unchanged. The corrected rule replaces every
    field by its component, all at once. */
module TupleAggregate {
  import opened Results
  import opened Expressions
  import opened Decimal
  import opened Mir
  import opened Resolve
  import opened Semantics
  import opened Statements
  import opened Walker
  import opened Execution
  import opened TupleCopy

  // ---------------------------------------------------------------------
  // Simultaneous substitution
  // ---------------------------------------------------------------------

  /** The replacement for variable `v`: the expression paired with its last
      listing in `xs`, or `d` when it is not listed. */
  function Pick(xs: seq<VariableMappingData>, es: seq<Expression>, v: VariableMappingData, d: Expression): Expression
    requires |xs| == |es|
    decreases |xs|
  {
    if |xs| == 0 then d
    else if xs[|xs| - 1] == v then es[|es| - 1]
    else Pick(xs[..|xs| - 1], es[..|es| - 1], v, d)
  }

  /** `q` with every listed variable replaced by its expression at once, so
      that no replacement is itself rewritten. */
  function SubstituteParallel(q: Expression, xs: seq<VariableMappingData>, es: seq<Expression>): Expression
    requires |xs| == |es|
  {
    match q
    case VariableMapping(v) => Pick(xs, es, v, q)
    case UnaryExpression(op, a) => UnaryExpression(op, SubstituteParallel(a, xs, es))
    case BinaryExpression(op, a, b) => BinaryExpression(op, SubstituteParallel(a, xs, es), SubstituteParallel(b, xs, es))
    case _ => q
  }

  /** The values of a list of trees in one state. */
  function EvalAll(es: seq<Expression>, env: Env, m: Machine): (vs: seq<Value>)
    ensures |vs| == |es| && forall k :: 0 <= k < |es| ==> vs[k] == Eval(es[k], env, m)
  {
    seq(|es|, k requires 0 <= k < |es| => Eval(es[k], env, m))
  }

  /** A picked replacement evaluates to what the variable holds once every
      listed variable holds its expression's value. */
  lemma {:induction false} PickSound(xs: seq<VariableMappingData>, es: seq<Expression>, v: VariableMappingData, env: Env, m: Machine)
    requires |xs| == |es|
    ensures Eval(Pick(xs, es, v, VariableMapping(v)), env, m) == Lookup(WriteSlots(xs, EvalAll(es, env, m), env), v)
    decreases |xs|
  {
    if |xs| > 0 {
      var n := |xs| - 1;
      assert EvalAll(es, env, m)[..n] == EvalAll(es[..n], env, m);
      PickSound(xs[..n], es[..n], v, env, m);
    }
  }

  /** Simultaneous substitution is simultaneous assignment read backwards. */
  lemma {:induction false} ParallelSound(q: Expression, xs: seq<VariableMappingData>, es: seq<Expression>, env: Env, m: Machine)
    requires |xs| == |es|
    ensures Eval(SubstituteParallel(q, xs, es), env, m) == Eval(q, WriteSlots(xs, EvalAll(es, env, m), env), m)
  {
    match q
    case VariableMapping(v) =>
      PickSound(xs, es, v, env, m);
    case UnaryExpression(_, a) =>
      ParallelSound(a, xs, es, env, m);
    case BinaryExpression(_, a, b) =>
      ParallelSound(a, xs, es, env, m);
      ParallelSound(b, xs, es, env, m);
    case _ =>
  }

  // ---------------------------------------------------------------------
  // The corrected rule
  // ---------------------------------------------------------------------

  /** The leaves of a list of operands, when every one resolves. */
  function GenExpressions(ops: seq<Operand>, decls: Declarations): (r: Result<seq<Expression>>)
    ensures r.Ok? <==> forall k :: 0 <= k < |ops| ==> GenExpression(ops[k], decls).Ok?
    ensures r.Ok? ==> |r.value| == |ops| && forall k :: 0 <= k < |ops| ==> r.value[k] == GenExpression(ops[k], decls).value
    decreases |ops|
  {
    if |ops| == 0 then Ok([])
    else
      var e :- GenExpression(ops[0], decls);
      var es :- GenExpressions(ops[1..], decls);
      Ok([e] + es)
  }

  /** `tmp<I> := (a0, …, an)`, corrected: every field `tmp<I>.<F>` is
      replaced by the leaf of `aF`, and the whole temporary, typed by the
      first element, by the leaf of `a0`. A tuple of the wrong arity, or
      whose first element's type is not recognised, is refused. */
  function GenTupleAggregate(q: Expression, i: nat, ops: seq<Operand>, decls: Declarations): Result<Expression> {
    match TupleTargets(i, decls)
    case None => Err(Unsupported)
    case Some(xs) =>
      var es :- GenExpressions(ops, decls);
      if |xs| != |es| + 1 then Err(Unsupported) else Ok(SubstituteParallel(q, xs, [es[0]] + es))
  }

  /** The corrected rule is sound: when its precondition holds, building the
      tuple leaves a state satisfying `q`. */
  lemma TupleAggregateSound(q: Expression, s: Statement, env: Env, decls: Declarations, m: Machine)
    requires IsTupleAggregate(s, decls)
    requires GenTupleAggregate(q, s.lvalue.temp, s.rvalue.operands, decls).Ok?
    requires Holds(GenTupleAggregate(q, s.lvalue.temp, s.rvalue.operands, decls).value, env, m)
    ensures StepEstablishes(Step(s, env, decls, m), q, m)
  {
    var xs := TupleTargets(s.lvalue.temp, decls).value;
    var ops := s.rvalue.operands;
    var es := GenExpressions(ops, decls).value;
    forall k | 0 <= k < |ops|
      ensures OperandValue(ops[k], env, decls) == Some(Eval(es[k], env, m))
    {
      GenExpressionMeaning(ops[k], env, decls, m);
    }
    var vs := OperandValues(ops, env, decls).value;
    assert EvalAll([es[0]] + es, env, m) == [vs[0]] + vs;
    assert GenLvalue(s.lvalue, decls).Ok?;
    assert Step(s, env, decls, m) == Next(WriteSlots(xs, [vs[0]] + vs, env));
    ParallelSound(q, xs, [es[0]] + es, env, m);
  }

  // ---------------------------------------------------------------------
  // Building the tuple fills every field
  // ---------------------------------------------------------------------

  /** A place listed nowhere after position `k` ends up holding the value
      listed with it there. */
  lemma {:induction false} WriteSlotsValue(xs: seq<VariableMappingData>, vs: seq<Value>, env: Env, k: nat)
    requires |xs| == |vs| && k < |xs|
    requires forall j :: k < j < |xs| ==> xs[j] != xs[k]
    ensures Lookup(WriteSlots(xs, vs, env), xs[k]) == vs[k]
    decreases |xs|
  {
    var n := |xs| - 1;
    if k < n {
      assert xs[n] != xs[k];
      WriteSlotsValue(xs[..n], vs[..n], env, k);
    }
  }

  lemma TupleTargetAt(i: nat, decls: Declarations, k: nat)
    requires TupleTargets(i, decls).Some? && k < |TupleTargets(i, decls).value|
    ensures TupleTargets(i, decls).value[k].name == SlotName(i, k)
  {
  }

  /** After `tmp<I> := (a0, …, an)`, field `F` of the temporary, as
      `GenLvalue` names it, holds the value `aF` had before, and the whole
      temporary holds that of `a0`. */
  lemma TupleAggregateFillsFields(i: nat, ops: seq<Operand>, decls: Declarations, env: Env, f: nat)
    requires TupleTargets(i, decls).Some? && OperandValues(ops, env, decls).Some?
    requires |TupleTargets(i, decls).value| == |ops| + 1
    requires f < |ops|
    ensures var xs := TupleTargets(i, decls).value;
            var vs := OperandValues(ops, env, decls).value;
            var after := WriteSlots(xs, [vs[0]] + vs, env);
            var t := GenLvalue(Projection(Temp(i), Field(f)), decls);
            && t.Ok? && GenLvalue(Temp(i), decls).Ok?
            && Lookup(after, t.value) == OperandValue(ops[f], env, decls).value
            && Lookup(after, GenLvalue(Temp(i), decls).value) == OperandValue(ops[0], env, decls).value
  {
    var xs := TupleTargets(i, decls).value;
    var vs := OperandValues(ops, env, decls).value;
    forall k, j | 0 <= k < j < |xs|
      ensures xs[j] != xs[k]
    {
      TupleTargetAt(i, decls, k);
      TupleTargetAt(i, decls, j);
      SlotNamesDistinct(i, k, i, j);
    }
    WriteSlotsValue(xs, [vs[0]] + vs, env, f + 1);
    WriteSlotsValue(xs, [vs[0]] + vs, env, 0);
  }

  // ---------------------------------------------------------------------
  // A body whose tuple the generator's rule loses
  // ---------------------------------------------------------------------

  /** The debug rendering of a read of a local: `var<N>`. */
  function PrintedForm(a: Operand): string {
    if a == Consume(Var(0)) then "var0" else if a == Consume(Var(1)) then "var1" else ""
  }

  /** One temporary of type `(i32, bool)` and locals `var0: i32`,
      `var1: bool`, returning `i32`. */
  const BuildDecls: Declarations :=
    Declarations([], [TempDecl(TupleOf(["i32", "bool"]))], [VarDecl("x", Named("i32")), VarDecl("b", Named("bool"))],
                 I32, _ => false, PrintedForm)

  const X0 := VariableMappingData("var0", I32)
  const X1 := VariableMappingData("var1", Bool)

  /** `(var0, var1)` */
  const Components: seq<Operand> := [Consume(Var(0)), Consume(Var(1))]

  /** `tmp0 := (var0, var1); return := tmp0.0` */
  const BuildBody: seq<Statement> :=
    [Assign(Temp(0), Aggregate(Tuple, Components)), Assign(ReturnPointer, Use(Consume(Projection(Temp(0), Field(0)))))]

  /** `tmp0.0 = 7`, `var0 = 3`, `var1 = true` */
  const BuildStart: Env := map[T00 := IntV(7), X0 := IntV(3), X1 := BoolV(true)]

  /** `x == 7` holds exactly where `x` holds 7. */
  lemma IsSevenMeaning(x: VariableMappingData, env: Env, m: Machine)
    ensures Holds(BinaryExpression(Equal, VariableMapping(x), SignedBitVector(32, 7)), env, m) <==> Lookup(env, x) == IntV(7)
  {
    assert Eval(VariableMapping(x), env, m) == Lookup(env, x);
    assert Eval(SignedBitVector(32, 7), env, m) == IntV(7);
  }

  lemma BuildResolves()
    ensures GenLvalue(Temp(0), BuildDecls) == Ok(T0)
    ensures GenLvalue(Projection(Temp(0), Field(0)), BuildDecls) == Ok(T00)
    ensures GenLvalue(ReturnPointer, BuildDecls) == Ok(TupleRet)
    ensures GenLvalue(Var(0), BuildDecls) == Ok(X0) && GenLvalue(Var(1), BuildDecls) == Ok(X1)
    ensures TupleTargets(0, BuildDecls) == Some([T0, T00, T01])
  {
    TupleNames();
    assert VarName(0) == "var0" && VarName(1) == "var1";
    StringToTypeRoundTrip(Bool, "bool");
    var xs := TupleTargets(0, BuildDecls).value;
    assert |xs| == 3 && xs[0] == T0 && xs[1] == T00 && xs[2] == T01;
    assert xs == [T0, T00, T01];
  }

  /** The components' printed names and types, and their values at the
      start state. */
  lemma ComponentsResolve(m: Machine)
    ensures TupleComponents(Components, BuildDecls) == Ok([VariableMapping(X0), VariableMapping(X1)])
    ensures GenExpressions(Components, BuildDecls) == Ok([VariableMapping(X0), VariableMapping(X1)])
    ensures OperandValues(Components, BuildStart, BuildDecls) == Some([IntV(3), BoolV(true)])
  {
    BuildResolves();
    StringToTypeRoundTrip(I32, "i32");
    StringToTypeRoundTrip(Bool, "bool");
    assert GenTy(Components[0], BuildDecls) == Ok(I32) && GenTy(Components[1], BuildDecls) == Ok(Bool);
    assert BuildDecls.operandText(Components[0]) == "var0" && BuildDecls.operandText(Components[1]) == "var1";
    var es := [VariableMapping(X0), VariableMapping(X1)];
    var r := TupleComponents(Components, BuildDecls).value;
    assert r[0] == es[0] && r[1] == es[1] && r == es;
    var g := GenExpressions(Components, BuildDecls).value;
    assert g[0] == es[0] && g[1] == es[1] && g == es;
    assert OperandValue(Components[0], BuildStart, BuildDecls) == Some(IntV(3));
    assert OperandValue(Components[1], BuildStart, BuildDecls) == Some(BoolV(true));
    var vs := OperandValues(Components, BuildStart, BuildDecls).value;
    assert vs[0] == IntV(3) && vs[1] == BoolV(true) && vs == [IntV(3), BoolV(true)];
  }

  /** Building the witness's tuple from its start state. */
  lemma BuildStartSlots()
    ensures WriteSlots([T0, T00, T01], [IntV(3), IntV(3), BoolV(true)], BuildStart)
              == BuildStart[T0 := IntV(3)][T00 := IntV(3)][T01 := BoolV(true)]
  {
    var xs := [T0, T00, T01];
    var vs := [IntV(3), IntV(3), BoolV(true)];
    assert xs[..2] == [T0, T00] && xs[..2][..1] == [T0] && xs[..2][..1][..0] == [];
    assert vs[..2] == [IntV(3), IntV(3)] && vs[..2][..1] == [IntV(3)] && vs[..2][..1][..0] == [];
    assert WriteSlots(xs[..2][..1], vs[..2][..1], BuildStart) == BuildStart[T0 := IntV(3)];
    assert WriteSlots(xs[..2], vs[..2], BuildStart) == BuildStart[T0 := IntV(3)][T00 := IntV(3)];
  }

  /** The generator's precondition of the body is `tmp0.0 == 7`: the tuple
      does not reach the field. */
  lemma BuildPrecondition(m: Machine)
    ensures FoldBack(BuildBody, ReturnsSevenI32, BuildDecls) == Ok(FieldIsSeven)
    ensures Holds(FieldIsSeven, BuildStart, m)
  {
    IsSevenMeaning(T00, BuildStart, m);
    assert Lookup(BuildStart, T00) == IntV(7);
    BuildReadsField();
    BuildKeepsField(m);
    assert FoldBack(BuildBody[2..], ReturnsSevenI32, BuildDecls) == Ok(ReturnsSevenI32);
    assert BuildBody[1..][1..] == BuildBody[2..];
    assert FoldBack(BuildBody[1..], ReturnsSevenI32, BuildDecls) == Ok(FieldIsSeven);
  }

  /** `return := tmp0.0` turns `return == 7` into `tmp0.0 == 7`. */
  lemma BuildReadsField()
    ensures GenStmt(ReturnsSevenI32, BuildBody[1], BuildDecls) == Ok(FieldIsSeven)
  {
    BuildResolves();
  }

  /** The generator's rule for the tuple leaves `tmp0.0 == 7` alone. */
  lemma BuildKeepsField(m: Machine)
    ensures GenStmt(FieldIsSeven, BuildBody[0], BuildDecls) == Ok(FieldIsSeven)
  {
    BuildResolves();
    var es := [VariableMapping(X0), VariableMapping(X1)];
    ComponentsResolve(m);
    assert GenRhs(FieldIsSeven, T0, BuildBody[0].rvalue, BuildDecls) == Ok(Rewrite(FieldIsSeven, T0, es));
    assert !Mentions(FieldIsSeven, T0);
  }

  /** The tuple fills `tmp0`, `tmp0.0` and `tmp0.1` from `var0` and `var1`. */
  lemma BuildFirstStep(m: Machine)
    ensures Step(BuildBody[0], BuildStart, BuildDecls, m) == Next(BuildStart[T0 := IntV(3)][T00 := IntV(3)][T01 := BoolV(true)])
  {
    BuildResolves();
    ComponentsResolve(m);
    BuildStartSlots();
    assert [IntV(3)] + [IntV(3), BoolV(true)] == [IntV(3), IntV(3), BoolV(true)];
    assert IsTupleAggregate(BuildBody[0], BuildDecls) && !IsTupleCopy(BuildBody[0], BuildDecls);
  }

  /** `return := tmp0.0` then stores 3. */
  lemma BuildSecondStep(m: Machine)
    ensures var e1 := BuildStart[T0 := IntV(3)][T00 := IntV(3)][T01 := BoolV(true)];
            Step(BuildBody[1], e1, BuildDecls, m) == Next(e1[TupleRet := IntV(3)])
  {
    BuildResolves();
    assert !IsTupleCopy(BuildBody[1], BuildDecls) && !IsTupleAggregate(BuildBody[1], BuildDecls);
    assert !TouchesWholeTuple(BuildBody[1], BuildDecls);
  }

  /** Two statements that each continue run to the state the second leaves. */
  lemma RunPair(s0: Statement, s1: Statement, env: Env, e1: Env, e2: Env, decls: Declarations, m: Machine)
    requires Step(s0, env, decls, m) == Next(e1) && Step(s1, e1, decls, m) == Next(e2)
    ensures RunStatements([s0, s1], env, decls, m) == Next(e2)
  {
    assert [s0, s1][1..] == [s1] && [s1][1..] == [];
    assert RunStatements([s1], e1, decls, m) == Next(e2);
  }

  /** The state the body leaves when run from `tmp0.0 = 7, var0 = 3`. */
  lemma BuildRun(m: Machine)
    ensures RunStatements(BuildBody, BuildStart, BuildDecls, m)
              == Next(BuildStart[T0 := IntV(3)][T00 := IntV(3)][T01 := BoolV(true)][TupleRet := IntV(3)])
  {
    var e1 := BuildStart[T0 := IntV(3)][T00 := IntV(3)][T01 := BoolV(true)];
    BuildFirstStep(m);
    BuildSecondStep(m);
    RunPair(BuildBody[0], BuildBody[1], BuildStart, e1, e1[TupleRet := IntV(3)], BuildDecls, m);
    assert BuildBody == [BuildBody[0], BuildBody[1]];
  }

  /** With postcondition `return == 7`, the generator's precondition of
      `tmp0 := (var0, var1); return := tmp0.0` holds at
      `tmp0.0 = 7, var0 = 3`, yet from there the body returns 3. */
  lemma BuildCounterexample(m: Machine)
    ensures FoldBack(BuildBody, ReturnsSevenI32, BuildDecls).Ok?
    ensures Holds(FoldBack(BuildBody, ReturnsSevenI32, BuildDecls).value, BuildStart, m)
    ensures var run := RunStatements(BuildBody, BuildStart, BuildDecls, m);
            run.Next? && !Holds(ReturnsSevenI32, run.env, m)
  {
    BuildPrecondition(m);
    BuildRun(m);
    var e2 := BuildStart[T0 := IntV(3)][T00 := IntV(3)][T01 := BoolV(true)][TupleRet := IntV(3)];
    IsSevenMeaning(TupleRet, e2, m);
    assert Lookup(e2, TupleRet) == IntV(3);
  }

  /** The corrected rule on `tmp0 := (var0, var1)` with respect to
      `tmp0.0 == 7` yields `var0 == 7`, false at `var0 = 3`. */
  lemma BuildCorrectedRejects(m: Machine)
    ensures GenTupleAggregate(FieldIsSeven, 0, Components, BuildDecls).Ok?
    ensures !Holds(GenTupleAggregate(FieldIsSeven, 0, Components, BuildDecls).value, BuildStart, m)
  {
    var r := BinaryExpression(Equal, VariableMapping(X0), SignedBitVector(32, 7));
    BuildCorrectedRule(m);
    IsSevenMeaning(X0, BuildStart, m);
    assert Lookup(BuildStart, X0) == IntV(3);
  }

  /** The corrected rule rewrites `tmp0.0 == 7` into `var0 == 7`. */
  lemma BuildCorrectedRule(m: Machine)
    ensures GenTupleAggregate(FieldIsSeven, 0, Components, BuildDecls)
              == Ok(BinaryExpression(Equal, VariableMapping(X0), SignedBitVector(32, 7)))
  {
    BuildResolves();
    var es := [VariableMapping(X0), VariableMapping(X1)];
    ComponentsResolve(m);
    var xs := [T0, T00, T01];
    var ys := [es[0]] + es;
    assert ys == [VariableMapping(X0), VariableMapping(X0), VariableMapping(X1)];
    assert GenTupleAggregate(FieldIsSeven, 0, Components, BuildDecls) == Ok(SubstituteParallel(FieldIsSeven, xs, ys));
    assert xs[..2] == [T0, T00] && ys[..2] == [VariableMapping(X0), VariableMapping(X0)];
    assert Pick(xs, ys, T00, VariableMapping(T00)) == Pick(xs[..2], ys[..2], T00, VariableMapping(T00));
    assert SubstituteParallel(VariableMapping(T00), xs, ys) == VariableMapping(X0);
    assert SubstituteParallel(SignedBitVector(32, 7), xs, ys) == SignedBitVector(32, 7);
  }
}

=== FILE: tuple_copy.dfy ===
/** Copies of tuple temporaries. The generator names a tuple temporary
    `tmp<I>` and its fields `tmp<I>.<F>`, and treats `tmp<I> := tmp<J>` as
    an assignment to `tmp<I>` alone, so a predicate about a field of the
    copy passes through unchanged and the copy is lost. The corrected rule
    substitutes every slot: the whole temporary and each field. */
module TupleCopy {
  import opened Results
  import opened Expressions
  import opened Decimal
  import opened Mir
  import opened Resolve
  import opened Semantics
  import opened Statements
  import opened Walker
  import opened Execution

  /** `q` with each slot's target replaced by its source, the last slot
      first, so that read forwards the slots are copied in order. */
  function SubstituteSlots(q: Expression, ps: seq<(VariableMappingData, VariableMappingData)>): Expression
    decreases |ps|
  {
    if |ps| == 0 then q else Substitute(SubstituteSlots(q, ps[1..]), ps[0].0, VariableMapping(ps[0].1))
  }

  /** The substituted predicate holds exactly where `q` holds after the
      slots are copied. */
  lemma {:induction false} SlotsSound(q: Expression, ps: seq<(VariableMappingData, VariableMappingData)>, env: Env, m: Machine)
    ensures Eval(SubstituteSlots(q, ps), env, m) == Eval(q, CopySlots(ps, env), m)
    decreases |ps|
  {
    if |ps| > 0 {
      var env1 := env[ps[0].0 := Lookup(env, ps[0].1)];
      SubstituteSound(SubstituteSlots(q, ps[1..]), ps[0].0, VariableMapping(ps[0].1), env, m);
      SlotsSound(q, ps[1..], env1, m);
    }
  }

  /** Corrected precondition of `tmp<I> := tmp<J>` with respect to `q`:
      every slot of `tmp<I>` replaced by the matching slot of `tmp<J>`.
      Tuples of different shapes are refused. */
  function GenTupleCopy(q: Expression, i: nat, j: nat, decls: Declarations): Result<Expression> {
    match TupleSlots(i, j, decls)
    case None => Err(Unsupported)
    case Some(ps) => Ok(SubstituteSlots(q, ps))
  }

  /** The corrected rule is sound: when its precondition holds, the copy
      leaves a state satisfying `q`. */
  lemma TupleCopySound(q: Expression, s: Statement, env: Env, decls: Declarations, m: Machine)
    requires IsTupleCopy(s, decls)
    requires GenTupleCopy(q, s.lvalue.temp, s.rvalue.operand.lvalue.temp, decls).Ok?
    requires Holds(GenTupleCopy(q, s.lvalue.temp, s.rvalue.operand.lvalue.temp, decls).value, env, m)
    ensures StepEstablishes(Step(s, env, decls, m), q, m)
  {
    var ps := TupleSlots(s.lvalue.temp, s.rvalue.operand.lvalue.temp, decls).value;
    assert GenLvalue(s.lvalue, decls).Ok?;
    assert Step(s, env, decls, m) == Next(CopySlots(ps, env));
    SlotsSound(q, ps, env, m);
  }

  // ---------------------------------------------------------------------
  // The copy moves every field
  // ---------------------------------------------------------------------

  /** No slot's target is any slot's source, and no two slots share a
      target. */
  predicate SlotsDisjoint(ps: seq<(VariableMappingData, VariableMappingData)>) {
    && (forall a, b :: 0 <= a < |ps| && 0 <= b < |ps| ==> ps[a].0 != ps[b].1)
    && (forall a, b :: 0 <= a < b < |ps| ==> ps[a].0 != ps[b].0)
  }

  /** Copying leaves a variable that is no slot's target alone. */
  lemma {:induction false} CopySlotsFrame(ps: seq<(VariableMappingData, VariableMappingData)>, env: Env, x: VariableMappingData)
    requires forall a :: 0 <= a < |ps| ==> ps[a].0 != x
    ensures Lookup(CopySlots(ps, env), x) == Lookup(env, x)
    decreases |ps|
  {
    if |ps| > 0 {
      assert ps[0].0 != x;
      assert forall a :: 0 <= a < |ps[1..]| ==> ps[1..][a] == ps[a + 1];
      CopySlotsFrame(ps[1..], env[ps[0].0 := Lookup(env, ps[0].1)], x);
    }
  }

  /** When no target is a source and the targets are distinct, every target
      ends up holding its source's original value. */
  lemma {:induction false} CopySlotsValue(ps: seq<(VariableMappingData, VariableMappingData)>, env: Env, k: nat)
    requires SlotsDisjoint(ps) && k < |ps|
    ensures Lookup(CopySlots(ps, env), ps[k].0) == Lookup(env, ps[k].1)
    decreases |ps|
  {
    var env1 := env[ps[0].0 := Lookup(env, ps[0].1)];
    assert forall a :: 0 <= a < |ps[1..]| ==> ps[1..][a] == ps[a + 1];
    if k == 0 {
      CopySlotsFrame(ps[1..], env1, ps[0].0);
    } else {
      assert SlotsDisjoint(ps[1..]);
      CopySlotsValue(ps[1..], env1, k - 1);
      assert ps[k].1 != ps[0].0;
    }
  }

  /** The name of slot `k` of temporary `i`: the whole temporary, then its
      field `k - 1`. */
  function SlotName(i: nat, k: nat): string {
    if k == 0 then TempName(i) else FieldName(TempName(i), k - 1)
  }

  /** Slot names are distinct across temporaries and across slots. */
  lemma SlotNamesDistinct(i: nat, k: nat, j: nat, l: nat)
    requires i != j || k != l
    ensures SlotName(i, k) != SlotName(j, l)
  {
    if k == 0 && l == 0 {
      assert SlotName(i, k) == "tmp" + NatToString(i) && SlotName(j, l) == "tmp" + NatToString(j);
      if i != j && TempName(i) == TempName(j) { PrefixedInjective("tmp", i, j); }
    } else if k == 0 {
      assert FieldName(TempName(j), l - 1) != TempName(i) by { ProjectionNamesInjective(j, l - 1, i, 0); }
    } else if l == 0 {
      assert FieldName(TempName(i), k - 1) != TempName(j) by { ProjectionNamesInjective(i, k - 1, j, 0); }
    } else {
      assert FieldName(TempName(i), k - 1) != FieldName(TempName(j), l - 1) by {
        ProjectionNamesInjective(i, k - 1, j, l - 1);
      }
    }
  }

  lemma TupleSlotAt(i: nat, j: nat, decls: Declarations, k: nat)
    requires TupleSlots(i, j, decls).Some? && k < |TupleSlots(i, j, decls).value|
    ensures TupleSlots(i, j, decls).value[k].0.name == SlotName(i, k)
    ensures TupleSlots(i, j, decls).value[k].1.name == SlotName(j, k)
  {
  }

  /** The slots of a copy between two distinct temporaries are disjoint. */
  lemma TupleSlotsDisjoint(i: nat, j: nat, decls: Declarations)
    requires i != j && TupleSlots(i, j, decls).Some?
    ensures SlotsDisjoint(TupleSlots(i, j, decls).value)
  {
    var ps := TupleSlots(i, j, decls).value;
    forall a, b | 0 <= a < |ps| && 0 <= b < |ps|
      ensures ps[a].0 != ps[b].1
    {
      TupleSlotAt(i, j, decls, a);
      TupleSlotAt(i, j, decls, b);
      SlotNamesDistinct(i, a, j, b);
    }
    forall a, b | 0 <= a < b < |ps|
      ensures ps[a].0 != ps[b].0
    {
      TupleSlotAt(i, j, decls, a);
      TupleSlotAt(i, j, decls, b);
      SlotNamesDistinct(i, a, i, b);
    }
  }

  /** After a copy between distinct temporaries, field `F` of the copy holds
      what field `F` of the source held before. */
  lemma TupleCopyMovesFields(i: nat, j: nat, decls: Declarations, env: Env, f: nat)
    requires i != j && TupleSlots(i, j, decls).Some?
    requires f < |decls.temps[i].ty.elems|
    ensures var t := GenLvalue(Projection(Temp(i), Field(f)), decls);
            var u := GenLvalue(Projection(Temp(j), Field(f)), decls);
            t.Ok? && u.Ok?
            && Lookup(CopySlots(TupleSlots(i, j, decls).value, env), t.value) == Lookup(env, u.value)
  {
    var ps := TupleSlots(i, j, decls).value;
    TupleSlotsDisjoint(i, j, decls);
    CopySlotsValue(ps, env, f + 1);
  }

  // ---------------------------------------------------------------------
  // A body whose copy the generator's rule loses
  // ---------------------------------------------------------------------

  /** Two temporaries of type `(i32, bool)`, returning `i32`. */
  const TupleDecls: Declarations :=
    Declarations([], [TempDecl(TupleOf(["i32", "bool"])), TempDecl(TupleOf(["i32", "bool"]))], [], I32, _ => false, _ => "")

  const T0 := VariableMappingData("tmp0", I32)
  const T1 := VariableMappingData("tmp1", I32)
  const T00 := VariableMappingData("tmp0.0", I32)
  const T10 := VariableMappingData("tmp1.0", I32)
  const T01 := VariableMappingData("tmp0.1", I32)
  const T11 := VariableMappingData("tmp1.1", I32)
  const TupleRet := VariableMappingData("return", I32)

  /** `tmp0 := tmp1; return := tmp0.0` */
  const CopyBody: seq<Statement> :=
    [Assign(Temp(0), Use(Consume(Temp(1)))), Assign(ReturnPointer, Use(Consume(Projection(Temp(0), Field(0)))))]

  /** `return == 7` */
  const ReturnsSevenI32 := BinaryExpression(Equal, VariableMapping(TupleRet), SignedBitVector(32, 7))

  /** `tmp0.0 == 7` */
  const FieldIsSeven := BinaryExpression(Equal, VariableMapping(T00), SignedBitVector(32, 7))

  /** `tmp0.0 = 7`, `tmp1.0 = 3` */
  const CopyStart: Env := map[T00 := IntV(7), T10 := IntV(3)]

  lemma TupleNames()
    ensures TempName(0) == "tmp0" && TempName(1) == "tmp1"
    ensures FieldName("tmp0", 0) == "tmp0.0" && FieldName("tmp1", 0) == "tmp1.0"
    ensures FieldName("tmp0", 1) == "tmp0.1" && FieldName("tmp1", 1) == "tmp1.1"
    ensures StringToType("i32") == Ok(I32)
  {
    assert NatToString(0) == "0" && NatToString(1) == "1";
    StringToTypeRoundTrip(I32, "i32");
  }

  lemma CopyResolves()
    ensures GenLvalue(Temp(0), TupleDecls) == Ok(T0)
    ensures GenLvalue(Temp(1), TupleDecls) == Ok(T1)
    ensures GenLvalue(Projection(Temp(0), Field(0)), TupleDecls) == Ok(T00)
    ensures GenLvalue(ReturnPointer, TupleDecls) == Ok(TupleRet)
    ensures TupleSlots(0, 1, TupleDecls) == Some([(T0, T1), (T00, T10), (T01, T11)])
  {
    TupleNames();
    var ps := TupleSlots(0, 1, TupleDecls).value;
    assert |ps| == 3;
    assert ps[0] == (T0, T1) && ps[1] == (T00, T10) && ps[2] == (T01, T11);
    assert ps == [(T0, T1), (T00, T10), (T01, T11)];
  }

  /** Copying the slots of the witness from its start state. */
  lemma CopyStartSlots()
    ensures CopySlots([(T0, T1), (T00, T10), (T01, T11)], CopyStart) == CopyStart[T0 := IntV(0)][T00 := IntV(3)][T01 := IntV(0)]
  {
    var ps := [(T0, T1), (T00, T10), (T01, T11)];
    var e1 := CopyStart[T0 := IntV(0)];
    var e2 := e1[T00 := IntV(3)];
    var e3 := e2[T01 := IntV(0)];
    assert Lookup(CopyStart, T1) == IntV(0);
    assert Lookup(e1, T10) == IntV(3);
    assert Lookup(e2, T11) == IntV(0);
    assert ps[1..] == [(T00, T10), (T01, T11)] && ps[1..][1..] == [(T01, T11)];
    assert CopySlots(ps[1..][1..][1..], e3) == e3;
    assert CopySlots(ps[1..][1..], e2) == e3;
    assert CopySlots(ps[1..], e1) == e3;
  }

  /** The generator's precondition of the body is `tmp0.0 == 7`: the copy
      does not reach the field. */
  lemma CopyPrecondition(m: Machine)
    ensures FoldBack(CopyBody, ReturnsSevenI32, TupleDecls) == Ok(FieldIsSeven)
    ensures Holds(FieldIsSeven, CopyStart, m)
  {
    assert Eval(FieldIsSeven, CopyStart, m) == BoolV(true);
    CopyResolves();
    assert GenStmt(ReturnsSevenI32, CopyBody[1], TupleDecls) == Ok(FieldIsSeven);
    assert FoldBack(CopyBody[2..], ReturnsSevenI32, TupleDecls) == Ok(ReturnsSevenI32);
    assert CopyBody[1..][1..] == CopyBody[2..];
    assert FoldBack(CopyBody[1..], ReturnsSevenI32, TupleDecls) == Ok(FieldIsSeven);
    assert Substitute(FieldIsSeven, T0, VariableMapping(T1)) == FieldIsSeven;
    assert GenStmt(FieldIsSeven, CopyBody[0], TupleDecls) == Ok(FieldIsSeven);
  }

  /** Running the body from `tmp0.0 = 7, tmp1.0 = 3` returns 3. */
  lemma CopyBodyReturnsSource(m: Machine)
    ensures var run := RunStatements(CopyBody, CopyStart, TupleDecls, m);
            run.Next? && Lookup(run.env, TupleRet) == IntV(3) && !Holds(ReturnsSevenI32, run.env, m)
  {
    CopyResolves();
    var e1 := CopyStart[T0 := IntV(0)][T00 := IntV(3)][T01 := IntV(0)];
    var e2 := e1[TupleRet := IntV(3)];
    assert IsTupleCopy(CopyBody[0], TupleDecls);
    CopyStartSlots();
    assert Step(CopyBody[0], CopyStart, TupleDecls, m) == Next(e1);
    assert !IsTupleCopy(CopyBody[1], TupleDecls) && !TouchesWholeTuple(CopyBody[1], TupleDecls);
    assert Step(CopyBody[1], e1, TupleDecls, m) == Next(e2);
    assert RunStatements(CopyBody[2..], e2, TupleDecls, m) == Next(e2);
    assert CopyBody[1..][1..] == CopyBody[2..];
    assert RunStatements(CopyBody[1..], e1, TupleDecls, m) == Next(e2);
    assert RunStatements(CopyBody, CopyStart, TupleDecls, m) == Next(e2);
    assert Eval(ReturnsSevenI32, e2, m) == BoolV(false);
  }

  /** With postcondition `return == 7`, the generator's precondition of
      `tmp0 := tmp1; return := tmp0.0` holds at `tmp0.0 = 7, tmp1.0 = 3`,
      yet from there the body returns 3. */
  lemma CopyCounterexample(m: Machine)
    ensures FoldBack(CopyBody, ReturnsSevenI32, TupleDecls).Ok?
    ensures Holds(FoldBack(CopyBody, ReturnsSevenI32, TupleDecls).value, CopyStart, m)
    ensures var run := RunStatements(CopyBody, CopyStart, TupleDecls, m);
            run.Next? && !Holds(ReturnsSevenI32, run.env, m)
  {
    CopyPrecondition(m);
    CopyBodyReturnsSource(m);
  }

  /** The corrected rule on `tmp0 := tmp1` with respect to `tmp0.0 == 7`
      yields a precondition that is false at `tmp0.0 = 7, tmp1.0 = 3`. */
  lemma CopyCorrectedRejects(m: Machine)
    ensures GenTupleCopy(FieldIsSeven, 0, 1, TupleDecls).Ok?
    ensures !Holds(GenTupleCopy(FieldIsSeven, 0, 1, TupleDecls).value, CopyStart, m)
  {
    CopyResolves();
    var ps := [(T0, T1), (T00, T10), (T01, T11)];
    SlotsSound(FieldIsSeven, ps, CopyStart, m);
    var e1 := CopyStart[T0 := IntV(0)][T00 := IntV(3)][T01 := IntV(0)];
    CopyStartSlots();
    assert Eval(FieldIsSeven, e1, m) == BoolV(false);
  }
}

=== FILE: walker.dfy ===
/** The control-flow-graph walker: the weakest precondition at the entry of a
    block is the predicate its terminator contributes, with the block's
    statements folded into it from last to first. */
module Walker {
  import opened Results
  import opened Expressions
  import opened Mir
  import opened Resolve
  import opened Statements

  /** A branch condition: a boolean constant or the variable a read resolves to. */
  function CondExpression(cond: Operand, decls: Declarations): (r: Result<Expression>)
    ensures cond.Consume? ==>
              (r.Ok? <==> GenLvalue(cond.lvalue, decls).Ok?)
              && (r.Ok? ==> r.value == VariableMapping(GenLvalue(cond.lvalue, decls).value))
    ensures cond.Constant? && cond.constant.literal.Value? && cond.constant.literal.value.BoolConst? ==>
              r == Ok(BooleanLiteral(cond.constant.literal.value.b))
    ensures r.Ok? ==> r.value.BooleanLiteral? || r.value.VariableMapping?
  {
    match cond
    case Constant(c) =>
      (match c.literal
       case Value(value) =>
         (match value
          case BoolConst(b) => Ok(BooleanLiteral(b))
          case _ => Err(WpError.Unreachable))
       case _ => Err(Unimplemented))
    case Consume(l) =>
      var v :- GenLvalue(l, decls);
      Ok(VariableMapping(v))
  }

  /** The predicate of a call: only a constant callee recognised as the panic
      entry point is handled, and the panic path admits no state at all. */
  function CallWp(func: Operand, decls: Declarations): Result<Expression> {
    match func
    case Constant(c) => if decls.isPanicEntry(c.literal) then Ok(BooleanLiteral(false)) else Err(WpError.Unreachable)
    case Consume(_) => Err(Unimplemented)
  }

  /** `(c ==> wpIf) && (!c ==> wpElse)` */
  function Merge(c: Expression, wpIf: Expression, wpElse: Expression): Expression {
    Conjoin(Implies(c, wpIf), Implies(Negate(c), wpElse))
  }

  function Reverse<T>(s: seq<T>): (r: seq<T>)
    ensures |r| == |s|
    ensures forall i :: 0 <= i < |s| ==> r[i] == s[|s| - 1 - i]
  {
    if |s| == 0 then [] else Reverse(s[1..]) + [s[0]]
  }

  /** Folds the statements, in the order given, into the predicate. */
  function FoldStatements(stmts: seq<Statement>, wp: Expression, decls: Declarations): Result<Expression>
    decreases |stmts|
  {
    if |stmts| == 0 then Ok(wp)
    else
      var next :- GenStmt(wp, stmts[0], decls);
      FoldStatements(stmts[1..], next, decls)
  }

  /** Reference composition law: the precondition of `s; rest` is the
      precondition of `s` with respect to that of `rest`. */
  function FoldBack(stmts: seq<Statement>, wp: Expression, decls: Declarations): Result<Expression>
    decreases |stmts|
  {
    if |stmts| == 0 then Ok(wp)
    else
      var rest :- FoldBack(stmts[1..], wp, decls);
      GenStmt(rest, stmts[0], decls)
  }

  /** Computes the weakest precondition at the entry of block `index` with
      respect to `post`, the predicate every `Return` must establish. */
  function Gen(index: nat, data: MirData, post: Expression, ghost rank: seq<nat>): Result<Expression>
    requires Ranked(data, rank)
    decreases Height(data, rank, index)
  {
    if index >= |data.blocks| then Err(OutOfBounds)
    else
      var block := data.blocks[index];
      match block.terminator
      case None => Err(MissingTerminator)
      case Some(term) =>
        match term
        case Return => Ok(post)
        case Call(func, _) => CallWp(func, data.decls)
        case Goto(t) =>
          assert t in Successors(block);
          var wp :- Gen(t, data, post, rank);
          FoldStatements(Reverse(block.statements), wp, data.decls)
        case Assert(_, _, t) =>
          assert t in Successors(block);
          var wp :- Gen(t, data, post, rank);
          FoldStatements(Reverse(block.statements), wp, data.decls)
        case If(cond, t, e) =>
          assert t in Successors(block) && e in Successors(block);
          var wpIf :- Gen(t, data, post, rank);
          var wpElse :- Gen(e, data, post, rank);
          var c :- CondExpression(cond, data.decls);
          FoldStatements(Reverse(block.statements), Merge(c, wpIf, wpElse), data.decls)
        case _ => Err(Unimplemented)
  }

  // ---------------------------------------------------------------------
  // Folding statements backwards
  // ---------------------------------------------------------------------

  lemma {:induction false} FoldStatementsAppend(prefix: seq<Statement>, last: Statement, wp: Expression, decls: Declarations)
    ensures FoldStatements(prefix + [last], wp, decls) ==
              match FoldStatements(prefix, wp, decls)
              case Ok(q) => GenStmt(q, last, decls)
              case Err(e) => Err(e)
    decreases |prefix|
  {
    if |prefix| == 0 {
      assert prefix + [last] == [last];
      assert [last][1..] == [];
    } else {
      assert (prefix + [last])[0] == prefix[0];
      assert (prefix + [last])[1..] == prefix[1..] + [last];
      var next := GenStmt(wp, prefix[0], decls);
      if next.Ok? {
        FoldStatementsAppend(prefix[1..], last, next.value, decls);
      }
    }
  }

  /** Folding the reversed statement list front to back is the composition
      law: the last statement is applied first and the first one last. */
  lemma {:induction false} FoldReverseIsFoldBack(stmts: seq<Statement>, wp: Expression, decls: Declarations)
    ensures FoldStatements(Reverse(stmts), wp, decls) == FoldBack(stmts, wp, decls)
    decreases |stmts|
  {
    if |stmts| > 0 {
      assert Reverse(stmts) == Reverse(stmts[1..]) + [stmts[0]];
      FoldStatementsAppend(Reverse(stmts[1..]), stmts[0], wp, decls);
      FoldReverseIsFoldBack(stmts[1..], wp, decls);
    }
  }

  /** `wp(s; t, Q) = wp(s, wp(t, Q))` for statement sequences. */
  lemma {:induction false} FoldBackSequential(s: seq<Statement>, t: seq<Statement>, wp: Expression, decls: Declarations)
    ensures FoldBack(s + t, wp, decls) ==
              match FoldBack(t, wp, decls)
              case Ok(q) => FoldBack(s, q, decls)
              case Err(e) => Err(e)
    decreases |s|
  {
    if |s| == 0 {
      assert s + t == t;
    } else {
      assert (s + t)[0] == s[0];
      assert (s + t)[1..] == s[1..] + t;
      FoldBackSequential(s[1..], t, wp, decls);
    }
  }

  // ---------------------------------------------------------------------
  // What each terminator contributes
  // ---------------------------------------------------------------------

  /** A `Return` block yields the postcondition itself; its own statements are
      not folded. */
  lemma GenReturn(index: nat, data: MirData, post: Expression, rank: seq<nat>)
    requires Ranked(data, rank)
    requires index < |data.blocks| && data.blocks[index].terminator == Some(Return)
    ensures Gen(index, data, post, rank) == Ok(post)
  {
  }

  /** `Goto` and `Assert` yield their target's precondition, with the block's
      statements folded backwards into it. */
  lemma GenJump(index: nat, data: MirData, post: Expression, rank: seq<nat>, target: nat)
    requires Ranked(data, rank)
    requires index < |data.blocks|
    requires JumpsTo(data.blocks[index].terminator, target)
    ensures Gen(index, data, post, rank) ==
              match Gen(target, data, post, rank)
              case Ok(wp) => FoldBack(data.blocks[index].statements, wp, data.decls)
              case Err(e) => Err(e)
  {
    var w := Gen(target, data, post, rank);
    if w.Ok? {
      FoldReverseIsFoldBack(data.blocks[index].statements, w.value, data.decls);
    }
  }

  /** An `If` yields `(c ==> wp(then)) && (!c ==> wp(else))` with the block's
      statements folded in; it is refused when either branch or the
      condition is. */
  lemma GenBranch(index: nat, data: MirData, post: Expression, rank: seq<nat>, cond: Operand, t: nat, e: nat)
    requires Ranked(data, rank)
    requires index < |data.blocks| && data.blocks[index].terminator == Some(If(cond, t, e))
    ensures var wpIf := Gen(t, data, post, rank);
            var wpElse := Gen(e, data, post, rank);
            var c := CondExpression(cond, data.decls);
            && (wpIf.Ok? && wpElse.Ok? && c.Ok? ==>
                  Gen(index, data, post, rank) ==
                    FoldBack(data.blocks[index].statements, Merge(c.value, wpIf.value, wpElse.value), data.decls))
            && (!(wpIf.Ok? && wpElse.Ok? && c.Ok?) ==> Gen(index, data, post, rank).Err?)
  {
    var wpIf := Gen(t, data, post, rank);
    var wpElse := Gen(e, data, post, rank);
    var c := CondExpression(cond, data.decls);
    if wpIf.Ok? && wpElse.Ok? && c.Ok? {
      FoldReverseIsFoldBack(data.blocks[index].statements, Merge(c.value, wpIf.value, wpElse.value), data.decls);
    }
  }

  /** A call to the panic entry point yields `false` whatever its arguments
      and the block's statements; every other call is refused. */
  lemma GenCall(index: nat, data: MirData, post: Expression, rank: seq<nat>, func: Operand, args: seq<Operand>)
    requires Ranked(data, rank)
    requires index < |data.blocks| && data.blocks[index].terminator == Some(Call(func, args))
    ensures func.Constant? && data.decls.isPanicEntry(func.constant.literal) ==>
              Gen(index, data, post, rank) == Ok(BooleanLiteral(false))
    ensures func.Constant? && !data.decls.isPanicEntry(func.constant.literal) ==>
              Gen(index, data, post, rank) == Err(WpError.Unreachable)
    ensures func.Consume? ==> Gen(index, data, post, rank) == Err(Unimplemented)
  {
  }

  /** Switches, drops, unwinding and unreachable markers are refused, as are a
      missing block and a missing terminator. */
  lemma GenRefuses(index: nat, data: MirData, post: Expression, rank: seq<nat>)
    requires Ranked(data, rank)
    ensures index >= |data.blocks| ==> Gen(index, data, post, rank) == Err(OutOfBounds)
    ensures index < |data.blocks| && data.blocks[index].terminator.None? ==>
              Gen(index, data, post, rank) == Err(MissingTerminator)
    ensures index < |data.blocks| && data.blocks[index].terminator.Some? &&
            data.blocks[index].terminator.value in {Switch, SwitchInt, Resume, Terminator.Unreachable, Drop, DropAndReplace} ==>
              Gen(index, data, post, rank) == Err(Unimplemented)
  {
  }

  // ---------------------------------------------------------------------
  // The walk only depends on what lies below
  // ---------------------------------------------------------------------

  /** Two bodies with the same declarations that agree on every block of rank
      below `bound` have the same preconditions at those blocks. */
  lemma {:induction false} GenFrame(index: nat, data: MirData, other: MirData, post: Expression, rank: seq<nat>, bound: nat)
    requires Ranked(data, rank) && Ranked(other, rank)
    requires other.decls == data.decls && |other.blocks| == |data.blocks|
    requires forall j :: 0 <= j < |data.blocks| && rank[j] < bound ==> other.blocks[j] == data.blocks[j]
    requires index < |data.blocks| ==> rank[index] < bound
    ensures Gen(index, data, post, rank) == Gen(index, other, post, rank)
    decreases Height(data, rank, index)
  {
    if index < |data.blocks| {
      var block := data.blocks[index];
      assert other.blocks[index] == block;
      forall t | t in Successors(block)
        ensures Gen(t, data, post, rank) == Gen(t, other, post, rank)
      {
        GenFrame(t, data, other, post, rank, bound);
      }
      match block.terminator
      case Some(Goto(t)) =>
        assert t in Successors(block);
      case Some(Assert(_, _, t)) =>
        assert t in Successors(block);
      case Some(If(_, t, e)) =>
        assert t in Successors(block) && e in Successors(block);
      case _ =>
    }
  }

  /** The condition and expected value of an `Assert` play no part: the
      block yields the same precondition as a `Goto` to the same target. */
  lemma GenAssertIgnoresCondition(index: nat, data: MirData, post: Expression, rank: seq<nat>,
                                  cond: Operand, expected: bool, target: nat)
    requires Ranked(data, rank)
    requires index < |data.blocks| && data.blocks[index].terminator == Some(Assert(cond, expected, target))
    ensures var asGoto := data.(blocks := data.blocks[index := data.blocks[index].(terminator := Some(Goto(target)))]);
            Ranked(asGoto, rank) && Gen(index, data, post, rank) == Gen(index, asGoto, post, rank)
  {
    var block := data.blocks[index];
    var asGoto := data.(blocks := data.blocks[index := block.(terminator := Some(Goto(target)))]);
    assert Successors(asGoto.blocks[index]) == Successors(block);
    assert forall b :: 0 <= b < |data.blocks| ==> Successors(asGoto.blocks[b]) == Successors(data.blocks[b]);
    assert Ranked(asGoto, rank);
    assert target in Successors(block);
    if target < |data.blocks| {
      GenFrame(target, data, asGoto, post, rank, rank[index]);
    }
  }
}
